=== FILE: README.md ===
# Dream City Finder — a verified model of its core

Dream City Finder asks a visitor to rate city features, ranks US cities
against those ratings, and shows the best 25 in a three-group carousel that
pages five cards at a time. A second tool orders a trip through a list of
cities. This project models, in Dafny, the parts of the program that decide
what is computed and shown:

- **Carousel** (`components/suggestions/suggestions.js`). A page state holds:
  - the rank-keyed suggestions;
  - the cursor `firstRank`;
  - the role classes of the three result groups;
  - what each group shows;
  - the button lock and visibility;
  - the queue of scheduled timer callbacks.

  `showResults` is split into `Begin`, its call-time half, and `Commit`, the
  timer callback. **CarouselLaws** proves the invariants of every reachable
  page and the rotation laws.
- **RankMap**. The `Object.entries` view of the `"1".."N"` map, the lookup by
  key, and JavaScript's `slice`.
- **SuggestApi** (`api/app.py`). It covers:
  - normalising raw results;
  - the FIPS fallback;
  - rescaling scores to 0–100;
  - choosing the shared reasons list;
  - assembling the dense rank map.
- **SuggestionAlgo** (`suggestion_algo.py`). It covers:
  - column and header picking;
  - min-max normalisation;
  - the per-feature contribution rules;
  - choice of the best `top_n` rows.
- **Tours**. The nearest-neighbour tour and the 2-opt improvement shared by
  both trip solvers.
- **TripMapper** (`trip_mapper.py`) and **LegacyTripMapper**
  (`CityFinder/trip_mapper.py`). The distance tables, `solve_trip`, and the
  script's closing of the route at its home city.
- **Preferences** (`components/preferences/preferences.js`). The ratings map,
  the questions of a category, the view toggle and the Find City request
  cycle.
- **TripPlanner** (`components/trip-planner/trip-planner.js`). The parsing of
  home and stops, the Plan button cycle, and the points and segments of the
  drawn route.
- **Wrappers**, **Text**, **Values** and **Numeric**. Shared helpers:
  - `Option`/`Result`;
  - trimming, splitting, padding and decimal strings;
  - Python and JavaScript truthiness;
  - real-number facts.

Geocoding, the haversine distance, the FIPS table lookup and the map
projection are function parameters.

Four facts about the carousel code shape the model:

- **The cursor moves by exactly 5 and is never clamped.** Paging forward is
  allowed while `firstRank + 5 <= total`. With 12 results the cursor goes
  1 → 6 → 11, and the last window shows two cards
  (`CarouselLaws.TwelveResults`).
- **Loading new results does not cancel a scheduled callback.** There is no
  `clearTimeout`. `CarouselLaws.LoadDuringTransition` shows the effect: a
  forward callback that fires after a load of at most five results leaves the
  cursor at 6, outside `[1, max(1, total)]`.
- **Loading does not validate the ranks.** The server always builds the dense
  keys `"1".."N"` (`SuggestApi.Suggest` proves `Dense`), and the page
  invariant assumes density.
- **The far groups are refilled only in the direction of travel.** Nothing is
  pre-rendered. `CarouselLaws.CommitShowsWindows` shows that once the
  groups show the windows around the cursor, they keep showing them after
  every timer firing. No lemma shows that a load makes them show those
  windows, because the rendering after a load is not part of the program
  as written.

The template also displays both navigation buttons before any result set
has arrived. A click then disables both, and since the guard fails on the
empty map no callback is scheduled to enable them again. A later load does
not clear the lock either (`CarouselLaws.EarlyClickLocksOut`). The page
invariant is therefore stated from the first load on
(`CarouselLaws.FirstLoadWellFormed`).

## Model

| member | source | states |
|---|---|---|
| Carousel.QueryRole | components/suggestions/suggestions.js:119-121 | the group found for a role is the first one in document order that carries the class; none is found only when no group carries it |
| Carousel.UpdateCarousel | components/suggestions/suggestions.js:97-108 | the previous button is shown exactly when a backward `showResults` would pass its guard, the next button exactly when a forward one would; nothing else changes |
| Carousel.Begin | components/suggestions/suggestions.js:115-131 | the buttons are disabled whatever the guard says; a refused call schedules nothing, and neither does one that throws because a group with one of the three roles is missing; otherwise exactly one callback is appended after those already scheduled, capturing the groups that hold left, middle and right and the current total |
| Carousel.Press | components/suggestions/suggestions.js:27-32 | a disabled button delivers no click; a shown, enabled button runs the call-time half of `showResults` |
| Carousel.Load | components/preferences/preferences.js:195-199 | a load installs the new entries with the cursor at 1, hides the previous button, shows the next button exactly when there are at least six results, and keeps the lock, the roles and any scheduled callback |
| Carousel.Pad2 | components/suggestions/suggestions.js:40 | an empty code becomes "00", a one-character code gets a leading zero, a longer one is kept |
| Carousel.ImagePathFor | components/suggestions/suggestions.js:40-45 | an empty FIPS code gives `city_images/00000.jpg`, a one-digit code is zero-padded (`city_images/0d000.jpg`), and a code of two or more characters is used as it is |
| Carousel.ImagePathSharing | components/suggestions/suggestions.js:40-45 | two suggestions share an image exactly when their FIPS codes pad to the same code, so `"5"` and `"05"` share one |
| Carousel.ReasonNames | components/suggestions/suggestions.js:53 | each reason is replaced by its display name when it has a non-empty one and kept otherwise, one name per reason |
| Carousel.DisplayHighlight | components/suggestions/suggestions.js:47-73 | a rank that is not in the map leaves the page unchanged; a present one changes only the highlight, which shows that rank, the city and state (`""` when falsy), the display names of its reasons and its image path |
| CarouselLaws.HoldersUnique | components/suggestions/suggestions.js:119-121 | when the three groups carry one distinct role each, every role is found and the group found carries that role alone |
| CarouselLaws.RelabelCycle | components/suggestions/suggestions.js:133-160 | the backward relabelling undoes the forward one and vice versa, and three forward relabellings are the identity |
| CarouselLaws.RotateForwardRelabels | components/suggestions/suggestions.js:133-135 | the forward class changes turn middle into left, right into middle and left into right on every group, and the roles stay a permutation |
| CarouselLaws.RotateBackwardRelabels | components/suggestions/suggestions.js:158-160 | the backward class changes turn middle into right, left into middle and right into left on every group, and the roles stay a permutation |
| CarouselLaws.StepForward | components/suggestions/suggestions.js:133-135 | one forward rotation of a well-roled page relabels every group forward and leaves the roles a permutation |
| CarouselLaws.StepBackward | components/suggestions/suggestions.js:158-160 | one backward rotation relabels every group backward and leaves the roles a permutation |
| CarouselLaws.ForwardThenBackward | components/suggestions/suggestions.js:133-160 | a backward rotation after a forward one gives back the original classes |
| CarouselLaws.ThreeForwardRotations | components/suggestions/suggestions.js:133-135 | three forward rotations give back the original classes: no group is created or lost, only labels move |
| CarouselLaws.FirstLoadWellFormed | components/preferences/preferences.js:195-199 | the first dense load into the page as the template creates it gives a page that satisfies the invariant |
| CarouselLaws.LockedStaysLocked | components/suggestions/suggestions.js:123-131 | disabled buttons with no callback scheduled stay disabled whatever clicks, timer firings and selections follow |
| CarouselLaws.EarlyClickLocksOut | components/suggestions/suggestions.js:27-32 | a click before any result set disables both buttons and schedules nothing, and after any later load and any events the buttons are still disabled |
| CarouselLaws.LoadWellFormed | components/preferences/preferences.js:195-199 | loading a dense result set into an idle well-formed page gives a well-formed page |
| CarouselLaws.PressWellFormed | components/suggestions/suggestions.js:123-131 | a click keeps the page invariant; a click on a disabled page changes nothing; an accepted click schedules one callback that captures the current groups and total |
| CarouselLaws.ForwardCommitShape | components/suggestions/suggestions.js:132-150 | the forward callback rotates, adds 5 to the cursor, refills the group that was left with the window after the new one when that window is not empty, and unlocks |
| CarouselLaws.BackwardCommitShape | components/suggestions/suggestions.js:157-175 | the backward callback rotates, subtracts 5, refills the group that was right with the five ranks before the new window when the cursor is past 1, and unlocks |
| CarouselLaws.ForwardCommitWellFormed | components/suggestions/suggestions.js:132-150 | a forward callback keeps the page invariant, unlocks, moves the cursor up by exactly 5 and keeps the entries |
| CarouselLaws.BackwardCommitWellFormed | components/suggestions/suggestions.js:157-175 | a backward callback keeps the page invariant, unlocks, moves the cursor down by exactly 5 and keeps the entries |
| CarouselLaws.CommitWellFormed | components/suggestions/suggestions.js:126-176 | any timer firing keeps the invariant; with nothing scheduled it changes nothing; otherwise the cursor moves by ±5 and the buttons are enabled again |
| CarouselLaws.ForwardRefill | components/suggestions/suggestions.js:141-146 | after a forward commit the former left group carries right and shows ranks `F+5 .. min(F+9, total)` when any exist, else keeps its cards; the other groups keep theirs |
| CarouselLaws.BackwardRefill | components/suggestions/suggestions.js:165-171 | after a backward commit to `F > 1` the former right group carries left and shows exactly the five ranks `F-5 .. F-1`; at `F = 1` no group is refilled |
| CarouselLaws.NavigationRoundTrip | components/suggestions/suggestions.js:126-176 | a completed forward step enables the previous button, and a backward step from there restores the cursor; the same holds the other way round |
| CarouselLaws.CommitShowsWindows | components/suggestions/suggestions.js:141-171 | when the groups show the window at the cursor and its neighbours that exist, they still do after any timer firing |
| CarouselLaws.RunWellFormed | components/suggestions/suggestions.js:115-177 | under any sequence of clicks, timer firings and highlight selections the page stays well formed, the cursor stays on 1, 6, 11, … within `[1, max(1, total)]`, and the entries never change |
| CarouselLaws.TwelveResults | components/suggestions/suggestions.js:126-150 | with 12 results two forward steps reach cursor 11, where next is hidden, previous is shown and the window holds two cards |
| CarouselLaws.ForwardStep | components/suggestions/suggestions.js:126-150 | clicking next on an idle page and letting the timer fire gives a well-formed idle page with the cursor 5 higher |
| CarouselLaws.BackwardStep | components/suggestions/suggestions.js:151-175 | clicking previous on an idle page and letting the timer fire gives a well-formed idle page with the cursor 5 lower |
| CarouselLaws.LoadDuringTransition | components/suggestions/suggestions.js:132-138 | a load of at most five results while a forward callback is pending leaves the cursor at 6, outside the range the invariant requires |
| RankMap.Lookup | components/suggestions/suggestions.js:48 | a key is found exactly when some entry carries it |
| RankMap.DenseLookup | components/suggestions/suggestions.js:48 | in a dense map the key of rank r is found exactly when `1 <= r <= N`, and it gives entry `r - 1` |
| RankMap.JsSlice | components/suggestions/suggestions.js:144 | the slice is the ordinary subsequence when both bounds are in range and empty when the end is not after the start |
| RankMap.WindowRanks | components/suggestions/suggestions.js:141-146 | the window at rank F of a dense map lists ranks F, F+1, … in order, five of them when the map has them and the remaining tail otherwise |
| Text.Trim | api/app.py:99-101 | the result has no whitespace at either end and is what is left after removing the leading and trailing whitespace |
| Text.TrimIdempotent | api/app.py:99-101 | trimming twice is trimming once |
| Text.Split | components/trip-planner/trip-planner.js:110 | no piece contains the separator, and joining the pieces with it gives back the input |
| Text.SplitJoin | components/trip-planner/trip-planner.js:110 | splitting the join of separator-free pieces gives back the pieces |
| Text.JoinConcat | components/trip-planner/trip-planner.js:110 | joining two non-empty piece lists is joining each with one separator between |
| Text.SplitConcat | components/trip-planner/trip-planner.js:110 | splitting at a separator placed between two strings splits each of them |
| Text.SplitOnce | api/app.py:99 | splitting at the first separator: the head contains no separator and head, separator and tail rebuild the input |
| Text.PadStart | components/suggestions/suggestions.js:40 | a string at least as wide as asked is kept; a shorter one is left-filled to exactly the width and ends with the original |
| Text.Lower | suggestion_algo.py:36 | lower-casing keeps the length and lowers each letter in place |
| Text.NatToString | api/app.py:139 | `str(i)` is a non-empty digit string without a leading zero, one digit exactly below 10 |
| Text.DigitsOfNatToString | api/app.py:139 | the digits written for a number read back as that number |
| Text.NatToStringInjective | api/app.py:136-139 | different ranks get different keys |
| Text.ParseInt | components/preferences/preferences.js:92 | `parseInt` gives NaN exactly when no digit follows the leading whitespace and an optional sign |
| Text.ParseIntOfNatToString | components/preferences/preferences.js:92 | `parseInt` reads back the decimal string of a number |
| Values.PyOr | api/app.py:94 | Python's `or` gives its left operand when it is truthy and its right one otherwise |
| Values.JsOr | components/suggestions/suggestions.js:51-52 | JavaScript's `\|\|` gives its left operand when it is truthy (arrays and objects included) and its right one otherwise |
| Values.AsNumber | api/app.py:108 | a value counts as a number exactly when it is an int or float, Python booleans included |
| Values.UserWeight | suggestion_algo.py:144-148 | a missing or unparseable preference weighs 0; otherwise its parsed value |
| Numeric.MaxOf | api/app.py:109 | the maximum is a member no smaller than any member |
| Numeric.MinOf | api/app.py:120 | the minimum is a member no larger than any member |
| SuggestApi.FirstTruthy | api/app.py:94-95 | the first truthy of three alternatives, or "" when none is |
| SuggestApi.Normalize | api/app.py:92-105 | a dict takes each field from its first truthy alternative; a string with a comma gives the trimmed text before its first comma as city and the trimmed rest as state; a string without one gives the trimmed string and an empty state; anything else gives its `str` and an empty state; only a dict carries a score |
| SuggestApi.NormalizeCityState | api/app.py:97-101 | normalising `"city, state"` gives back the city and the state when the city has no comma and both are trimmed |
| SuggestApi.StateFips | api/app.py:47-60 | an empty state gives "00"; otherwise the table lookup when it answers, else the state's code from the fixed table or "00" for an unknown state |
| SuggestApi.Round | api/app.py:127 | Python's `round` lands within one half of its argument, ties going to the even neighbour |
| SuggestApi.RoundOfInteger | api/app.py:127 | rounding an integer gives it back |
| SuggestApi.RoundMonotone | api/app.py:127 | rounding keeps order |
| SuggestApi.ScaleOne | api/app.py:123-127 | the result is `100 * (s - min) / (max - min)` rounded to the nearest integer, halves to even; it lies in 0..100, with the maximum at 100 and the minimum at 0 |
| SuggestApi.ScaleOneMonotone | api/app.py:123-127 | a higher score never gets a lower scaled score |
| SuggestApi.ScaledOne | api/app.py:123-131 | only numeric scores get a scaled score: `100 * (s - min) / (max - min)` rounded half to even when the bounds differ, 100 when they are equal; it lies in 0..100 |
| SuggestApi.ScaledOneMonotone | api/app.py:123-131 | scaling keeps the order of numeric scores |
| SuggestApi.Numbers | api/app.py:108 | the shown numeric scores are exactly the numeric scores of the results |
| SuggestApi.NumbersBetween | api/app.py:108-120 | every numeric score lies between the minimum and the maximum used for scaling |
| SuggestApi.Scaled | api/app.py:107-131 | exactly the numeric scores are scaled, into 0..100; with distinct bounds each is `ScaleOne` of its score between the shown minimum and maximum; the best gets 100; the lowest gets 0 unless all are equal; the order of scores is kept |
| SuggestApi.ScaleAll | api/app.py:124-131 | one scaled value per result, in result order, ordered like the scores |
| SuggestApi.Candidates | api/app.py:63-72 | the loop keeps exactly the non-gold features with a non-zero weight, in PCA order, each weighted by `abs(pca_w) * weight` |
| SuggestApi.Insert | api/app.py:73 | inserting into a list sorted by weight descending keeps it sorted, with earlier features first on ties, and adds just that item |
| SuggestApi.SortDesc | api/app.py:73 | Python's stable descending sort: a permutation ordered by weight, ties in PCA order |
| SuggestApi.Take | api/app.py:74 | the first `min(k, n)` items |
| SuggestApi.TopRanked | api/app.py:62-74 | at most k eligible features, heaviest first, and any eligible feature left out means k were taken, each preceding it |
| SuggestApi.TopFeatures | api/app.py:62-74 | at most k names, never a gold feature, never a zero or unparseable weight, each a PCA feature, in the order of the ranking |
| SuggestApi.BuildRankMap | api/app.py:135-146 | the map succeeds exactly when every FIPS lookup does; then one entry per result, keyed `"from+1"` onwards in input order, all sharing the same reasons |
| SuggestApi.NormalizeAll | api/app.py:91-105 | one normalised result per raw item, in order |
| SuggestApi.Suggest | api/app.py:80-148 | the answer is a dense `"1".."N"` map with one entry per raw item carrying its city, state, state FIPS code, score, scaled score and the shared top five reasons; it fails exactly when a FIPS lookup fails |
| SuggestionAlgo.PickCol | suggestion_algo.py:174-178 | the first candidate in list order that is a column, none exactly when no candidate is; a pick is both a candidate and a column |
| SuggestionAlgo.PickColMember | suggestion_algo.py:174-178 | a picked column is one of the candidates and one of the columns |
| SuggestionAlgo.NormMap | suggestion_algo.py:36 | every column's normalised header is a key, and every key maps to a column that normalises to it |
| SuggestionAlgo.NormMapLast | suggestion_algo.py:36 | a key maps to the last column with that normalised header |
| SuggestionAlgo.PickHeader | suggestion_algo.py:35-40 | `KeyError` exactly when no header normalises to a candidate; otherwise a header matching the first candidate tried that has a match |
| SuggestionAlgo.PickFrom | suggestion_algo.py:37-40 | the first candidate tried that is a key wins; with none the result is `KeyError` |
| SuggestionAlgo.PickHeaderOrderFree | suggestion_algo.py:42-43 | when at most one candidate matches, every iteration order of the candidate set picks the same header |
| SuggestionAlgo.Present | suggestion_algo.py:108-109 | the numbers of a column are exactly its non-NaN cells |
| SuggestionAlgo.MinMax | suggestion_algo.py:107-112 | an empty or constant column becomes all zeros; otherwise NaN stays NaN and every number lands in 0..1 |
| SuggestionAlgo.Scale01 | suggestion_algo.py:112 | `(x - mn) / (mx - mn)` lies in 0..1, 0 at the minimum, 1 at the maximum |
| SuggestionAlgo.Scale01Monotone | suggestion_algo.py:112 | normalisation keeps the order of two values, both ways |
| SuggestionAlgo.MinMaxInverse | suggestion_algo.py:107-112 | on a non-constant column every number is recovered from its normalised value, the minimum maps to 0 and the maximum to 1 |
| SuggestionAlgo.MinMaxOrder | suggestion_algo.py:107-112 | normalisation keeps the order of any two numbers of a column, both ways |
| SuggestionAlgo.Importance | suggestion_algo.py:151 | the importance lies in 0..1, is 0 at or below 0, 1 at or above 5, and a fifth of the slider in between |
| SuggestionAlgo.ImportanceMonotone | suggestion_algo.py:151 | a higher preference never gives a lower importance |
| SuggestionAlgo.Closeness | suggestion_algo.py:159 | closeness lies in 0..1, is 1 exactly at the ideal, 0 exactly at a distance of the whole range or more, and falls linearly in between |
| SuggestionAlgo.CloserIsCloser | suggestion_algo.py:159 | a value nearer the ideal is never less close |
| SuggestionAlgo.Contribution | suggestion_algo.py:138-164 | a feature is skipped exactly when it has no column, or takes the goldilocks branch with a NaN value; otherwise it adds closeness or the normalised value, times `pca_w` and the importance |
| SuggestionAlgo.ContributionBounds | suggestion_algo.py:153-164 | with normalised values in 0..1 a contribution is at most `abs(pca_w)` in size and has the sign of a non-negative `pca_w` |
| SuggestionAlgo.RowScore | suggestion_algo.py:135-166 | a city for which every feature is skipped scores 0 |
| SuggestionAlgo.RowScoreSingle | suggestion_algo.py:138-164 | one feature scores its contribution, or 0 when it is skipped |
| SuggestionAlgo.RowScoreConcat | suggestion_algo.py:136-166 | the score is a sum over the features: the score of two feature lists in sequence is the sum of their scores |
| SuggestionAlgo.RowScoreBounds | suggestion_algo.py:135-166 | a city's score lies within the sum of `abs(pca_w)`, and is non-negative when every PCA weight is |
| SuggestionAlgo.RowScoreNoPrefs | suggestion_algo.py:144-151 | with no preferences every city scores 0 |
| SuggestionAlgo.CityLabel | suggestion_algo.py:204 | with a city column the label is that row's cell in the column `_pick_col` chose; without one it is the row number |
| SuggestionAlgo.StateLabel | suggestion_algo.py:205 | with a state column the label is that row's cell in the column `_pick_col` chose; without one it is empty |
| SuggestionAlgo.ArgMaxFirst | suggestion_algo.py:200 | the position picked holds a highest score among the remaining rows |
| SuggestionAlgo.PickStep | suggestion_algo.py:200 | moving the best remaining row to the picked list keeps the rows distinct, split between the lists, best first, and dominating the rest |
| SuggestionAlgo.SelectTop | suggestion_algo.py:200 | exactly k distinct rows in non-increasing score order, and no row left out scores higher than a picked one |
| SuggestionAlgo.Scores | suggestion_algo.py:195-196 | one score per row, in row order |
| SuggestionAlgo.SuggestTop | suggestion_algo.py:186-207 | no rows give `[]`; otherwise exactly `min(rows, max(1, top_n))` distinct rows, best first, each with its labels and score, and every returned score is at least every omitted one |
| Tours.Dedup | trip_mapper.py:36 | the dict's keys: each city once, exactly the cities listed, in order of first occurrence |
| Tours.DedupDistinct | CityFinder/trip_mapper.py:38-42 | a list without repeats is its own key list |
| Tours.DedupFirst | trip_mapper.py:91-93 | the first key is the first city listed, so the tour starts at home |
| Tours.PermutationKeepsDistinct | trip_mapper.py:69 | a rearrangement of a list without repeats has none |
| Tours.Rev | trip_mapper.py:69 | `reversed` puts the k-th from the end at position k |
| Tours.RevMultiset | trip_mapper.py:69 | reversing keeps the cities |
| Tours.RevLength | trip_mapper.py:69 | with symmetric distances a reversed segment has the same length |
| Tours.Reverse2Opt | trip_mapper.py:69 | reversing an inner segment keeps the length, the cities and both endpoints |
| Tours.ReverseGain | trip_mapper.py:66-69 | reversing `path[i..j]` changes the path length by exactly the difference between the new and old leg pairs |
| Tours.ImprovingMoveShortens | trip_mapper.py:66-70 | each accepted reversal strictly shortens the path |
| Tours.ScanJ | trip_mapper.py:63-71 | the inner loop finds the first improving `j` for its `i`, or reports there is none |
| Tours.ScanI | trip_mapper.py:62-73 | the outer loop finds the first improving pair in loop order, or reports there is none |
| Tours.TwoOpt | trip_mapper.py:58-74 | 2-opt returns a permutation with the same endpoints, never longer, strictly shorter when changed, with no improving move left, and paths of at most four cities unchanged |
| Tours.ArgMinFirst | trip_mapper.py:52 | `min` picks a nearest city and, among equals, the earliest |
| Tours.RemoveAt | trip_mapper.py:54 | removing one city takes exactly that occurrence out |
| Tours.Greedy | trip_mapper.py:51-55 | the loop extends the path by all unvisited cities, each next city nearest to its predecessor among those left |
| Tours.NearestNeighbor | trip_mapper.py:48-55 | the tour is a permutation of the keys that starts at the first key and is greedy at every step |
| Tours.NearestNeighborVisitsOnce | trip_mapper.py:48-55 | with distinct keys every city is visited exactly once |
| Tours.GreedyTies | trip_mapper.py:52 | when the unvisited cities keep key order, every tie goes to the earliest key |
| Tours.NearestNeighborTies | trip_mapper.py:52 | each next city is strictly nearer than every still-unvisited city listed before it among the keys; cities listed after it may be exactly as near |
| Tours.Tour | trip_mapper.py:93 | the 2-opt of the nearest-neighbour tour visits each key once, starts at the first key and has no improving move |
| TripMapper.Keyed | trip_mapper.py:36 | one coordinate per key, the key's geocoded point |
| TripMapper.CoordsAndDistances | trip_mapper.py:35-42 | the table's keys are exactly the ordered pairs of distinct cities, each holding the distance between their points; read as a function it is the pair distance |
| TripMapper.AddRow | trip_mapper.py:39-41 | the inner loop adds the distance from one city to every other city and keeps the rest |
| TripMapper.PairDistSymmetric | trip_mapper.py:41 | with a symmetric point distance the pair distance is symmetric |
| TripMapper.SolveTrip | trip_mapper.py:80-94 | the order visits home and each stop exactly once, starts at home and has no improving 2-opt move; the coordinates follow `[home] + stops` with duplicates collapsed |
| LegacyTripMapper.CoordinatesAndDistances | CityFinder/trip_mapper.py:29-55 | every ordered pair of distinct cities is a key and no city is paired with itself; both orientations hold the same value, measured from one of the two cities |
| LegacyTripMapper.FillOrigin | CityFinder/trip_mapper.py:46-53 | one origin's pass writes each missing pair under both orientations and keeps the table symmetric |
| LegacyTripMapper.LookupSymmetric | CityFinder/trip_mapper.py:52-53 | a table written under both orientations reads as a symmetric distance |
| LegacyTripMapper.AddHome | CityFinder/trip_mapper.py:102-104 | the home city's coordinates are added exactly when missing |
| LegacyTripMapper.CloseRoute | CityFinder/trip_mapper.py:107-110 | the route starts and ends at home, adds at most one home at each end, and keeps the path in between |
| LegacyTripMapper.InsertHome | CityFinder/trip_mapper.py:101-112 | an empty path raises; otherwise the coordinates include home and the route starts and ends there |
| LegacyTripMapper.CloseRouteClosed | CityFinder/trip_mapper.py:107-110 | a route already starting and ending at home is left alone |
| LegacyTripMapper.InsertHomeIdempotent | CityFinder/trip_mapper.py:101-112 | closing a closed route again changes neither the route nor the coordinates |
| LegacyTripMapper.TableTour | CityFinder/trip_mapper.py:166-167 | the improved tour visits each input city once and starts at the first |
| LegacyTripMapper.PlanRoute | CityFinder/trip_mapper.py:163-170 | no cities raise; otherwise the route is the tour closed at Knoxville, with Knoxville's coordinates present, and the tour visits each city once starting at the first |
| Preferences.DefaultRatings | components/preferences/preferences.js:45-56 | every feature is rated: goldilocks features at their median, all others at "1", and nothing else |
| Preferences.RateFeature | components/preferences/preferences.js:58-61 | rating stores the value under the input's name and changes no other key |
| Preferences.RateFeatureLastWins | components/preferences/preferences.js:58-61 | rating the same feature twice keeps only the later value |
| Preferences.RateFeatureCommutes | components/preferences/preferences.js:58-61 | ratings of two different features can be given in either order |
| Preferences.CheckedIndex | components/preferences/preferences.js:91-92 | a missing or empty rating counts as "1"; a rating that parses to n in 1..5 checks button n - 1, and one that is NaN or out of range checks none |
| Preferences.InCategory | components/preferences/preferences.js:78-81 | the features listed are exactly those of the category |
| Preferences.InCategoryConcat | components/preferences/preferences.js:79-80 | the filter keeps table order |
| Preferences.QuestionFor | components/preferences/preferences.js:85-123 | a goldilocks feature gets a slider showing its rating, any other feature five radio buttons with the parsed rating checked |
| Preferences.AddQuestions | components/preferences/preferences.js:77-124 | one question per feature of the category, in table order |
| Preferences.RateThenRender | components/preferences/preferences.js:92-103 | clicking radio button k and rendering again shows button k checked |
| Preferences.DefaultsCheckFirst | components/preferences/preferences.js:90-92 | before any rating every radio question shows its first button checked |
| Preferences.SelectCategory | components/preferences/preferences.js:131-138 | the rating view and back button are shown, the categories hidden, and the rows are the category's questions |
| Preferences.ShowCategories | components/preferences/preferences.js:140-146 | the categories are shown and the rating view and back button hidden, with the rows kept |
| Preferences.ToggleRoundTrip | components/preferences/preferences.js:131-146 | going back and choosing the same category again gives the same view |
| Preferences.FindCity | components/preferences/preferences.js:149-185 | without the suggestions component the button is enabled again and nothing is sent; otherwise the overlay shows and the ratings are posted with limit 25 |
| Preferences.Settle | components/preferences/preferences.js:186-212 | either way the overlay hides and the button is enabled; a reply loads its suggestions, or none, with the cursor at 1; a failure leaves the carousel alone |
| Preferences.FindCityReenables | components/preferences/preferences.js:149-212 | whatever the server answers, Find City ends with its button usable and the ratings unchanged |
| TripPlanner.NonEmpty | components/trip-planner/trip-planner.js:110 | `filter(Boolean)` keeps exactly the non-empty strings; one string is kept exactly when it is not empty |
| TripPlanner.NonEmptyConcat | components/trip-planner/trip-planner.js:110 | the filter keeps order: filtering a concatenation filters each part |
| TripPlanner.TrimAll | components/trip-planner/trip-planner.js:110 | each stop is trimmed, one per piece |
| TripPlanner.ParseStops | components/trip-planner/trip-planner.js:110 | every parsed stop is non-empty, trimmed and comma-free |
| TripPlanner.ParseStopsOne | components/trip-planner/trip-planner.js:110 | a field without a comma gives its trimmed text as the one stop, or no stop when that is empty |
| TripPlanner.ParseStopsConcat | components/trip-planner/trip-planner.js:110 | the stops of `a,b` are the stops of `a` followed by the stops of `b` |
| TripPlanner.TrimAllConcat | components/trip-planner/trip-planner.js:110 | trimming each piece of a concatenation trims each part |
| TripPlanner.ParseStopsJoin | components/trip-planner/trip-planner.js:110 | stops typed as a comma-joined list of clean names are read back exactly |
| TripPlanner.PlanClick | components/trip-planner/trip-planner.js:108-120 | a blank home only alerts; otherwise the button is disabled, reads "Planning…", the trimmed home and parsed stops are posted, no alert is raised and nothing else changes |
| TripPlanner.PlanSettled | components/trip-planner/trip-planner.js:121-133 | the button is enabled and reads "Plan" again, and a failure alerts |
| TripPlanner.PlanReenables | components/trip-planner/trip-planner.js:108-134 | a Plan click ends with the button enabled, whether it aborts, succeeds or fails |
| TripPlanner.Position | components/trip-planner/trip-planner.js:166 | a position is `[lon, lat]`, in the order of section 3.1.1 of RFC 7946 |
| TripPlanner.LookupCoord | components/trip-planner/trip-planner.js:154 | a name is found exactly when the coordinates have it |
| TripPlanner.PointFor | components/trip-planner/trip-planner.js:153-158 | a point exists exactly when the city has coordinates and the projection accepts them, and it carries the city's latitude and longitude |
| TripPlanner.Points | components/trip-planner/trip-planner.js:153-159 | every point is the drawable point of its city; one city gives its point, or none when it has no coordinates or does not project; with all present there is one per city, in order |
| TripPlanner.PointsConcat | components/trip-planner/trip-planner.js:153-159 | the points follow the order: the points of a concatenation are the points of each part, undrawable cities dropped where they stand |
| TripPlanner.Segments | components/trip-planner/trip-planner.js:162-168 | k points give k-1 segments, the i-th joining points i and i+1 |
| TripPlanner.DrawRoute | components/trip-planner/trip-planner.js:147-168 | the points follow `data.order`, or the coordinate keys without it, and the segments join them |
| TripPlanner.SegmentsChain | components/trip-planner/trip-planner.js:162-168 | each segment starts where the previous one ends, from the first point to the last |
| TripPlanner.AllCitiesDrawn | components/trip-planner/trip-planner.js:150-159 | when every city has coordinates and projects, all cities are drawn in order with one fewer segment |

## Left out

- Markup, CSS transforms and opacity, the 750 ms `setTimeout`, PDF printing and PNG export. They are presentation only. The timer is the Begin/Commit boundary, and callbacks fire in scheduling order.
- `initSuggestionsUI`, which is called after a load but defined nowhere the program shows. Load is modelled as the reset it is evidently meant to be: the new entries with the cursor at 1.
- Carousel.Init: `components/suggestions/suggestions.css` is not part of this model, so the buttons start displayed, as the markup leaves them. A stylesheet that hid them would rule out the early click of `CarouselLaws.EarlyClickLocksOut`.
- The `if (!doc) return;` early exits of `selectCategory`, `showCategories` and `findCity` (`components/preferences/preferences.js`:132-133, 141-142, 150-151). The model assumes that the handlers always run inside the mounted preferences component, so the exits are never taken.
- Preferences.Settle: its load branch is the assumed behaviour, not the written one. Assigning `window.suggestions` and `window.firstRank` does not rebind the top-level `let`s of `suggestions.js`. If `initSuggestionsUI` is undefined, the call throws into the `.catch`, which alerts and leaves the carousel as it was.
- `fetch`, Google Maps geocoding, `waitFor`, and the d3/topojson projection. They are foreign services. Geocoding and the projection are parameters; a request is recorded as the body it would send, and its outcome is an input.
- Pandas loading and the CSV files; the aliases and synthesised time-zone columns of `_resolve_col`; column inversion; `drop_vars`. These are table preparation. A city's row is given as its normalised and raw values per feature.
- The data-frame FIPS lookup in `_state_fips_for`. It is a parameter; only the fixed table and the fallback are modelled.
- `score_all_cities`. It always raises, because it passes three arguments to the two-parameter `_row_score`. The fallback `global_min` (the minimum of the shown scores) is therefore the live path and is what `SuggestApi.Scaled` uses.
- `CityFinder/suggestion_algo.py`. It is a draft that cannot run: it uses `df` before defining it.
- Flask routing, static files and query-string parsing of `limit`.
- `window.ratings` and the slider display text. They are side channels with no effect on the model.
- NaN and infinities, IEEE rounding, and the haversine formula. Scores are reals and distances are natural numbers in metres.
- Text.Trim: only the six ASCII whitespace characters are stripped (space, tab, newline, carriage return, vertical tab, form feed). Python's `strip` also removes `\x1c`–`\x1f` and `\x85`, which JavaScript's `trim` keeps, and both remove Unicode spaces such as U+00A0.
- Text.Lower: only ASCII letters are lowered. `str.lower` also lowers other letters, which do not occur in the PCA headers.
- Tours.TwoOpt: it requires symmetric distances. The web version's table holds one measurement per orientation and is symmetric when the point distance is, which haversine is (`TripMapper.PairDistSymmetric`).
- SuggestionAlgo.SelectTop: among equal scores it takes the lower row number first. NumPy's default `argsort` is not stable, so the program fixes no order among ties.
- LegacyTripMapper.PlanRoute: its contract does not restate that the tour is 2-opt stable. `Tours.Tour`, which builds the tour, does state it.
- SuggestionAlgo.PickHeader: the iteration order of the candidate set is a parameter, because Python leaves it open.

=== FILE: Carousel.dfy ===
/** The results carousel of `components/suggestions/suggestions.js`.

    Three fixed `.result-group` divs each carry a role class (left, middle,
    right); the cursor `firstRank` is the first rank shown in the middle group.
    `showResults(next)` runs in two phases: at call time it disables both
    navigation buttons and checks its guard (`Begin`); 750 ms later a timer
    callback rotates the role classes, moves the cursor by exactly 5, refills
    the newly exposed far group, recomputes button visibility and re-enables
    the buttons (`Commit`). The timer is the boundary between the two phases,
    and scheduled callbacks fire in the order they were scheduled. */
module Carousel {
  import opened Wrappers
  import opened Values
  import opened RankMap
  import Text

  /** The three role classes a result group can carry. */
  datatype Role = Left | Middle | Right

  /** `showResults(true)` pages forward, `showResults(false)` backward. */
  datatype Dir = Forward | Backward

  /** The three `.result-group` divs, numbered in document order; they are
      created once and never replaced. */
  type Target = t: nat | t < 3

  /** The role classes each target currently carries. */
  type Classes = c: seq<set<Role>> | |c| == 3 witness [{Left}, {Middle}, {Right}]

  /** The cards each target currently shows (the entries last rendered into it). */
  type Contents = c: seq<seq<Entry>> | |c| == 3 witness [[], [], []]

  /** A timer callback scheduled by `showResults`: the groups it looked up at
      call time and the `total` it computed then. */
  datatype Scheduled = Scheduled(dir: Dir, left: Target, middle: Target, right: Target, total: nat)

  /** What the highlight panel shows. */
  datatype Highlight = Highlight(rank: string, city: Value, state: Value, reasons: seq<string>, image: string)

  datatype State = State(
    entries: seq<Entry>,       // Object.entries(suggestions)
    firstRank: int,
    classes: Classes,
    contents: Contents,
    disabled: bool,            // the `disabled` flag of both navigation buttons
    showPrev: bool,            // the previous button is displayed
    showNext: bool,            // the next button is displayed
    pending: seq<Scheduled>,   // timer callbacks not yet fired, oldest first
    highlight: Option<Highlight>)

  /** The page as the template creates it: an empty map, cursor 1, the groups
      in document order left, middle, right, and both navigation buttons
      displayed and enabled (the markup gives them no display style, and
      nothing calls `updateCarousel` before the first load). */
  function Init(): State {
    State([], 1, [{Left}, {Middle}, {Right}], [[], [], []], false, true, true, [], None)
  }

  /** `showResults`' guard: forward only while a card exists past the window,
      backward only while the window is not the first one. */
  predicate Guard(firstRank: int, total: int, dir: Dir) {
    match dir
    case Forward => firstRank + 5 <= total
    case Backward => firstRank > 1
  }

  /** `doc.querySelector(".result-group." + role)`: the first group in
      document order that carries the class. */
  function QueryRole(c: Classes, role: Role): (r: Option<Target>)
    ensures r.Some? ==> role in c[r.value] && forall u :: 0 <= u < r.value ==> role !in c[u]
    ensures r.None? ==> forall u :: 0 <= u < 3 ==> role !in c[u]
  {
    if role in c[0] then Some(0)
    else if role in c[1] then Some(1)
    else if role in c[2] then Some(2)
    else None
  }

  /** `replaceClass(node, oldClass, newClass)`: remove one class, add another. */
  function ReplaceClass(c: Classes, t: Target, oldRole: Role, newRole: Role): Classes {
    c[t := (c[t] - {oldRole}) + {newRole}]
  }

  /** The class changes of a forward commit: middle becomes left, right
      becomes middle, left becomes right, on the groups captured at call time. */
  function RotateForward(c: Classes, job: Scheduled): Classes {
    var c1 := ReplaceClass(c, job.middle, Middle, Left);
    var c2 := ReplaceClass(c1, job.right, Right, Middle);
    ReplaceClass(c2, job.left, Left, Right)
  }

  /** The class changes of a backward commit: middle becomes right, left
      becomes middle, right becomes left. */
  function RotateBackward(c: Classes, job: Scheduled): Classes {
    var c1 := ReplaceClass(c, job.middle, Middle, Right);
    var c2 := ReplaceClass(c1, job.left, Left, Middle);
    ReplaceClass(c2, job.right, Right, Left)
  }

  /** `updateCarousel()`: the previous button is displayed exactly when a
      backward `showResults` would pass its guard, the next button exactly
      when a forward one would. */
  function UpdateCarousel(s: State): (r: State)
    ensures r.showPrev <==> Guard(s.firstRank, |s.entries|, Backward)
    ensures r.showNext <==> Guard(s.firstRank, |s.entries|, Forward)
    ensures r == s.(showPrev := r.showPrev, showNext := r.showNext)
  {
    s.(showPrev := s.firstRank > 1, showNext := s.firstRank + 5 <= |s.entries|)
  }

  /** The call-time half of `showResults(dir)`: the buttons are disabled
      first; when the guard holds, the transition is scheduled on the groups
      that carry the three roles now. A group that cannot be found makes the
      call throw before it schedules anything. */
  function Begin(s: State, dir: Dir): (r: State)
    ensures r.disabled
    ensures r == s.(disabled := true, pending := r.pending)
    ensures !Guard(s.firstRank, |s.entries|, dir) ==> r.pending == s.pending
    ensures r.pending == s.pending || (|r.pending| == |s.pending| + 1 && r.pending[..|s.pending|] == s.pending)
    ensures Guard(s.firstRank, |s.entries|, dir) && QueryRole(s.classes, Left).Some?
            && QueryRole(s.classes, Middle).Some? && QueryRole(s.classes, Right).Some? ==>
              r.pending == s.pending + [Scheduled(dir, QueryRole(s.classes, Left).value, QueryRole(s.classes, Middle).value,
                                                  QueryRole(s.classes, Right).value, |s.entries|)]
    ensures !(Guard(s.firstRank, |s.entries|, dir) && QueryRole(s.classes, Left).Some?
              && QueryRole(s.classes, Middle).Some? && QueryRole(s.classes, Right).Some?) ==>
              r.pending == s.pending
  {
    var total := |s.entries|;
    var locked := s.(disabled := true);
    if !Guard(s.firstRank, total, dir) then locked
    else
      match (QueryRole(s.classes, Left), QueryRole(s.classes, Middle), QueryRole(s.classes, Right))
      case (Some(l), Some(m), Some(rt)) =>
        locked.(pending := s.pending + [Scheduled(dir, l, m, rt, total)])
      case _ => locked
  }

  /** The end of a timer callback: `updateCarousel()`, then re-enable the buttons. */
  function Finish(s: State): State {
    UpdateCarousel(s).(disabled := false)
  }

  /** Render `slice` into the group that carries `role` now
      (`displayResults(slice, role)`); `None` when no group carries it, which
      makes the callback throw. */
  function Render(s: State, role: Role, slice: seq<Entry>): Option<State> {
    match QueryRole(s.classes, role)
    case None => None
    case Some(t) => Some(s.(contents := s.contents[t := slice]))
  }

  /** The oldest scheduled timer callback fires (nothing happens when none is
      scheduled). Forward: rotate, `firstRank += 5`, render entries
      `firstRank + 4 .. min(firstRank + 9, total)` into the new right group when
      that range is not empty. Backward: rotate, `firstRank -= 5`, and when the
      cursor is still past 1 render entries `max(firstRank - 6, 0) .. firstRank - 1`
      into the new left group. A throw while rendering skips the rest of the
      callback, so the buttons stay disabled. */
  function Commit(s: State): State {
    if |s.pending| == 0 then s
    else
      var job := s.pending[0];
      var s1 := s.(pending := s.pending[1..]);
      match job.dir
      case Forward =>
        var s2 := s1.(classes := RotateForward(s.classes, job), firstRank := s.firstRank + 5);
        var start := s2.firstRank + 4;
        var end := if s2.firstRank + 9 < job.total then s2.firstRank + 9 else job.total;
        if start < end then
          match Render(s2, Right, JsSlice(s2.entries, start, end))
          case None => s2
          case Some(s3) => Finish(s3)
        else Finish(s2)
      case Backward =>
        var s2 := s1.(classes := RotateBackward(s.classes, job), firstRank := s.firstRank - 5);
        if s2.firstRank > 1 then
          var start := if s2.firstRank - 6 > 0 then s2.firstRank - 6 else 0;
          match Render(s2, Left, JsSlice(s2.entries, start, s2.firstRank - 1))
          case None => s2
          case Some(s3) => Finish(s3)
        else Finish(s2)
  }

  /** A user click on a navigation button. A hidden or disabled button
      delivers no click; otherwise the click calls `showResults`. */
  function Press(s: State, dir: Dir): (r: State)
    ensures s.disabled ==> r == s
    ensures !s.disabled && (if dir == Forward then s.showNext else s.showPrev) ==> r == Begin(s, dir)
  {
    var shown := if dir == Forward then s.showNext else s.showPrev;
    if s.disabled || !shown then s else Begin(s, dir)
  }

  /** A fresh result set arrives: the map is replaced, the cursor goes back to
      1 and the buttons are recomputed. Groups, their contents, the button lock
      and any scheduled callback are left as they are. */
  function Load(s: State, entries: seq<Entry>): (r: State)
    ensures r.entries == entries && r.firstRank == 1
    ensures !r.showPrev
    ensures r.showNext <==> |entries| >= 6
    ensures r.pending == s.pending && r.classes == s.classes && r.disabled == s.disabled
  {
    UpdateCarousel(s.(entries := entries, firstRank := 1))
  }

  /** `pad2(x)`: `String(x || "").padStart(2, "0")` on a FIPS string. */
  function Pad2(x: string): (r: string)
    ensures x == "" ==> r == "00"
    ensures |x| == 1 ==> r == ['0'] + x
    ensures |x| >= 2 ==> r == x
  {
    Text.PadStart(x, 2, '0')
  }

  /** `imagePathFor(sug)`: the state's image in `city_images/`, named by
      the FIPS code left-padded with zeros to two digits and followed by
      "000.jpg"; a missing code gives `00000.jpg`. */
  function ImagePathFor(sug: Suggestion): (r: string)
    ensures sug.stateFIPS == "" ==> r == "city_images/00000.jpg"
    ensures |sug.stateFIPS| == 1 ==> r == "city_images/0" + sug.stateFIPS + "000.jpg"
    ensures |sug.stateFIPS| >= 2 ==> r == "city_images/" + sug.stateFIPS + "000.jpg"
    ensures |r| >= 21
  {
    "city_images/" + Pad2(sug.stateFIPS) + "000.jpg"
  }

  /** Two suggestions share an image exactly when their FIPS codes pad to
      the same two-digit code ("5" and "05" share one). */
  lemma ImagePathSharing(a: Suggestion, b: Suggestion)
    ensures ImagePathFor(a) == ImagePathFor(b) <==> Pad2(a.stateFIPS) == Pad2(b.stateFIPS)
  {
    var x, y := Pad2(a.stateFIPS), Pad2(b.stateFIPS);
    var pa, pb := ImagePathFor(a), ImagePathFor(b);
    assert pa == "city_images/" + x + "000.jpg" && pb == "city_images/" + y + "000.jpg";
    if pa == pb {
      assert |x| == |y|;
      assert x == pa[12..12 + |x|] && y == pb[12..12 + |y|];
    }
  }

  /** `FEATURE_SUGGESTION_NAMES[f] || f` for every feature. */
  function ReasonNames(features: seq<string>, names: map<string, string>): (r: seq<string>)
    ensures |r| == |features|
    ensures forall k :: 0 <= k < |features| ==>
              r[k] == (if features[k] in names && names[features[k]] != "" then names[features[k]] else features[k])
  {
    seq(|features|, k requires 0 <= k < |features| =>
      if features[k] in names && names[features[k]] != "" then names[features[k]] else features[k])
  }

  /** `displayHighlight(rankStr)`: a key that is not in the map changes
      nothing; otherwise the panel shows that suggestion and nothing else
      changes. */
  function DisplayHighlight(s: State, rankStr: string, names: map<string, string>): (r: State)
    ensures Lookup(s.entries, rankStr).None? ==> r == s
    ensures Lookup(s.entries, rankStr).Some? ==>
              r == s.(highlight := r.highlight) && r.highlight.Some? && r.highlight.value.rank == rankStr
              && r.highlight.value.image == ImagePathFor(Lookup(s.entries, rankStr).value)
              && r.highlight.value.city == JsOr(Lookup(s.entries, rankStr).value.cityName, Str(""))
              && r.highlight.value.state == JsOr(Lookup(s.entries, rankStr).value.stateName, Str(""))
              && r.highlight.value.reasons == ReasonNames(Lookup(s.entries, rankStr).value.topFeatures, names)
  {
    match Lookup(s.entries, rankStr)
    case None => s
    case Some(sug) =>
      s.(highlight := Some(Highlight(rankStr, JsOr(sug.cityName, Str("")), JsOr(sug.stateName, Str("")),
                                     ReasonNames(sug.topFeatures, names), ImagePathFor(sug))))
  }
}

=== FILE: CarouselLaws.dfy ===
/** Properties of the carousel model: the role classes stay a permutation, the
    cursor stays on 1, 6, 11, ... within the map, button visibility matches the
    navigation guards, at most one transition is in flight, and each commit
    refills exactly the group it exposes. */
module CarouselLaws {
  import opened Wrappers
  import opened RankMap
  import opened Carousel

  /** The single element of a one-element set. */
  ghost function Only(s: set<Role>): (r: Role)
    requires |s| == 1
    ensures s == {r}
  {
    var x :| x in s;
    assert |s - {x}| == 0;
    assert s == {x};
    x
  }

  lemma OnlySingleton(x: Role)
    ensures Only({x}) == x
  {
    var r := Only({x});
    assert r in {x};
  }

  /** Every group carries exactly one role class and no two carry the same. */
  predicate WellRoled(c: Classes) {
    && |c[0]| == 1 && |c[1]| == 1 && |c[2]| == 1
    && c[0] !! c[1] && c[0] !! c[2] && c[1] !! c[2]
  }

  /** In a well-roled page each role is carried by exactly one group, and that
      group carries nothing else. */
  lemma HoldersUnique(c: Classes, role: Role)
    requires WellRoled(c)
    ensures QueryRole(c, role).Some?
    ensures c[QueryRole(c, role).value] == {role}
    ensures forall t :: 0 <= t < 3 && role in c[t] ==> t == QueryRole(c, role).value
  {
    var a, b, d := Only(c[0]), Only(c[1]), Only(c[2]);
    assert role == a || role == b || role == d;
  }

  /** The relabelling of a forward commit. */
  function ForwardRole(r: Role): Role {
    match r
    case Middle => Left
    case Right => Middle
    case Left => Right
  }

  /** The relabelling of a backward commit. */
  function BackwardRole(r: Role): Role {
    match r
    case Middle => Right
    case Left => Middle
    case Right => Left
  }

  /** The two relabellings undo each other, and three forward steps are the
      identity. */
  lemma RelabelCycle(r: Role)
    ensures BackwardRole(ForwardRole(r)) == r && ForwardRole(BackwardRole(r)) == r
    ensures ForwardRole(ForwardRole(ForwardRole(r))) == r
  {
  }

  /** `job` was scheduled on the groups that carry the roles in `c`. */
  predicate Captures(c: Classes, job: Scheduled) {
    && QueryRole(c, Left) == Some(job.left)
    && QueryRole(c, Middle) == Some(job.middle)
    && QueryRole(c, Right) == Some(job.right)
  }

  /** The scheduled job for the roles of `c`. */
  function JobFor(c: Classes, dir: Dir, total: nat): (job: Scheduled)
    requires WellRoled(c)
    ensures Captures(c, job) && job.dir == dir && job.total == total
  {
    HoldersUnique(c, Left);
    HoldersUnique(c, Middle);
    HoldersUnique(c, Right);
    Scheduled(dir, QueryRole(c, Left).value, QueryRole(c, Middle).value, QueryRole(c, Right).value, total)
  }

  /** Replacing the only class of a group leaves it with just the new one. */
  lemma ReplaceSingleton(c: Classes, t: Target, oldRole: Role, newRole: Role)
    requires c[t] == {oldRole}
    ensures ReplaceClass(c, t, oldRole, newRole) == c[t := {newRole}]
  {
    assert ({oldRole} - {oldRole}) + {newRole} == {newRole};
  }

  /** The groups a job captured on a well-roled page are three different
      groups, each carrying just its role. */
  lemma CapturedGroups(c: Classes, job: Scheduled)
    requires WellRoled(c) && Captures(c, job)
    ensures c[job.left] == {Left} && c[job.middle] == {Middle} && c[job.right] == {Right}
    ensures job.left != job.middle && job.left != job.right && job.middle != job.right
  {
    HoldersUnique(c, Left);
    HoldersUnique(c, Middle);
    HoldersUnique(c, Right);
  }

  /** A forward commit relabels every group by `ForwardRole` and keeps the
      page well-roled: middle becomes left, right becomes middle, left
      becomes right. */
  lemma RotateForwardRelabels(c: Classes, job: Scheduled)
    requires WellRoled(c) && Captures(c, job)
    ensures forall t :: 0 <= t < 3 ==> RotateForward(c, job)[t] == {ForwardRole(Only(c[t]))}
    ensures WellRoled(RotateForward(c, job))
    ensures Captures(RotateForward(c, job), Scheduled(job.dir, job.middle, job.right, job.left, job.total))
    ensures RotateForward(c, job)[job.middle] == {Left} && RotateForward(c, job)[job.right] == {Middle}
    ensures RotateForward(c, job)[job.left] == {Right}
  {
    CapturedGroups(c, job);
    var c1 := ReplaceClass(c, job.middle, Middle, Left);
    ReplaceSingleton(c, job.middle, Middle, Left);
    var c2 := ReplaceClass(c1, job.right, Right, Middle);
    ReplaceSingleton(c1, job.right, Right, Middle);
    var r := ReplaceClass(c2, job.left, Left, Right);
    ReplaceSingleton(c2, job.left, Left, Right);
    assert r[job.middle] == {Left} && r[job.right] == {Middle} && r[job.left] == {Right};
    forall t | 0 <= t < 3 ensures r[t] == {ForwardRole(Only(c[t]))} {
      assert t == job.left || t == job.middle || t == job.right;
    }
  }

  /** A backward commit relabels every group by `BackwardRole`. */
  lemma RotateBackwardRelabels(c: Classes, job: Scheduled)
    requires WellRoled(c) && Captures(c, job)
    ensures forall t :: 0 <= t < 3 ==> RotateBackward(c, job)[t] == {BackwardRole(Only(c[t]))}
    ensures WellRoled(RotateBackward(c, job))
    ensures Captures(RotateBackward(c, job), Scheduled(job.dir, job.right, job.left, job.middle, job.total))
    ensures RotateBackward(c, job)[job.middle] == {Right} && RotateBackward(c, job)[job.left] == {Middle}
    ensures RotateBackward(c, job)[job.right] == {Left}
  {
    CapturedGroups(c, job);
    var c1 := ReplaceClass(c, job.middle, Middle, Right);
    ReplaceSingleton(c, job.middle, Middle, Right);
    var c2 := ReplaceClass(c1, job.left, Left, Middle);
    ReplaceSingleton(c1, job.left, Left, Middle);
    var r := ReplaceClass(c2, job.right, Right, Left);
    ReplaceSingleton(c2, job.right, Right, Left);
    assert r[job.middle] == {Right} && r[job.left] == {Middle} && r[job.right] == {Left};
    forall t | 0 <= t < 3 ensures r[t] == {BackwardRole(Only(c[t]))} {
      assert t == job.left || t == job.middle || t == job.right;
    }
  }

  /** A forward commit on a well-roled page, on the groups that carry the
      roles at call time. */
  function StepForward(c: Classes): (r: Classes)
    requires WellRoled(c)
    ensures WellRoled(r)
    ensures forall t :: 0 <= t < 3 ==> r[t] == {ForwardRole(Only(c[t]))}
  {
    var job := JobFor(c, Forward, 0);
    RotateForwardRelabels(c, job);
    RotateForward(c, job)
  }

  /** A backward commit on a well-roled page. */
  function StepBackward(c: Classes): (r: Classes)
    requires WellRoled(c)
    ensures WellRoled(r)
    ensures forall t :: 0 <= t < 3 ==> r[t] == {BackwardRole(Only(c[t]))}
  {
    var job := JobFor(c, Backward, 0);
    RotateBackwardRelabels(c, job);
    RotateBackward(c, job)
  }

  /** A backward rotation undoes a forward one. */
  lemma ForwardThenBackward(c: Classes)
    requires WellRoled(c)
    ensures StepBackward(StepForward(c)) == c
  {
    var b := StepBackward(StepForward(c));
    forall t | 0 <= t < 3 ensures b[t] == c[t] {
      ForwardThenBackwardAt(c, t);
    }
  }

  lemma ForwardThenBackwardAt(c: Classes, t: Target)
    requires WellRoled(c)
    ensures StepBackward(StepForward(c))[t] == c[t]
  {
    var x := Only(c[t]);
    RelabelCycle(x);
    OnlySingleton(ForwardRole(x));
  }

  /** Three forward rotations give every group its original role back. */
  lemma ThreeForwardRotations(c: Classes)
    requires WellRoled(c)
    ensures StepForward(StepForward(StepForward(c))) == c
  {
    var f3 := StepForward(StepForward(StepForward(c)));
    forall t | 0 <= t < 3 ensures f3[t] == c[t] {
      ThreeForwardAt(c, t);
    }
  }

  lemma ThreeForwardAt(c: Classes, t: Target)
    requires WellRoled(c)
    ensures StepForward(StepForward(StepForward(c)))[t] == c[t]
  {
    var x := Only(c[t]);
    RelabelCycle(x);
    OnlySingleton(ForwardRole(x));
    OnlySingleton(ForwardRole(ForwardRole(x)));
  }

  function Max(a: int, b: int): int {
    if a >= b then a else b
  }

  /** The cursor sits on 1, 6, 11, ... and within `[1, max(1, total)]`. */
  predicate CursorOk(firstRank: int, total: nat) {
    1 <= firstRank <= Max(1, total) && (firstRank - 1) % 5 == 0
  }

  /** The invariant of every state reachable by user interaction: dense map,
      cursor on the grid, roles a permutation, buttons displayed exactly when
      their guard holds, and the buttons disabled exactly while one scheduled
      transition, made on the current roles and total, is in flight. */
  predicate WellFormed(s: State) {
    && Dense(s.entries)
    && CursorOk(s.firstRank, |s.entries|)
    && WellRoled(s.classes)
    && (s.showPrev <==> Guard(s.firstRank, |s.entries|, Backward))
    && (s.showNext <==> Guard(s.firstRank, |s.entries|, Forward))
    && |s.pending| <= 1
    && (s.disabled <==> |s.pending| == 1)
    && (|s.pending| == 1 ==>
          && Captures(s.classes, s.pending[0])
          && s.pending[0].total == |s.entries|
          && Guard(s.firstRank, |s.entries|, s.pending[0].dir))
  }

  /** The first load of a dense result set into the page as the template
      creates it, before any click, gives a well-formed page. */
  lemma FirstLoadWellFormed(entries: seq<Entry>)
    requires Dense(entries)
    ensures WellFormed(Load(Init(), entries))
  {
  }

  /** Buttons that are disabled with no callback scheduled stay disabled:
      no click, timer firing or selection re-enables them. */
  lemma {:induction false} LockedStaysLocked(s: State, events: seq<Event>)
    requires s.disabled && |s.pending| == 0
    ensures Run(s, events).disabled && |Run(s, events).pending| == 0
    decreases |events|
  {
    if |events| > 0 {
      var next := Step(s, events[0]);
      assert next.disabled && |next.pending| == 0;
      LockedStaysLocked(next, events[1..]);
    }
  }

  /** A click on either button before any result set has arrived disables
      both buttons and schedules nothing, since the guard fails on the empty
      map; a later load keeps the lock, so the carousel can never be paged
      again. */
  lemma EarlyClickLocksOut(dir: Dir, entries: seq<Entry>, events: seq<Event>)
    ensures Press(Init(), dir).disabled && |Press(Init(), dir).pending| == 0
    ensures Run(Load(Press(Init(), dir), entries), events).disabled
  {
    LockedStaysLocked(Load(Press(Init(), dir), entries), events);
  }

  /** A load while no transition is in flight keeps the page well formed. */
  lemma LoadWellFormed(s: State, entries: seq<Entry>)
    requires WellFormed(s) && |s.pending| == 0 && Dense(entries)
    ensures WellFormed(Load(s, entries))
  {
  }

  /** A click on a displayed, enabled button is never refused: it always
      schedules exactly one transition. Clicks while the buttons are disabled
      change nothing, so at most one transition is ever in flight. */
  lemma PressWellFormed(s: State, dir: Dir)
    requires WellFormed(s)
    ensures WellFormed(Press(s, dir))
    ensures s.disabled ==> Press(s, dir) == s
    ensures !s.disabled && (if dir == Forward then s.showNext else s.showPrev) ==>
              Press(s, dir).pending == [JobFor(s.classes, dir, |s.entries|)]
  {
    if !s.disabled && (if dir == Forward then s.showNext else s.showPrev) {
      var job := JobFor(s.classes, dir, |s.entries|);
      assert Begin(s, dir).pending == [job];
    }
  }

  /** What a forward commit of a well-formed page does, in one expression. */
  lemma ForwardCommitShape(s: State)
    requires WellFormed(s) && |s.pending| == 1 && s.pending[0].dir == Forward
    ensures
      var job := s.pending[0];
      var f := s.firstRank + 5;
      var cards := if f + 4 < |s.entries| then s.contents[job.left := Window(s.entries, f + 5)] else s.contents;
      Commit(s) == Finish(s.(pending := [], classes := RotateForward(s.classes, job), firstRank := f, contents := cards))
  {
    var job := s.pending[0];
    var c := RotateForward(s.classes, job);
    assert QueryRole(c, Right) == Some(job.left) by {
      RotateForwardRelabels(s.classes, job);
    }
    var f := s.firstRank + 5;
    var end := if f + 9 < job.total then f + 9 else job.total;
    if f + 4 < end {
      assert JsSlice(s.entries, f + 4, end) == Window(s.entries, f + 5);
    }
  }

  /** What a backward commit of a well-formed page does, in one expression. */
  lemma BackwardCommitShape(s: State)
    requires WellFormed(s) && |s.pending| == 1 && s.pending[0].dir == Backward
    ensures
      var job := s.pending[0];
      var f := s.firstRank - 5;
      var cards := if f > 1 then s.contents[job.right := Window(s.entries, f - 5)] else s.contents;
      Commit(s) == Finish(s.(pending := [], classes := RotateBackward(s.classes, job), firstRank := f, contents := cards))
  {
    var job := s.pending[0];
    var c := RotateBackward(s.classes, job);
    assert QueryRole(c, Left) == Some(job.right) by {
      RotateBackwardRelabels(s.classes, job);
    }
    var f := s.firstRank - 5;
    if f > 1 {
      assert f >= 6;
      assert JsSlice(s.entries, f - 6, f - 1) == Window(s.entries, f - 5);
    }
  }

  /** The end of a callback leaves a well-formed, idle page when the map,
      the cursor and the roles are in order. */
  lemma FinishWellFormed(x: State)
    requires Dense(x.entries) && CursorOk(x.firstRank, |x.entries|) && WellRoled(x.classes) && x.pending == []
    ensures WellFormed(Finish(x))
  {
  }

  /** A forward commit keeps the page well formed, moves the cursor by +5
      and leaves nothing in flight. */
  lemma ForwardCommitWellFormed(s: State)
    requires WellFormed(s) && |s.pending| == 1 && s.pending[0].dir == Forward
    ensures WellFormed(Commit(s)) && Commit(s).pending == [] && !Commit(s).disabled
    ensures Commit(s).firstRank == s.firstRank + 5 && Commit(s).entries == s.entries
  {
    var job := s.pending[0];
    var f := s.firstRank + 5;
    ForwardCommitShape(s);
    RotateForwardRelabels(s.classes, job);
    var cards := if f + 4 < |s.entries| then s.contents[job.left := Window(s.entries, f + 5)] else s.contents;
    var x := s.(pending := [], classes := RotateForward(s.classes, job), firstRank := f, contents := cards);
    FinishWellFormed(x);
  }

  /** A backward commit keeps the page well formed, moves the cursor by -5
      and leaves nothing in flight. */
  lemma BackwardCommitWellFormed(s: State)
    requires WellFormed(s) && |s.pending| == 1 && s.pending[0].dir == Backward
    ensures WellFormed(Commit(s)) && Commit(s).pending == [] && !Commit(s).disabled
    ensures Commit(s).firstRank == s.firstRank - 5 && Commit(s).entries == s.entries
  {
    var job := s.pending[0];
    var f := s.firstRank - 5;
    BackwardCommitShape(s);
    RotateBackwardRelabels(s.classes, job);
    var cards := if f > 1 then s.contents[job.right := Window(s.entries, f - 5)] else s.contents;
    var x := s.(pending := [], classes := RotateBackward(s.classes, job), firstRank := f, contents := cards);
    FinishWellFormed(x);
  }

  /** Firing the scheduled transition of a well-formed page moves the cursor
      by exactly 5 in its direction, unlocks the buttons, and keeps the page
      well formed. Firing with nothing scheduled changes nothing. */
  lemma CommitWellFormed(s: State)
    requires WellFormed(s)
    ensures WellFormed(Commit(s))
    ensures |s.pending| == 0 ==> Commit(s) == s
    ensures |s.pending| == 1 ==>
              && |Commit(s).pending| == 0 && !Commit(s).disabled
              && Commit(s).firstRank == s.firstRank + (if s.pending[0].dir == Forward then 5 else -5)
              && Commit(s).entries == s.entries
  {
    if |s.pending| == 1 {
      if s.pending[0].dir == Forward {
        ForwardCommitWellFormed(s);
      } else {
        BackwardCommitWellFormed(s);
      }
    }
  }

  /** A forward commit renders ranks `F + 5 .. min(F + 9, total)` of the new
      cursor `F` into the group that was left before the rotation and is right
      after it, leaves that group as it was when `total <= F + 4`, and leaves
      the other two groups' cards alone. */
  lemma ForwardRefill(s: State)
    requires WellFormed(s) && |s.pending| == 1 && s.pending[0].dir == Forward
    ensures
      var r := Commit(s);
      var t := s.pending[0].left;
      var f := r.firstRank;
      && f == s.firstRank + 5
      && r.classes[t] == {Right}
      && (f + 4 < |s.entries| ==> r.contents[t] == Window(s.entries, f + 5))
      && (|s.entries| <= f + 4 ==> r.contents[t] == s.contents[t])
      && (forall u :: 0 <= u < 3 && u != t ==> r.contents[u] == s.contents[u])
  {
    var job := s.pending[0];
    ForwardCommitShape(s);
    CapturedGroups(s.classes, job);
    RotateForwardRelabels(s.classes, job);
  }

  /** A backward commit whose new cursor `F` is still past 1 renders exactly
      the five ranks `F - 5 .. F - 1` into the group that was right before the
      rotation and is left after it; at `F = 1` no group is rendered. */
  lemma BackwardRefill(s: State)
    requires WellFormed(s) && |s.pending| == 1 && s.pending[0].dir == Backward
    ensures
      var r := Commit(s);
      var t := s.pending[0].right;
      var f := r.firstRank;
      && f == s.firstRank - 5
      && r.classes[t] == {Left}
      && (f > 1 ==> r.contents[t] == Window(s.entries, f - 5) && |r.contents[t]| == 5)
      && (f == 1 ==> r.contents == s.contents)
      && (forall u :: 0 <= u < 3 && u != t ==> r.contents[u] == s.contents[u])
  {
    var job := s.pending[0];
    BackwardCommitShape(s);
    CapturedGroups(s.classes, job);
    RotateBackwardRelabels(s.classes, job);
    if s.firstRank - 5 > 1 {
      WindowRanks(s.entries, s.firstRank - 10);
    }
  }

  /** Paging forward and then back (or back and then forward) returns the
      cursor to where it was. */
  lemma NavigationRoundTrip(s: State)
    requires WellFormed(s) && |s.pending| == 0
    ensures s.showNext ==>
              var a := Commit(Press(s, Forward));
              a.showPrev && Commit(Press(a, Backward)).firstRank == s.firstRank
    ensures s.showPrev ==>
              var a := Commit(Press(s, Backward));
              a.showNext && Commit(Press(a, Forward)).firstRank == s.firstRank
  {
    if s.showNext {
      var a := ForwardStep(s);
      var b := BackwardStep(a);
    }
    if s.showPrev {
      var a := BackwardStep(s);
      var b := ForwardStep(a);
    }
  }

  /** The groups show the cards the cursor promises: the middle group ranks
      `F .. F + 4`, the left group the window before it when there is one, the
      right group the window after it when there is one. */
  predicate ShowsWindows(s: State)
    requires WellRoled(s.classes) && s.firstRank >= 1
  {
    HoldersUnique(s.classes, Left);
    HoldersUnique(s.classes, Middle);
    HoldersUnique(s.classes, Right);
    && s.contents[QueryRole(s.classes, Middle).value] == Window(s.entries, s.firstRank)
    && (s.firstRank > 5 ==> s.contents[QueryRole(s.classes, Left).value] == Window(s.entries, s.firstRank - 5))
    && (s.firstRank + 5 <= |s.entries| ==>
          s.contents[QueryRole(s.classes, Right).value] == Window(s.entries, s.firstRank + 5))
  }

  /** Once the groups show the windows around the cursor, every commit keeps
      them that way: the rotation moves the two windows that stay visible and
      the refill supplies the newly exposed one. */
  lemma CommitShowsWindows(s: State)
    requires WellFormed(s) && ShowsWindows(s)
    ensures WellFormed(Commit(s)) && ShowsWindows(Commit(s))
  {
    CommitWellFormed(s);
    if |s.pending| == 1 {
      if s.pending[0].dir == Forward {
        ForwardShowsWindows(s);
      } else {
        BackwardShowsWindows(s);
      }
    }
  }

  lemma ForwardShowsWindows(s: State)
    requires WellFormed(s) && ShowsWindows(s) && |s.pending| == 1 && s.pending[0].dir == Forward
    ensures WellFormed(Commit(s)) && ShowsWindows(Commit(s))
  {
    var job := s.pending[0];
    var r := Commit(s);
    ForwardCommitWellFormed(s);
    ForwardRefill(s);
    CapturedGroups(s.classes, job);
    RotateForwardRelabels(s.classes, job);
    HoldersUnique(s.classes, Left);
    HoldersUnique(s.classes, Middle);
    HoldersUnique(s.classes, Right);
    assert QueryRole(r.classes, Middle) == Some(job.right) by {
      HoldersUnique(r.classes, Middle);
    }
    assert QueryRole(r.classes, Left) == Some(job.middle) by {
      HoldersUnique(r.classes, Left);
    }
    assert QueryRole(r.classes, Right) == Some(job.left) by {
      HoldersUnique(r.classes, Right);
    }
  }

  lemma BackwardShowsWindows(s: State)
    requires WellFormed(s) && ShowsWindows(s) && |s.pending| == 1 && s.pending[0].dir == Backward
    ensures WellFormed(Commit(s)) && ShowsWindows(Commit(s))
  {
    var job := s.pending[0];
    var r := Commit(s);
    BackwardCommitWellFormed(s);
    BackwardRefill(s);
    CapturedGroups(s.classes, job);
    RotateBackwardRelabels(s.classes, job);
    HoldersUnique(s.classes, Left);
    HoldersUnique(s.classes, Middle);
    HoldersUnique(s.classes, Right);
    assert QueryRole(r.classes, Middle) == Some(job.left) by {
      HoldersUnique(r.classes, Middle);
    }
    assert QueryRole(r.classes, Right) == Some(job.middle) by {
      HoldersUnique(r.classes, Right);
    }
    assert QueryRole(r.classes, Left) == Some(job.right) by {
      HoldersUnique(r.classes, Left);
    }
  }

  /** One user-visible event. */
  datatype Event =
    | Click(dir: Dir)
    | TimerFires
    | Select(rank: string, names: map<string, string>)

  function Step(s: State, e: Event): State {
    match e
    case Click(d) => Press(s, d)
    case TimerFires => Commit(s)
    case Select(k, names) => DisplayHighlight(s, k, names)
  }

  function Run(s: State, events: seq<Event>): State
    decreases |events|
  {
    if |events| == 0 then s else Run(Step(s, events[0]), events[1..])
  }

  /** No sequence of clicks, timer ticks and highlight selections leaves a
      well-formed page: in particular the cursor stays on 1, 6, 11, ... within
      `[1, max(1, total)]` and the buttons match the guards. */
  lemma {:induction false} RunWellFormed(s: State, events: seq<Event>)
    requires WellFormed(s)
    ensures WellFormed(Run(s, events))
    ensures CursorOk(Run(s, events).firstRank, |s.entries|)
    ensures Run(s, events).entries == s.entries
    decreases |events|
  {
    if |events| > 0 {
      var next := Step(s, events[0]);
      match events[0] {
        case Click(d) => PressWellFormed(s, d);
        case TimerFires => CommitWellFormed(s);
        case Select(k, names) => assert next == s.(highlight := next.highlight);
      }
      RunWellFormed(next, events[1..]);
    }
  }

  /** With twelve results the cursor goes 1, 6, 11: the last window shows
      ranks 11 and 12 and the next button disappears; there is no clamped
      final step to rank 8. */
  lemma TwelveResults(s: State)
    requires WellFormed(s) && |s.pending| == 0 && |s.entries| == 12 && s.firstRank == 1
    ensures
      var a := Commit(Press(s, Forward));
      var b := Commit(Press(a, Forward));
      && a.firstRank == 6 && b.firstRank == 11
      && !b.showNext && b.showPrev
      && |Window(b.entries, b.firstRank)| == 2
  {
    var a := ForwardStep(s);
    var b := ForwardStep(a);
  }

  /** A forward click on a shown, enabled button followed by its timer
      callback: the cursor moves by 5, nothing else about the map changes,
      and the page stays well formed and idle. */
  function ForwardStep(s: State): (a: State)
    requires WellFormed(s) && |s.pending| == 0 && s.showNext
    ensures a == Commit(Press(s, Forward))
    ensures WellFormed(a) && |a.pending| == 0 && a.firstRank == s.firstRank + 5 && a.entries == s.entries
  {
    var p := Press(s, Forward);
    assert WellFormed(p) && |p.pending| == 1 && p.pending[0].dir == Forward && p.firstRank == s.firstRank
        && p.entries == s.entries by {
      PressWellFormed(s, Forward);
    }
    CommitWellFormed(p);
    Commit(p)
  }

  /** The same for a backward click: the cursor moves by -5. */
  function BackwardStep(s: State): (a: State)
    requires WellFormed(s) && |s.pending| == 0 && s.showPrev
    ensures a == Commit(Press(s, Backward))
    ensures WellFormed(a) && |a.pending| == 0 && a.firstRank == s.firstRank - 5 && a.entries == s.entries
  {
    var p := Press(s, Backward);
    assert WellFormed(p) && |p.pending| == 1 && p.pending[0].dir == Backward && p.firstRank == s.firstRank
        && p.entries == s.entries by {
      PressWellFormed(s, Backward);
    }
    CommitWellFormed(p);
    Commit(p)
  }

  /** A load does not cancel a scheduled transition: when a forward
      transition is in flight and a result set of at most five arrives, the
      late callback still moves the cursor to 6, past the end of the new map. */
  lemma LoadDuringTransition(s: State, entries: seq<Entry>)
    requires WellFormed(s) && |s.pending| == 1 && s.pending[0].dir == Forward
    requires |entries| <= 5
    ensures Commit(Load(s, entries)).firstRank == 6
    ensures !CursorOk(Commit(Load(s, entries)).firstRank, |entries|)
  {
  }
}

=== FILE: LegacyTripMapper.dfy ===
/** `CityFinder/trip_mapper.py`: the earlier, script version of the trip
    solver. Unlike the web version it writes each distance under both
    orientations of a pair, so the table is symmetric whatever the point
    distance does, and it closes the route at Knoxville. */
module LegacyTripMapper {
  import opened Wrappers
  import opened Tours
  import opened TripMapper

  /** The home city the script closes every route at. */
  const Knoxville: City := "Knoxville"

  /** The table has the same value under both orientations of a pair. */
  ghost predicate SymmetricTable(dist: map<(City, City), nat>) {
    forall a, b :: (a, b) in dist ==> (b, a) in dist && dist[(b, a)] == dist[(a, b)]
  }

  /** The pairs the fill has written once origins `cities[..i]` are done. */
  ghost predicate Filled(cities: seq<City>, i: nat, a: City, b: City)
    requires i <= |cities|
  {
    a != b && a in cities && b in cities && (a in cities[..i] || b in cities[..i])
  }

  /** Every value is the distance from one of the two cities to the other. */
  ghost predicate Measured(dist: map<(City, City), nat>, geocode: City -> Coord, metres: (Coord, Coord) -> nat) {
    forall a, b :: (a, b) in dist ==>
      dist[(a, b)] == metres(geocode(a), geocode(b)) || dist[(a, b)] == metres(geocode(b), geocode(a))
  }

  /** `get_coordinates_and_distances(cities)`: every ordered pair of distinct
      cities is a key, no pair of a city with itself is, both orientations hold
      the same value, and that value is the distance measured from one of the
      two cities to the other. */
  method CoordinatesAndDistances(cities: seq<City>, geocode: City -> Coord, metres: (Coord, Coord) -> nat)
    returns (coords: seq<(City, Coord)>, dist: map<(City, City), nat>)
    ensures coords == Keyed(Dedup(cities), geocode)
    ensures forall a, b :: (a, b) in dist <==> a in cities && b in cities && a != b
    ensures SymmetricTable(dist)
    ensures forall a, b :: (a, b) in dist ==>
              dist[(a, b)] == metres(geocode(a), geocode(b)) || dist[(a, b)] == metres(geocode(b), geocode(a))
  {
    coords := Keyed(Dedup(cities), geocode);
    dist := map[];
    var i := 0;
    while i < |cities|
      invariant 0 <= i <= |cities|
      invariant forall a, b :: (a, b) in dist <==> Filled(cities, i, a, b)
      invariant SymmetricTable(dist) && Measured(dist, geocode, metres)
    {
      dist := FillOrigin(cities, i, dist, geocode, metres);
      i := i + 1;
    }
    assert cities[..i] == cities;
  }

  /** The inner loop for origin `cities[i]`: afterwards the pairs of that
      origin are written too. */
  method FillOrigin(cities: seq<City>, i: nat, dist0: map<(City, City), nat>, geocode: City -> Coord, metres: (Coord, Coord) -> nat)
    returns (dist: map<(City, City), nat>)
    requires i < |cities|
    requires forall a, b :: (a, b) in dist0 <==> Filled(cities, i, a, b)
    requires SymmetricTable(dist0) && Measured(dist0, geocode, metres)
    ensures forall a, b :: (a, b) in dist <==> Filled(cities, i + 1, a, b)
    ensures SymmetricTable(dist) && Measured(dist, geocode, metres)
  {
    var origin := cities[i];
    assert cities[..i + 1] == cities[..i] + [origin];
    dist := dist0;
    var j := 0;
    while j < |cities|
      invariant 0 <= j <= |cities|
      invariant forall a, b :: (a, b) in dist <==>
                  Filled(cities, i, a, b) || (a != b && ((a == origin && b in cities[..j]) || (b == origin && a in cities[..j])))
      invariant SymmetricTable(dist) && Measured(dist, geocode, metres)
    {
      var destination := cities[j];
      if origin != destination && (origin, destination) !in dist {
        var distance := metres(geocode(origin), geocode(destination));
        dist := dist[(origin, destination) := distance][(destination, origin) := distance];
      }
      assert cities[..j + 1] == cities[..j] + [destination];
      j := j + 1;
    }
    assert cities[..j] == cities;
  }

  /** A symmetric table read as a function is a symmetric distance. */
  lemma LookupSymmetric(dist: map<(City, City), nat>)
    requires SymmetricTable(dist)
    ensures Symmetric(LookupDist(dist))
  {
    forall a, b ensures LookupDist(dist)(a, b) == LookupDist(dist)(b, a) {
      if (b, a) in dist {
        assert (a, b) in dist;
      }
    }
  }

  /** The result of `insert_knoxville`: the coordinates it may extend and the
      route. */
  datatype Closed = Closed(coordinates: seq<(City, Coord)>, route: seq<City>)

  /** Whether the coordinates dict has a key. */
  predicate HasKey(coords: seq<(City, Coord)>, c: City) {
    exists k :: 0 <= k < |coords| && coords[k].0 == c
  }

  // The closing step is stated for any home city; the script's is
  // `Knoxville`.

  /** The home city's coordinates are added when they are missing. */
  function AddHome(home: City, coords: seq<(City, Coord)>, geocode: City -> Coord): (r: seq<(City, Coord)>)
    ensures HasKey(r, home)
    ensures HasKey(coords, home) ==> r == coords
    ensures !HasKey(coords, home) ==> r == coords + [(home, geocode(home))]
  {
    if HasKey(coords, home) then coords
    else
      var r := coords + [(home, geocode(home))];
      assert r[|coords|].0 == home;
      r
  }

  /** How many copies of the home city `insert_knoxville` adds in front of
      `path` (none when it starts there). */
  function FrontAdded(home: City, path: seq<City>): nat
    requires |path| > 0
  {
    if path[0] == home then 0 else 1
  }

  /** How many copies of the home city it adds at the end. */
  function BackAdded(home: City, path: seq<City>): nat
    requires |path| > 0
  {
    if path[|path| - 1] == home then 0 else 1
  }

  /** The route part of `insert_knoxville`: the home city in front unless the
      path starts there, then the home city at the end unless it already ends
      there. The path itself is kept whole, and nothing else is added. */
  function CloseRoute(home: City, path: seq<City>): (r: seq<City>)
    requires |path| > 0
    ensures |r| == FrontAdded(home, path) + |path| + BackAdded(home, path)
    ensures r[0] == home && r[|r| - 1] == home
    ensures forall k :: 0 <= k < |path| ==> r[FrontAdded(home, path) + k] == path[k]
  {
    var front: seq<City> := if path[0] != home then [home] else [];
    var p1 := front + path;
    var back: seq<City> := if p1[|p1| - 1] != home then [home] else [];
    p1 + back
  }

  /** `insert_knoxville(coordinates, distances, path)` with the home city as
      a parameter. An empty path makes `path[0]` raise. */
  function InsertHome(home: City, coords: seq<(City, Coord)>, path: seq<City>, geocode: City -> Coord): (r: Option<Closed>)
    ensures r.None? <==> |path| == 0
    ensures r.Some? ==> HasKey(r.value.coordinates, home)
    ensures r.Some? ==> |r.value.route| > 0 && r.value.route[0] == home && r.value.route[|r.value.route| - 1] == home
  {
    if |path| == 0 then None
    else Some(Closed(AddHome(home, coords, geocode), CloseRoute(home, path)))
  }

  /** Closing an already closed route changes nothing. */
  lemma InsertHomeIdempotent(home: City, coords: seq<(City, Coord)>, path: seq<City>, geocode: City -> Coord)
    requires |path| > 0
    ensures var once := InsertHome(home, coords, path, geocode).value;
            InsertHome(home, once.coordinates, once.route, geocode) == Some(once)
  {
    var once := InsertHome(home, coords, path, geocode).value;
    CloseRouteClosed(home, once.route);
  }

  /** A route that starts and ends at the home city is already closed. */
  lemma CloseRouteClosed(home: City, r: seq<City>)
    requires |r| > 0 && r[0] == home && r[|r| - 1] == home
    ensures CloseRoute(home, r) == r
  {
    var c := CloseRoute(home, r);
    assert FrontAdded(home, r) == 0 && BackAdded(home, r) == 0;
    forall k | 0 <= k < |r| ensures c[k] == r[k] {
    }
  }

  /** The tour the script computes on a symmetric table: every entered city
      once, starting at the first one. */
  function TableTour(cities: seq<City>, dist: map<(City, City), nat>): (tour: seq<City>)
    requires |cities| > 0 && SymmetricTable(dist)
    ensures |tour| > 0 && tour[0] == cities[0] && Distinct(tour)
    ensures forall c :: c in tour <==> c in cities
  {
    LookupSymmetric(dist);
    DedupFirst(cities);
    Tour(Dedup(cities), LookupDist(dist))
  }

  /** The script's main flow on the entered cities: coordinates and the
      symmetric table, the nearest-neighbour tour improved by 2-opt, closed at
      Knoxville. The route is the tour with Knoxville added only where it is
      missing at either end, and the tour holds every entered city exactly
      once, starting with the first one. */
  method PlanRoute(cities: seq<City>, geocode: City -> Coord, metres: (Coord, Coord) -> nat)
    returns (r: Option<Closed>, tour: seq<City>)
    ensures r.None? <==> |cities| == 0
    ensures r.Some? ==> |tour| > 0 && r.value.route == CloseRoute(Knoxville, tour)
    ensures r.Some? ==> HasKey(r.value.coordinates, Knoxville)
    ensures r.Some? ==> tour[0] == cities[0] && Distinct(tour) && forall c :: c in tour <==> c in cities
  {
    var coords, dist := CoordinatesAndDistances(cities, geocode, metres);
    if |cities| == 0 {
      return None, [];
    }
    tour := TableTour(cities, dist);
    r := InsertHome(Knoxville, coords, tour, geocode);
  }
}

=== FILE: Numeric.dfy ===
/** Real-number helpers shared by the server and the ranking: Python's
    `abs`, `min` and `max` over a non-empty list of numbers. */
module Numeric {
  function Abs(x: real): (r: real)
    ensures r >= 0.0 && (r == x || r == -x)
  {
    if x < 0.0 then -x else x
  }

  /** `max(xs)`. */
  function MaxOf(xs: seq<real>): (m: real)
    requires |xs| > 0
    ensures m in xs && forall x :: x in xs ==> x <= m
  {
    if |xs| == 1 then xs[0]
    else
      var m := MaxOf(xs[1..]);
      assert forall x :: x in xs <==> x == xs[0] || x in xs[1..];
      if xs[0] >= m then xs[0] else m
  }

  /** `min(xs)`. */
  function MinOf(xs: seq<real>): (m: real)
    requires |xs| > 0
    ensures m in xs && forall x :: x in xs ==> m <= x
  {
    if |xs| == 1 then xs[0]
    else
      var m := MinOf(xs[1..]);
      assert forall x :: x in xs <==> x == xs[0] || x in xs[1..];
      if xs[0] <= m then xs[0] else m
  }

  /** Dividing by a positive number and multiplying back gives the
      dividend; the quotient lies in 0..1 when the dividend lies between 0
      and the divisor, and it is 0 or at least 1 exactly when the dividend
      is 0 or at least the divisor. */
  lemma DivBounds(a: real, d: real)
    requires d > 0.0
    ensures (a / d) * d == a
    ensures 0.0 <= a ==> 0.0 <= a / d
    ensures a <= d ==> a / d <= 1.0
    ensures a / d >= 1.0 <==> a >= d
    ensures a / d == 0.0 <==> a == 0.0
  {
    var q := a / d;
    assert q * d == a;
    assert (q - 1.0) * d == a - d;
  }

  /** Two quotients by the same positive divisor are ordered as their
      dividends. */
  lemma DivMonotone(a: real, b: real, d: real)
    requires d > 0.0
    ensures a <= b <==> a / d <= b / d
  {
    DivBounds(a, d);
    DivBounds(b, d);
    assert (b / d - a / d) * d == b - a;
  }

  /** A fraction of a weight is no larger than the weight and has its sign. */
  lemma FractionOf(t: real, w: real)
    requires 0.0 <= t <= 1.0
    ensures Abs(t * w) <= Abs(w)
    ensures w >= 0.0 ==> t * w >= 0.0
  {
    if w >= 0.0 {
      MulNonNegative(1.0 - t, w);
      MulNonNegative(t, w);
    } else {
      MulNonNegative(1.0 - t, -w);
      MulNonNegative(t, -w);
    }
  }

  lemma MulNonNegative(a: real, b: real)
    requires a >= 0.0 && b >= 0.0
    ensures a * b >= 0.0
  {
  }

  /** The product of two fractions is a fraction. */
  lemma FractionProduct(a: real, b: real)
    requires 0.0 <= a <= 1.0 && 0.0 <= b <= 1.0
    ensures 0.0 <= a * b <= 1.0
  {
    FractionOf(a, b);
  }
}

=== FILE: Preferences.dfy ===
/** The preferences questionnaire of `components/preferences/preferences.js`:
    the ratings map with its defaults, the questions listed for a category
    with the radio button each one shows checked, the toggle between the
    category strip and the rating view, and the "Find City" request whose
    answer reloads the results carousel. The feature tables
    (`FEATURES_CATEGORIZED`, `FEATURE_TYPES`, `GOLDILOCK_FEATURE_RANGES`) are
    parameters. */
module Preferences {
  import opened Wrappers
  import opened RankMap
  import Text
  import Carousel

  /** `DEFAULT_RATING`. */
  const DefaultRating: string := "1"

  /** The slider range of a goldilocks feature: `[min, max, units, median]`,
      with the median as `String()` writes it. */
  datatype GoldRange = GoldRange(min: string, max: string, units: string, median: string)

  /** `Object.entries(FEATURES_CATEGORIZED)`: each feature with its category,
      in key order. */
  type Features = seq<(string, string)>

  /** The ratings object: feature name to the string value of its input. */
  type Ratings = map<string, string>

  /** The feature names of the table. */
  function Names(features: Features): (r: set<string>)
    ensures forall i :: 0 <= i < |features| ==> features[i].0 in r
    ensures forall f :: f in r ==> exists i :: 0 <= i < |features| && features[i].0 == f
  {
    set i | 0 <= i < |features| :: features[i].0
  }

  /** `getDefaultRatings()`: every feature is rated, a goldilocks feature at
      its median and every other feature at "1". */
  function DefaultRatings(features: Features, gold: map<string, GoldRange>): (r: Ratings)
    ensures r.Keys == Names(features)
    ensures forall f :: f in r ==> r[f] == (if f in gold then gold[f].median else DefaultRating)
  {
    if |features| == 0 then map[]
    else
      var init := features[..|features| - 1];
      var f := features[|features| - 1].0;
      assert features == init + [features[|features| - 1]];
      assert Names(features) == Names(init) + {f};
      DefaultRatings(init, gold)[f := if f in gold then gold[f].median else DefaultRating]
  }

  /** `rateFeature(input)`: the input's value is stored under its name and
      nothing else changes. */
  function RateFeature(ratings: Ratings, name: string, value: string): (r: Ratings)
    ensures r.Keys == ratings.Keys + {name}
    ensures name in r && r[name] == value
    ensures forall k :: k in ratings && k != name ==> r[k] == ratings[k]
  {
    ratings[name := value]
  }

  /** Rating the same feature twice keeps only the later value. */
  lemma RateFeatureLastWins(ratings: Ratings, name: string, a: string, b: string)
    ensures RateFeature(RateFeature(ratings, name, a), name, b) == RateFeature(ratings, name, b)
  {
  }

  /** Ratings of two different features do not interfere: their order does
      not matter. */
  lemma RateFeatureCommutes(ratings: Ratings, n1: string, v1: string, n2: string, v2: string)
    requires n1 != n2
    ensures RateFeature(RateFeature(ratings, n1, v1), n2, v2) == RateFeature(RateFeature(ratings, n2, v2), n1, v1)
  {
  }

  // ---------------------------------------------------------------------
  // Questions
  // ---------------------------------------------------------------------

  /** One question row: five radio buttons with at most one checked, or a
      slider showing the current rating (`undefined` when there is none). */
  datatype Question =
    | Radio(feature: string, checked: Option<nat>)
    | Slider(feature: string, value: Option<string>)

  function Feature(q: Question): string {
    match q
    case Radio(f, _) => f
    case Slider(f, _) => f
  }

  /** `checked[parseInt(rating || "1", 10) - 1] = "checked"`: a missing or
      empty rating counts as "1"; an index outside the five buttons, or NaN,
      checks none of them. */
  function CheckedIndex(rating: Option<string>): (r: Option<nat>)
    ensures r.Some? ==> r.value < 5
    ensures rating.None? || rating == Some("") || rating == Some(DefaultRating) ==> r == Some(0)
    ensures var v := if rating.None? || rating.value == "" then DefaultRating else rating.value;
            (Text.ParseInt(v).Some? && 1 <= Text.ParseInt(v).value <= 5 ==> r == Some(Text.ParseInt(v).value - 1))
            && (Text.ParseInt(v).None? || !(1 <= Text.ParseInt(v).value <= 5) ==> r.None?)
  {
    var s := if rating.None? || rating.value == "" then DefaultRating else rating.value;
    Text.ParseIntOfNatToString(1);
    match Text.ParseInt(s)
    case None => None
    case Some(n) => if 1 <= n <= 5 then Some(n - 1) else None
  }

  /** The features of one category, in table order (`addQuestions`' first
      loop). */
  function InCategory(features: Features, category: string): (r: seq<string>)
    ensures |r| <= |features|
    ensures forall f :: f in r <==> exists i :: 0 <= i < |features| && features[i] == (f, category)
  {
    if |features| == 0 then []
    else
      var rest := InCategory(features[1..], category);
      assert forall i :: 1 <= i < |features| ==> features[i] == features[1..][i - 1];
      if features[0].1 == category then [features[0].0] + rest else rest
  }

  /** The filter keeps table order: the features of a longer table are those
      of its first part followed by those of the rest. */
  lemma {:induction false} InCategoryConcat(a: Features, b: Features, category: string)
    ensures InCategory(a + b, category) == InCategory(a, category) + InCategory(b, category)
  {
    if |a| > 0 {
      assert (a + b)[0] == a[0] && (a + b)[1..] == a[1..] + b;
      InCategoryConcat(a[1..], b, category);
    } else {
      assert a + b == b;
    }
  }

  /** The row `addQuestions` renders for one feature. */
  function QuestionFor(f: string, types: map<string, string>, ratings: Ratings): (q: Question)
    ensures Feature(q) == f
    ensures q.Slider? <==> (f in types && types[f] == "gold")
    ensures q.Radio? ==> q.checked == CheckedIndex(if f in ratings then Some(ratings[f]) else None)
    ensures q.Slider? ==> q.value == (if f in ratings then Some(ratings[f]) else None)
  {
    var rating := if f in ratings then Some(ratings[f]) else None;
    if f in types && types[f] == "gold" then Slider(f, rating) else Radio(f, CheckedIndex(rating))
  }

  /** `addQuestions(category)`: one row per feature of the category, in
      table order. */
  function AddQuestions(category: string, features: Features, types: map<string, string>, ratings: Ratings): (r: seq<Question>)
    ensures |r| == |InCategory(features, category)|
    ensures forall i :: 0 <= i < |r| ==> r[i] == QuestionFor(InCategory(features, category)[i], types, ratings)
  {
    var fs := InCategory(features, category);
    seq(|fs|, i requires 0 <= i < |fs| => QuestionFor(fs[i], types, ratings))
  }

  /** Clicking radio button `k` (value "k") and rendering the category again
      shows button `k` checked. */
  lemma RateThenRender(category: string, features: Features, types: map<string, string>, ratings: Ratings,
                       i: nat, k: nat)
    requires i < |InCategory(features, category)| && 1 <= k <= 5
    requires var f := InCategory(features, category)[i]; !(f in types && types[f] == "gold")
    ensures var f := InCategory(features, category)[i];
            AddQuestions(category, features, types, RateFeature(ratings, f, Text.NatToString(k)))[i]
            == Radio(f, Some(k - 1))
  {
    Text.ParseIntOfNatToString(k);
  }

  /** Before any rating, every radio question shows its first button checked. */
  lemma DefaultsCheckFirst(category: string, features: Features, types: map<string, string>,
                           gold: map<string, GoldRange>, i: nat)
    requires i < |InCategory(features, category)|
    requires var f := InCategory(features, category)[i]; f !in gold && !(f in types && types[f] == "gold")
    ensures AddQuestions(category, features, types, DefaultRatings(features, gold))[i]
            == Radio(InCategory(features, category)[i], Some(0))
  {
    var f := InCategory(features, category)[i];
    var ratings := DefaultRatings(features, gold);
    assert f in InCategory(features, category);
    var j :| 0 <= j < |features| && features[j] == (f, category);
    assert f in Names(features);
    assert ratings[f] == DefaultRating;
    assert QuestionFor(f, types, ratings) == Radio(f, CheckedIndex(Some(DefaultRating)));
  }

  // ---------------------------------------------------------------------
  // View toggle
  // ---------------------------------------------------------------------

  /** The displayed state of the three elements the toggle touches. */
  datatype View = View(categoriesShown: bool, ratingShown: bool, backShown: bool, rows: seq<Question>)

  /** Exactly one of the two containers is shown, and the back button goes
      with the rating view. */
  predicate Consistent(v: View) {
    v.categoriesShown != v.ratingShown && v.backShown == v.ratingShown
  }

  /** `selectCategory(category)`: hide the categories, render the category's
      questions, show the rating view and the back button. */
  function SelectCategory(v: View, category: string, features: Features, types: map<string, string>,
                          ratings: Ratings): (r: View)
    ensures Consistent(r) && r.ratingShown
    ensures r.rows == AddQuestions(category, features, types, ratings)
  {
    View(false, true, true, AddQuestions(category, features, types, ratings))
  }

  /** `showCategories()`: show the categories, hide the rating view and the
      back button; the rendered rows stay. */
  function ShowCategories(v: View): (r: View)
    ensures Consistent(r) && r.categoriesShown
    ensures r.rows == v.rows
  {
    View(true, false, false, v.rows)
  }

  /** Going back and choosing the same category again shows the same view. */
  lemma ToggleRoundTrip(v: View, category: string, features: Features, types: map<string, string>, ratings: Ratings)
    ensures SelectCategory(ShowCategories(SelectCategory(v, category, features, types, ratings)),
                           category, features, types, ratings)
            == SelectCategory(v, category, features, types, ratings)
    ensures ShowCategories(SelectCategory(v, category, features, types, ratings)).rows
            == AddQuestions(category, features, types, ratings)
  {
  }

  // ---------------------------------------------------------------------
  // Find City
  // ---------------------------------------------------------------------

  /** The JSON body of the POST to `/api/suggest`. */
  datatype Request = Request(preferences: Ratings, limit: nat)

  /** How the request ends: a parsed successful reply, with its
      `suggestions` member when it has one, or any failure (network error,
      a body that is not JSON, an HTTP error status). */
  datatype Outcome = Replied(suggestions: Option<seq<Entry>>) | Failed

  /** The page state `findCity` touches. */
  datatype Page = Page(
    ratings: Ratings,
    findDisabled: bool,     // the Find City button
    loading: bool,          // the loading overlay is shown
    request: Option<Request>,
    carousel: Carousel.State)

  /** The synchronous part of `findCity()`: the button is disabled; without
      the suggestions component it is re-enabled and nothing is sent;
      otherwise the overlay is shown and the ratings are posted with limit
      25. */
  function FindCity(p: Page, suggestionsPresent: bool): (r: Page)
    ensures !suggestionsPresent ==> r == p.(findDisabled := false)
    ensures suggestionsPresent ==> r.findDisabled && r.loading && r.request == Some(Request(p.ratings, 25))
    ensures r.ratings == p.ratings && r.carousel == p.carousel
  {
    if !suggestionsPresent then p.(findDisabled := false)
    else p.(findDisabled := true, loading := true, request := Some(Request(p.ratings, 25)))
  }

  /** The promise chain settles: a reply loads its suggestions (an empty map
      when the member is missing) into the carousel; a failure leaves the
      carousel alone. Either way the overlay is hidden and the button is
      enabled again. */
  function Settle(p: Page, outcome: Outcome): (r: Page)
    ensures !r.findDisabled && !r.loading
    ensures r.ratings == p.ratings && r.request == p.request
    ensures outcome.Failed? ==> r.carousel == p.carousel
    ensures outcome.Replied? ==>
              (r.carousel.firstRank == 1
               && r.carousel.entries == (if outcome.suggestions.Some? then outcome.suggestions.value else []))
  {
    match outcome
    case Failed => p.(findDisabled := false, loading := false)
    case Replied(s) =>
      var entries := if s.Some? then s.value else [];
      p.(findDisabled := false, loading := false, carousel := Carousel.Load(p.carousel, entries))
  }

  /** Whatever the server answers, a Find City click ends with the button
      usable again, and it leaves the ratings as they were. */
  lemma FindCityReenables(p: Page, suggestionsPresent: bool, outcome: Outcome)
    ensures !suggestionsPresent ==> !FindCity(p, suggestionsPresent).findDisabled
    ensures suggestionsPresent ==> !Settle(FindCity(p, suggestionsPresent), outcome).findDisabled
    ensures Settle(FindCity(p, suggestionsPresent), outcome).ratings == p.ratings
  {
  }
}

=== FILE: RankMap.dfy ===
/** The rank-keyed result map that the server builds and the carousel pages
    through. A JavaScript object is represented by the list that
    `Object.entries` returns for it. For integer-like keys that order is
    ascending numeric order (OrdinaryOwnPropertyKeys, section 10.1.11.1 of
    ECMA-262), so for the dense keys "1".."N" entry index i holds rank i+1. */
module RankMap {
  import opened Wrappers
  import opened Values
  import Text

  /** One suggested city as the browser receives it. */
  datatype Suggestion = Suggestion(
    cityName: Value,
    stateName: Value,
    stateFIPS: string,
    topFeatures: seq<string>,
    score: Value,
    scaledScore: Option<int>)

  /** One `[key, value]` pair of `Object.entries(suggestions)`. */
  datatype Entry = Entry(key: string, sug: Suggestion)

  /** The key of rank `r`: its decimal spelling, `str(r)` on the server. */
  function RankKey(r: nat): string {
    Text.NatToString(r)
  }

  /** The keys are exactly "1", "2", ..., "N" in this order. */
  predicate Dense(entries: seq<Entry>) {
    forall i :: 0 <= i < |entries| ==> entries[i].key == RankKey(i + 1)
  }

  /** `obj[key]`: the value stored under `key`, if any. */
  function Lookup(entries: seq<Entry>, key: string): (r: Option<Suggestion>)
    ensures r.Some? <==> exists i :: 0 <= i < |entries| && entries[i].key == key
  {
    if |entries| == 0 then None
    else if entries[0].key == key then Some(entries[0].sug)
    else
      var r := Lookup(entries[1..], key);
      assert forall i :: 1 <= i < |entries| ==> entries[i] == entries[1..][i - 1];
      r
  }

  /** In a dense map, rank `r` is found exactly when `1 <= r <= N`, and it is
      entry `r - 1`. */
  lemma {:induction false} DenseLookup(entries: seq<Entry>, r: nat)
    requires Dense(entries)
    ensures 1 <= r <= |entries| ==> Lookup(entries, RankKey(r)) == Some(entries[r - 1].sug)
    ensures Lookup(entries, RankKey(r)).Some? <==> 1 <= r <= |entries|
  {
    if Lookup(entries, RankKey(r)).Some? {
      DenseLookupRange(entries, r);
    }
    if 1 <= r <= |entries| {
      DenseLookupAt(entries, r - 1, 0);
    }
  }

  /** Only the ranks of a dense map are found in it. */
  lemma DenseLookupRange(entries: seq<Entry>, r: nat)
    requires Dense(entries) && Lookup(entries, RankKey(r)).Some?
    ensures 1 <= r <= |entries|
  {
    var i :| 0 <= i < |entries| && entries[i].key == RankKey(r);
    Text.NatToStringInjective(i + 1, r);
  }

  /** Helper for `DenseLookup`: the first entry with key `RankKey(offset + i + 1)`
      in a dense suffix is entry `i`. */
  lemma {:induction false} DenseLookupAt(entries: seq<Entry>, i: nat, offset: nat)
    requires i < |entries|
    requires forall k :: 0 <= k < |entries| ==> entries[k].key == RankKey(offset + k + 1)
    ensures Lookup(entries, RankKey(offset + i + 1)) == Some(entries[i].sug)
    decreases i
  {
    if i > 0 {
      assert entries[0].key != RankKey(offset + i + 1) by {
        if entries[0].key == RankKey(offset + i + 1) {
          Text.NatToStringInjective(offset + 1, offset + i + 1);
        }
      }
      var tail := entries[1..];
      forall k | 0 <= k < |tail| ensures tail[k].key == RankKey(offset + 1 + k + 1) {
        assert tail[k] == entries[k + 1];
      }
      DenseLookupAt(tail, i - 1, offset + 1);
    }
  }

  /** The index `Array.prototype.slice` derives from a relative position: a
      negative one counts back from the end, and both are clamped to
      `[0, len]`. */
  function RelativeIndex(i: int, len: nat): (k: nat)
    ensures k <= len
    ensures 0 <= i <= len ==> k == i
  {
    if i < 0 then (if len + i < 0 then 0 else len + i)
    else if i > len then len
    else i
  }

  /** `list.slice(start, end)` as ECMA-262 defines `Array.prototype.slice`. */
  function JsSlice<T>(s: seq<T>, start: int, end: int): (r: seq<T>)
    ensures |r| <= |s|
    ensures 0 <= start <= end <= |s| ==> r == s[start..end]
    ensures 0 <= end <= start ==> r == []
  {
    var a := RelativeIndex(start, |s|);
    var b := RelativeIndex(end, |s|);
    if a < b then s[a..b] else []
  }

  /** The entries holding ranks `first .. first + 4`, clipped to the map: the
      five-card window that starts at rank `first`. */
  function Window(entries: seq<Entry>, first: nat): seq<Entry>
    requires first >= 1
  {
    var a := if first - 1 < |entries| then first - 1 else |entries|;
    var b := if first + 4 < |entries| then first + 4 else |entries|;
    entries[a..b]
  }

  /** In a dense map the window starting at `first` holds ranks `first`,
      `first + 1`, ... in order: five of them, or fewer at the end of the map. */
  lemma WindowRanks(entries: seq<Entry>, first: nat)
    requires first >= 1
    requires Dense(entries)
    ensures first + 4 <= |entries| ==> |Window(entries, first)| == 5
    ensures first - 1 <= |entries| <= first + 4 ==> |Window(entries, first)| == |entries| - (first - 1)
    ensures forall k :: 0 <= k < |Window(entries, first)| ==> Window(entries, first)[k].key == RankKey(first + k)
  {
  }
}

=== FILE: SuggestApi.dfy ===
/** Result assembly in `api/app.py` (`api_suggest` and its helpers): raw
    results of heterogeneous shape are normalised to (city, state, score),
    numeric scores are rescaled to 0..100, one shared "reasons" list is picked
    from the preferences, and the dense rank-keyed map the carousel pages
    through is built. The pandas data (PCA weights, goldilocks variables, the
    FIPS column lookup) and the ranking itself are parameters. */
module SuggestApi {
  import opened Wrappers
  import opened Values
  import opened RankMap
  import Text
  import opened Numeric

  // ---------------------------------------------------------------------
  // Normalisation of raw items
  // ---------------------------------------------------------------------

  /** One element of the list the ranking returns: a dict, a string, or any
      other object, represented by its `str()`. */
  datatype RawItem =
    | DictItem(fields: map<string, Value>)
    | StrItem(s: string)
    | OtherItem(repr: string)

  /** `{"cityName": city, "stateName": state, "score": score}`. */
  datatype Norm = Norm(city: Value, state: Value, score: Value)

  /** `item.get(key)`: `None` when the key is missing. */
  function Get(fields: map<string, Value>, key: string): Value {
    if key in fields then fields[key] else Null
  }

  /** `a or b or c or ""`. */
  function FirstTruthy(a: Value, b: Value, c: Value): (r: Value)
    ensures Truthy(a) ==> r == a
    ensures !Truthy(a) && Truthy(b) ==> r == b
    ensures !Truthy(a) && !Truthy(b) && Truthy(c) ==> r == c
    ensures !Truthy(a) && !Truthy(b) && !Truthy(c) ==> r == Str("")
  {
    PyOr(PyOr(PyOr(a, b), c), Str(""))
  }

  /** The normalisation loop body of `api_suggest`. A dict takes each field
      from the first truthy alternative; a string is split at its first comma
      with both sides stripped; anything else becomes its `str()` with an
      empty state. Only a dict carries a score. */
  function Normalize(item: RawItem): (r: Norm)
    ensures item.DictItem? ==>
              r.city == FirstTruthy(Get(item.fields, "cityName"), Get(item.fields, "city_ascii"), Get(item.fields, "city"))
              && r.state == FirstTruthy(Get(item.fields, "stateName"), Get(item.fields, "State"), Get(item.fields, "state"))
              && r.score == Get(item.fields, "score")
    ensures item.StrItem? && ',' !in item.s ==> r == Norm(Str(Text.Trim(item.s)), Str(""), Null)
    ensures item.StrItem? && ',' in item.s ==>
              r.score == Null && r.city.Str? && r.state.Str? && Text.IsTrimmed(r.city.s) && Text.IsTrimmed(r.state.s)
              && ',' !in r.city.s
    ensures item.StrItem? && ',' in item.s ==>
              exists i :: 0 <= i < |item.s| && item.s[i] == ',' && ',' !in item.s[..i]
                          && r == Norm(Str(Text.Trim(item.s[..i])), Str(Text.Trim(item.s[i + 1..])), Null)
    ensures item.OtherItem? ==> r == Norm(Str(item.repr), Str(""), Null)
  {
    match item
    case DictItem(f) =>
      Norm(FirstTruthy(Get(f, "cityName"), Get(f, "city_ascii"), Get(f, "city")),
           FirstTruthy(Get(f, "stateName"), Get(f, "State"), Get(f, "state")),
           Get(f, "score"))
    case StrItem(s) =>
      if ',' in s then
        var halves := Text.SplitOnce(s, ',');
        Text.TrimKeepsAbsent(halves.0, ',');
        var i := |halves.0|;
        assert s[i] == ',' && s[..i] == halves.0 && s[i + 1..] == halves.1;
        Norm(Str(Text.Trim(halves.0)), Str(Text.Trim(halves.1)), Null)
      else Norm(Str(Text.Trim(s)), Str(""), Null)
    case OtherItem(repr) => Norm(Str(repr), Str(""), Null)
  }

  /** A string written as "city, state" normalises back to its two parts when
      the city has no comma and neither part has surrounding white space. */
  lemma NormalizeCityState(city: string, state: string)
    requires ',' !in city && Text.IsTrimmed(city) && Text.IsTrimmed(state)
    ensures Normalize(StrItem(city + ", " + state)) == Norm(Str(city), Str(state), Null)
  {
    var s := city + ", " + state;
    assert s[|city|] == ',';
    var halves := Text.SplitOnce(s, ',');
    assert s == halves.0 + [','] + halves.1;
    assert |halves.0| <= |city| by {
      assert forall k :: 0 <= k < |halves.0| ==> halves.0[k] != ',';
    }
    assert |halves.0| >= |city| by {
      assert forall k :: 0 <= k < |city| ==> city[k] != ',';
      assert s[|halves.0|] == ',';
    }
    assert halves.0 == city;
    assert halves.1 == " " + state;
    Text.TrimTrimmed(city);
    TrimLeadingSpace(state);
  }

  /** Stripping a trimmed string with one extra space in front. */
  lemma TrimLeadingSpace(s: string)
    requires Text.IsTrimmed(s)
    ensures Text.Trim(" " + s) == s
  {
    var t := " " + s;
    var n := Text.LeadingSpaces(t);
    var r := Text.Trim(t);
    if |s| == 0 {
      assert Text.AllSpace(t);
      assert |r| == 0;
    } else {
      assert !Text.IsSpace(t[1]);
      assert n == 1;
      assert t[n..] == s;
      assert |r| == |s| by {
        assert Text.IsTrimmed(r);
        assert t == t[..1] + r + t[1 + |r|..];
        assert t[|t| - 1] == s[|s| - 1];
      }
      assert r == t[1..1 + |r|];
    }
  }

  // ---------------------------------------------------------------------
  // State FIPS codes
  // ---------------------------------------------------------------------

  /** `FIPS_BY_STATE`: two-digit state FIPS codes by state name. */
  const FipsByState: map<string, string> := map[
    "Alabama" := "01", "Alaska" := "02", "Arizona" := "04", "Arkansas" := "05", "California" := "06",
    "Colorado" := "08", "Connecticut" := "09", "Delaware" := "10", "District of Columbia" := "11",
    "Florida" := "12", "Georgia" := "13", "Hawaii" := "15", "Idaho" := "16", "Illinois" := "17",
    "Indiana" := "18", "Iowa" := "19", "Kansas" := "20", "Kentucky" := "21", "Louisiana" := "22",
    "Maine" := "23", "Maryland" := "24", "Massachusetts" := "25", "Michigan" := "26", "Minnesota" := "27",
    "Mississippi" := "28", "Missouri" := "29", "Montana" := "30", "Nebraska" := "31", "Nevada" := "32",
    "New Hampshire" := "33", "New Jersey" := "34", "New Mexico" := "35", "New York" := "36",
    "North Carolina" := "37", "North Dakota" := "38", "Ohio" := "39", "Oklahoma" := "40", "Oregon" := "41",
    "Pennsylvania" := "42", "Rhode Island" := "44", "South Carolina" := "45", "South Dakota" := "46",
    "Tennessee" := "47", "Texas" := "48", "Utah" := "49", "Vermont" := "50", "Virginia" := "51",
    "Washington" := "53", "West Virginia" := "54", "Wisconsin" := "55", "Wyoming" := "56"]

  /** `_state_fips_for(city, state) if state else "00"`. An empty state gives
      "00" without a lookup. Otherwise the DataFrame lookup (the parameter
      `lookup`, whose failures are caught) wins when it finds a row, then the
      table, then "00". A list or dict as state is unhashable, so the table
      lookup raises. */
  function StateFips(city: Value, state: Value, lookup: (Value, Value) -> Option<string>): (r: Result<string, string>)
    ensures !Truthy(state) ==> r == Success("00")
    ensures Truthy(state) && lookup(city, state).Some? ==> r == Success(lookup(city, state).value)
    ensures Truthy(state) && lookup(city, state).None? ==>
              match state
              case Str(s) => r == Success(if s in FipsByState then FipsByState[s] else "00")
              case Composite(_) => r.Failure?
              case _ => r == Success("00")
  {
    if !Truthy(state) then Success("00")
    else
      match lookup(city, state)
      case Some(code) => Success(code)
      case None =>
        match state
        case Str(s) => Success(if s in FipsByState then FipsByState[s] else "00")
        case Composite(_) => Failure("TypeError: unhashable type")
        case _ => Success("00")
  }

  // ---------------------------------------------------------------------
  // Score scaling
  // ---------------------------------------------------------------------

  /** Python's `round` to an integer: to the nearest integer, halves to the
      even neighbour. */
  function Round(x: real): (r: int)
    ensures x - 0.5 <= r as real <= x + 0.5
    ensures (r as real == x - 0.5 || r as real == x + 0.5) ==> r % 2 == 0
  {
    var f := x.Floor;
    var frac := x - f as real;
    if frac < 0.5 then f
    else if frac > 0.5 then f + 1
    else if f % 2 == 0 then f
    else f + 1
  }

  lemma RoundOfInteger(n: int)
    ensures Round(n as real) == n
  {
  }

  /** Rounding to nearest never reverses an order. */
  lemma RoundMonotone(x: real, y: real)
    requires x <= y
    ensures Round(x) <= Round(y)
  {
  }

  /** The numeric scores, in order (`isinstance(s, (int, float))`, which
      admits booleans as 0 and 1). */
  function Numbers(ns: seq<Norm>): (xs: seq<real>)
    ensures forall i :: 0 <= i < |ns| && AsNumber(ns[i].score).Some? ==> AsNumber(ns[i].score).value in xs
    ensures forall x :: x in xs ==> exists i :: 0 <= i < |ns| && AsNumber(ns[i].score) == Some(x)
    ensures |xs| == 0 <==> forall i :: 0 <= i < |ns| ==> AsNumber(ns[i].score).None?
  {
    if |ns| == 0 then []
    else
      var rest := Numbers(ns[1..]);
      assert forall i :: 1 <= i < |ns| ==> ns[i] == ns[1..][i - 1];
      match AsNumber(ns[0].score)
      case Some(x) => [x] + rest
      case None => rest
  }

  /** `100 * a / b` for `0 <= a <= b`, `b > 0`, lies in 0..100 and is 100 at `a == b`. */
  lemma PercentBounds(a: real, b: real)
    requires 0.0 <= a <= b && 0.0 < b
    ensures 0.0 <= 100.0 * a / b <= 100.0
    ensures a == b ==> 100.0 * a / b == 100.0
  {
    var q := 100.0 * a / b;
    assert q * b == 100.0 * a;
    assert (100.0 - q) * b == 100.0 * (b - a);
  }

  lemma PercentMonotone(a: real, a': real, b: real)
    requires a <= a' && 0.0 < b
    ensures 100.0 * a / b <= 100.0 * a' / b
  {
    var q, q' := 100.0 * a / b, 100.0 * a' / b;
    assert q * b == 100.0 * a && q' * b == 100.0 * a';
    assert (q' - q) * b >= 0.0;
  }

  /** `round(100 * (s - global_min) / (top_max - global_min))` for a score
      between the two. */
  function ScaleOne(s: real, lo: real, hi: real): (r: int)
    requires lo <= s <= hi && lo < hi
    ensures 0 <= r <= 100
    ensures s == hi ==> r == 100
    ensures s == lo ==> r == 0
    ensures var q := 100.0 * (s - lo) / (hi - lo);
            q - 0.5 <= r as real <= q + 0.5 && ((r as real == q - 0.5 || r as real == q + 0.5) ==> r % 2 == 0)
  {
    var q := 100.0 * (s - lo) / (hi - lo);
    PercentBounds(s - lo, hi - lo);
    RoundMonotone(0.0, q);
    RoundMonotone(q, 100.0);
    RoundOfInteger(0);
    RoundOfInteger(100);
    Round(q)
  }

  lemma ScaleOneMonotone(s: real, t: real, lo: real, hi: real)
    requires lo <= s <= t <= hi && lo < hi
    ensures ScaleOne(s, lo, hi) <= ScaleOne(t, lo, hi)
  {
    PercentMonotone(s - lo, t - lo, hi - lo);
    RoundMonotone(100.0 * (s - lo) / (hi - lo), 100.0 * (t - lo) / (hi - lo));
  }

  /** The scaled score of one result, given the bounds. */
  function ScaledOne(n: Norm, lo: real, hi: real): (r: Option<int>)
    requires lo <= hi
    requires AsNumber(n.score).Some? ==> lo <= AsNumber(n.score).value <= hi
    ensures r.Some? <==> AsNumber(n.score).Some?
    ensures r.Some? ==> 0 <= r.value <= 100
    ensures r.Some? && AsNumber(n.score).value == hi ==> r.value == 100
    ensures r.Some? && AsNumber(n.score).value == lo ==> r.value == (if lo == hi then 100 else 0)
    ensures r.Some? && lo == hi ==> r.value == 100
    ensures r.Some? && lo < hi ==>
              var q := 100.0 * (AsNumber(n.score).value - lo) / (hi - lo);
              q - 0.5 <= r.value as real <= q + 0.5
              && ((r.value as real == q - 0.5 || r.value as real == q + 0.5) ==> r.value % 2 == 0)
  {
    match AsNumber(n.score)
    case None => None
    case Some(s) => Some(if lo != hi then ScaleOne(s, lo, hi) else 100)
  }

  /** Scaled scores never reverse the order of the scores. */
  lemma ScaledOneMonotone(n: Norm, m: Norm, lo: real, hi: real)
    requires lo <= hi
    requires AsNumber(n.score).Some? ==> lo <= AsNumber(n.score).value <= hi
    requires AsNumber(m.score).Some? ==> lo <= AsNumber(m.score).value <= hi
    requires AsNumber(n.score).Some? && AsNumber(m.score).Some?
    requires AsNumber(n.score).value <= AsNumber(m.score).value
    ensures ScaledOne(n, lo, hi).value <= ScaledOne(m, lo, hi).value
  {
    if lo != hi {
      ScaleOneMonotone(AsNumber(n.score).value, AsNumber(m.score).value, lo, hi);
    }
  }

  /** Every numeric score lies between the minimum and the maximum. */
  lemma NumbersBetween(ns: seq<Norm>)
    requires |Numbers(ns)| > 0
    ensures forall i :: 0 <= i < |ns| && AsNumber(ns[i].score).Some? ==>
              MinOf(Numbers(ns)) <= AsNumber(ns[i].score).value <= MaxOf(Numbers(ns))
  {
  }

  /** The scaling step of `api_suggest`, with the fallback minimum (the
      global minimum is never available, see below): a result has a scaled
      score exactly when its score is numeric; scaled scores lie in 0..100;
      the best score gets 100; the worst gets 0 unless all numeric scores are
      equal, in which case they all get 100; and a higher score never gets a
      lower scaled score. */
  function Scaled(ns: seq<Norm>): (r: seq<Option<int>>)
    ensures |r| == |ns|
    ensures forall i :: 0 <= i < |ns| ==> (r[i].Some? <==> AsNumber(ns[i].score).Some?)
    ensures forall i :: 0 <= i < |ns| && r[i].Some? ==> 0 <= r[i].value <= 100
    ensures |Numbers(ns)| > 0 ==>
              forall i :: 0 <= i < |ns| && AsNumber(ns[i].score) == Some(MaxOf(Numbers(ns))) ==> r[i] == Some(100)
    ensures |Numbers(ns)| > 0 ==>
              forall i :: 0 <= i < |ns| && AsNumber(ns[i].score) == Some(MinOf(Numbers(ns))) ==>
              r[i] == Some(if MinOf(Numbers(ns)) == MaxOf(Numbers(ns)) then 100 else 0)
    ensures forall i, j :: (0 <= i < |ns| && 0 <= j < |ns| && r[i].Some? && r[j].Some? &&
                            AsNumber(ns[i].score).value <= AsNumber(ns[j].score).value) ==> r[i].value <= r[j].value
    ensures |Numbers(ns)| > 0 && MinOf(Numbers(ns)) < MaxOf(Numbers(ns)) ==>
              forall i :: 0 <= i < |ns| && r[i].Some? ==>
                r[i].value == ScaleOne(AsNumber(ns[i].score).value, MinOf(Numbers(ns)), MaxOf(Numbers(ns)))
  {
    var xs := Numbers(ns);
    if |xs| == 0 then seq(|ns|, i => None)
    else
      NumbersBetween(ns);
      ScaleAll(ns, MinOf(xs), MaxOf(xs))
  }

  /** Every result scaled between fixed bounds; the order of the scores is
      kept. */
  function ScaleAll(ns: seq<Norm>, lo: real, hi: real): (r: seq<Option<int>>)
    requires lo <= hi
    requires forall i :: 0 <= i < |ns| && AsNumber(ns[i].score).Some? ==> lo <= AsNumber(ns[i].score).value <= hi
    ensures |r| == |ns| && forall i :: 0 <= i < |ns| ==> r[i] == ScaledOne(ns[i], lo, hi)
    ensures forall i, j :: (0 <= i < |ns| && 0 <= j < |ns| && AsNumber(ns[i].score).Some? && AsNumber(ns[j].score).Some? &&
                            AsNumber(ns[i].score).value <= AsNumber(ns[j].score).value) ==>
                           r[i].Some? && r[j].Some? && r[i].value <= r[j].value
  {
    var r := seq(|ns|, i requires 0 <= i < |ns| => ScaledOne(ns[i], lo, hi));
    forall i, j | 0 <= i < |ns| && 0 <= j < |ns| && AsNumber(ns[i].score).Some? && AsNumber(ns[j].score).Some? &&
                  AsNumber(ns[i].score).value <= AsNumber(ns[j].score).value
      ensures r[i].Some? && r[j].Some? && r[i].value <= r[j].value
    {
      ScaledOneMonotone(ns[i], ns[j], lo, hi);
    }
    r
  }

  // ---------------------------------------------------------------------
  // Reasons: _top_features_from_prefs
  // ---------------------------------------------------------------------

  /** A candidate reason: the feature, its weight `abs(pca_w) * user_w` and its
      position in `PCA_SCORES`. */
  datatype Ranked = Ranked(name: string, weight: real, pos: nat)

  /** `x` is an item the loop appends: a non-goldilocks feature at position
      `x.pos` whose preference is non-zero, with its weight. */
  ghost predicate Eligible(pca: seq<(string, real)>, gold: set<string>, prefs: map<string, PrefVal>, x: Ranked) {
    x.pos < |pca| && x.name == pca[x.pos].0 && x.name !in gold
    && UserWeight(prefs, x.name) != 0.0 && x.weight == Abs(pca[x.pos].1) * UserWeight(prefs, x.name)
  }

  /** `r` is what the loop appends from position `from` on: eligible items
      only, in increasing position, and every eligible item of those
      positions. */
  ghost predicate CandidatesFrom(pca: seq<(string, real)>, gold: set<string>, prefs: map<string, PrefVal>,
                                 from: nat, r: seq<Ranked>) {
    && (forall i :: 0 <= i < |r| ==> Eligible(pca, gold, prefs, r[i]) && from <= r[i].pos)
    && (forall i, j :: 0 <= i < j < |r| ==> r[i].pos < r[j].pos)
    && (forall x :: Eligible(pca, gold, prefs, x) && from <= x.pos ==> x in r)
  }

  /** The list `items` the loop builds from position `from` on. */
  function Candidates(pca: seq<(string, real)>, gold: set<string>, prefs: map<string, PrefVal>, from: nat): (r: seq<Ranked>)
    ensures CandidatesFrom(pca, gold, prefs, from, r)
    decreases |pca| - from
  {
    if from >= |pca| then []
    else
      var name := pca[from].0;
      var w := UserWeight(prefs, name);
      var rest := Candidates(pca, gold, prefs, from + 1);
      if name !in gold && w != 0.0 then
        var head := Ranked(name, Abs(pca[from].1) * w, from);
        TakeCandidate(pca, gold, prefs, from, head, rest);
        [head] + rest
      else
        SkipCandidate(pca, gold, prefs, from, rest);
        rest
  }

  /** The loop appends the feature at `from` when it is eligible. */
  lemma TakeCandidate(pca: seq<(string, real)>, gold: set<string>, prefs: map<string, PrefVal>,
                      from: nat, head: Ranked, rest: seq<Ranked>)
    requires from < |pca| && pca[from].0 !in gold && UserWeight(prefs, pca[from].0) != 0.0
    requires head == Ranked(pca[from].0, Abs(pca[from].1) * UserWeight(prefs, pca[from].0), from)
    requires CandidatesFrom(pca, gold, prefs, from + 1, rest)
    ensures CandidatesFrom(pca, gold, prefs, from, [head] + rest)
  {
    var r := [head] + rest;
    forall i | 0 <= i < |r| ensures Eligible(pca, gold, prefs, r[i]) && from <= r[i].pos {
      if i > 0 { assert r[i] == rest[i - 1]; }
    }
    forall i, j | 0 <= i < j < |r| ensures r[i].pos < r[j].pos {
      assert r[j] == rest[j - 1];
      if i > 0 { assert r[i] == rest[i - 1]; }
    }
    forall x | Eligible(pca, gold, prefs, x) && from <= x.pos ensures x in r {
      if x.pos == from {
        assert x == head;
      }
    }
  }

  /** The loop skips the feature at `from` when it is not eligible. */
  lemma SkipCandidate(pca: seq<(string, real)>, gold: set<string>, prefs: map<string, PrefVal>,
                      from: nat, rest: seq<Ranked>)
    requires from < |pca| && !(pca[from].0 !in gold && UserWeight(prefs, pca[from].0) != 0.0)
    requires CandidatesFrom(pca, gold, prefs, from + 1, rest)
    ensures CandidatesFrom(pca, gold, prefs, from, rest)
  {
  }

  /** The order `items.sort(key=weight, reverse=True)` leaves: heavier first,
      equal weights in their original order (the sort is stable). */
  predicate Precedes(x: Ranked, y: Ranked) {
    x.weight > y.weight || (x.weight == y.weight && x.pos < y.pos)
  }

  ghost predicate SortedDesc(s: seq<Ranked>) {
    forall i, j :: 0 <= i < j < |s| ==> Precedes(s[i], s[j])
  }

  /** A head that precedes everything in a sorted tail keeps it sorted. */
  lemma PrependSorted(h: Ranked, t: seq<Ranked>)
    requires SortedDesc(t) && forall y :: y in multiset(t) ==> Precedes(h, y)
    ensures SortedDesc([h] + t)
  {
    forall i, j | 0 <= i < j < |[h] + t| ensures Precedes(([h] + t)[i], ([h] + t)[j]) {
      if i == 0 {
        assert ([h] + t)[j] == t[j - 1] && t[j - 1] in multiset(t);
      } else {
        assert ([h] + t)[i] == t[i - 1] && ([h] + t)[j] == t[j - 1];
      }
    }
  }

  /** In a sorted sequence the head precedes everything after it. */
  lemma HeadPrecedesTail(s: seq<Ranked>)
    requires |s| > 0 && SortedDesc(s)
    ensures forall y :: y in multiset(s[1..]) ==> Precedes(s[0], y)
  {
    forall y | y in multiset(s[1..]) ensures Precedes(s[0], y) {
      var j :| 0 <= j < |s[1..]| && s[1..][j] == y;
      assert s[j + 1] == y;
    }
  }

  /** A later candidate that the head does not precede is heavier than the
      head, so it precedes the whole sorted sequence. */
  lemma LaterHeavierPrecedesAll(x: Ranked, s: seq<Ranked>)
    requires SortedDesc(s) && forall i :: 0 <= i < |s| ==> s[i].pos < x.pos
    requires |s| > 0 && !Precedes(s[0], x)
    ensures forall y :: y in multiset(s) ==> Precedes(x, y)
  {
    forall y | y in multiset(s) ensures Precedes(x, y) {
      var j :| 0 <= j < |s| && s[j] == y;
      assert j == 0 || Precedes(s[0], s[j]);
    }
  }

  /** Insert `x` after every element that precedes it. */
  function Insert(x: Ranked, s: seq<Ranked>): (r: seq<Ranked>)
    requires SortedDesc(s) && forall i :: 0 <= i < |s| ==> s[i].pos < x.pos
    ensures SortedDesc(r) && multiset(r) == multiset(s) + multiset{x}
  {
    if |s| == 0 then [x]
    else if Precedes(s[0], x) then
      var rest := Insert(x, s[1..]);
      assert s == [s[0]] + s[1..];
      HeadPrecedesTail(s);
      PrependSorted(s[0], rest);
      [s[0]] + rest
    else
      LaterHeavierPrecedesAll(x, s);
      PrependSorted(x, s);
      [x] + s
  }

  /** Every candidate a sorted permutation holds comes before `last`. */
  lemma PositionsBefore(init: seq<Ranked>, sorted: seq<Ranked>, last: Ranked)
    requires multiset(sorted) == multiset(init)
    requires forall i :: 0 <= i < |init| ==> init[i].pos < last.pos
    ensures forall i :: 0 <= i < |sorted| ==> sorted[i].pos < last.pos
  {
    forall i | 0 <= i < |sorted| ensures sorted[i].pos < last.pos {
      assert sorted[i] in multiset(init);
      var j :| 0 <= j < |init| && init[j] == sorted[i];
    }
  }

  /** Stable descending sort of candidates in increasing position order. */
  function SortDesc(items: seq<Ranked>): (r: seq<Ranked>)
    requires forall i, j :: 0 <= i < j < |items| ==> items[i].pos < items[j].pos
    ensures SortedDesc(r) && multiset(r) == multiset(items)
  {
    if |items| == 0 then []
    else
      var init := items[..|items| - 1];
      var last := items[|items| - 1];
      var sorted := SortDesc(init);
      assert items == init + [last];
      PositionsBefore(init, sorted, last);
      Insert(last, sorted)
  }

  function Take<T>(s: seq<T>, k: nat): (r: seq<T>)
    ensures |r| == if k < |s| then k else |s|
    ensures r == s[..|r|]
  {
    if k < |s| then s[..k] else s
  }

  /** The ranked reasons, before the names are taken. */
  function TopRanked(pca: seq<(string, real)>, gold: set<string>, prefs: map<string, PrefVal>, k: nat): (r: seq<Ranked>)
    ensures |r| <= k
    ensures forall i :: 0 <= i < |r| ==> Eligible(pca, gold, prefs, r[i])
    ensures SortedDesc(r)
    ensures forall x :: Eligible(pca, gold, prefs, x) && x !in r ==> |r| == k && forall i :: 0 <= i < |r| ==> Precedes(r[i], x)
  {
    var cands := Candidates(pca, gold, prefs, 0);
    var sorted := SortDesc(cands);
    TakeSorted(pca, gold, prefs, cands, sorted, k);
    Take(sorted, k)
  }

  /** The first `k` of the sorted candidates are the best `k`. */
  lemma TakeSorted(pca: seq<(string, real)>, gold: set<string>, prefs: map<string, PrefVal>,
                   cands: seq<Ranked>, sorted: seq<Ranked>, k: nat)
    requires forall i :: 0 <= i < |cands| ==> Eligible(pca, gold, prefs, cands[i])
    requires forall x :: Eligible(pca, gold, prefs, x) ==> x in cands
    requires SortedDesc(sorted) && multiset(sorted) == multiset(cands)
    ensures forall i :: 0 <= i < |Take(sorted, k)| ==> Eligible(pca, gold, prefs, Take(sorted, k)[i])
    ensures SortedDesc(Take(sorted, k))
    ensures forall x :: Eligible(pca, gold, prefs, x) && x !in Take(sorted, k) ==>
              |Take(sorted, k)| == k && forall i :: 0 <= i < |Take(sorted, k)| ==> Precedes(Take(sorted, k)[i], x)
  {
    var r := Take(sorted, k);
    forall i | 0 <= i < |r| ensures Eligible(pca, gold, prefs, r[i]) {
      assert r[i] == sorted[i] && sorted[i] in multiset(cands);
    }
    forall x | Eligible(pca, gold, prefs, x) && x !in r
      ensures |r| == k && forall i :: 0 <= i < |r| ==> Precedes(r[i], x)
    {
      assert x in multiset(sorted);
      var p :| 0 <= p < |sorted| && sorted[p] == x;
      assert p >= |r|;
    }
  }

  function Names(rs: seq<Ranked>): (r: seq<string>)
    ensures |r| == |rs| && forall i :: 0 <= i < |rs| ==> r[i] == rs[i].name
  {
    seq(|rs|, i requires 0 <= i < |rs| => rs[i].name)
  }

  /** `_top_features_from_prefs(prefs, k)`: at most `k` names, never a
      goldilocks variable, never a feature whose preference is missing, zero
      or unparseable, ordered by `abs(pca_w) * user_w` from the largest with
      ties in `PCA_SCORES` order; a feature left out ranks after every one
      kept, and one is left out only when `k` names were kept. */
  function TopFeatures(pca: seq<(string, real)>, gold: set<string>, prefs: map<string, PrefVal>, k: nat): (r: seq<string>)
    ensures |r| <= k
    ensures forall i :: 0 <= i < |r| ==> r[i] !in gold && UserWeight(prefs, r[i]) != 0.0
    ensures forall i :: 0 <= i < |r| ==> exists p :: 0 <= p < |pca| && pca[p].0 == r[i]
    ensures r == Names(TopRanked(pca, gold, prefs, k))
  {
    var rs := TopRanked(pca, gold, prefs, k);
    forall i | 0 <= i < |rs| ensures exists p :: 0 <= p < |pca| && pca[p].0 == rs[i].name {
      assert pca[rs[i].pos].0 == rs[i].name;
    }
    Names(rs)
  }

  // ---------------------------------------------------------------------
  // The rank-keyed map
  // ---------------------------------------------------------------------

  /** The loop that fills `suggestions`: key `str(i)` for the i-th result
      from 1, city, state and score as normalised, the state's FIPS code, the
      shared reasons and the scaled score. A FIPS lookup that raises aborts the
      request. */
  function BuildRankMap(ns: seq<Norm>, scaled: seq<Option<int>>, reasons: seq<string>,
                        lookup: (Value, Value) -> Option<string>, from: nat): (r: Result<seq<Entry>, string>)
    requires |scaled| == |ns| && from <= |ns|
    ensures r.Success? <==> forall i :: from <= i < |ns| ==> StateFips(ns[i].city, ns[i].state, lookup).Success?
    ensures r.Success? ==> |r.value| == |ns| - from
    ensures r.Success? ==> forall i :: 0 <= i < |r.value| ==>
              r.value[i] == Entry(RankKey(from + i + 1),
                                  Suggestion(ns[from + i].city, ns[from + i].state,
                                             StateFips(ns[from + i].city, ns[from + i].state, lookup).value,
                                             reasons, ns[from + i].score, scaled[from + i]))
    decreases |ns| - from
  {
    if from == |ns| then Success([])
    else
      var n := ns[from];
      match StateFips(n.city, n.state, lookup)
      case Failure(e) => Failure(e)
      case Success(fips) =>
        match BuildRankMap(ns, scaled, reasons, lookup, from + 1)
        case Failure(e) => Failure(e)
        case Success(rest) =>
          Success([Entry(RankKey(from + 1), Suggestion(n.city, n.state, fips, reasons, n.score, scaled[from]))] + rest)
  }

  /** The normalised results, in order. */
  function NormalizeAll(raw: seq<RawItem>): (ns: seq<Norm>)
    ensures |ns| == |raw| && forall i :: 0 <= i < |raw| ==> ns[i] == Normalize(raw[i])
  {
    seq(|raw|, i requires 0 <= i < |raw| => Normalize(raw[i]))
  }

  /** `api_suggest` from the ranking's output on: the suggestions map holds
      the keys "1".."N" for the N raw results in order, each with its
      normalised city, state and score, its scaled score, and one shared
      reasons list; a FIPS lookup that raises makes the whole request fail. */
  function Suggest(raw: seq<RawItem>, pca: seq<(string, real)>, gold: set<string>, prefs: map<string, PrefVal>,
                   lookup: (Value, Value) -> Option<string>): (r: Result<seq<Entry>, string>)
    ensures r.Success? <==> forall i :: 0 <= i < |raw| ==> StateFips(Normalize(raw[i]).city, Normalize(raw[i]).state, lookup).Success?
    ensures r.Success? ==> Dense(r.value) && |r.value| == |raw|
    ensures r.Success? ==> forall i :: 0 <= i < |raw| ==>
              r.value[i].sug.cityName == Normalize(raw[i]).city && r.value[i].sug.stateName == Normalize(raw[i]).state
              && r.value[i].sug.score == Normalize(raw[i]).score
              && r.value[i].sug.scaledScore == Scaled(NormalizeAll(raw))[i]
              && r.value[i].sug.topFeatures == TopFeatures(pca, gold, prefs, 5)
    ensures r.Success? ==> forall i :: 0 <= i < |raw| ==>
              r.value[i].sug.stateFIPS == StateFips(Normalize(raw[i]).city, Normalize(raw[i]).state, lookup).value
  {
    var ns := NormalizeAll(raw);
    BuildRankMap(ns, Scaled(ns), TopFeatures(pca, gold, prefs, 5), lookup, 0)
  }
}

=== FILE: SuggestionAlgo.dfy ===
/** The ranking engine of `suggestion_algo.py`: header and column picking,
    min-max normalisation, the per-feature contribution rules of a city's
    score, and the selection of the best `top_n` cities. The DataFrames are
    represented by what the code reads from them: a column list, one row of
    rendered cells per city, and per city the normalised and raw numeric
    values by feature. */
module SuggestionAlgo {
  import opened Wrappers
  import opened Values
  import opened Numeric
  import Text

  // ---------------------------------------------------------------------
  // Column picking
  // ---------------------------------------------------------------------

  /** `CITY_CANDS` and `STATE_CANDS`, in preference order. */
  const CityCands: seq<string> := ["city", "City", "city_ascii", "Place", "name", "NAME"]
  const StateCands: seq<string> := ["state", "State", "state_name", "ST", "st", "usps", "STATE"]

  /** `_pick_col(cands, frame)`: the first candidate, in list order, that is
      a column; `None` when no candidate is. */
  function PickCol(cands: seq<string>, cols: seq<string>): (r: Option<string>)
    ensures r.None? <==> forall k :: 0 <= k < |cands| ==> cands[k] !in cols
    ensures r.Some? ==> r.value in cands && r.value in cols
    ensures forall k :: 0 <= k < |cands| && cands[k] in cols && (forall m :: 0 <= m < k ==> cands[m] !in cols) ==>
              r == Some(cands[k])
  {
    if |cands| == 0 then None
    else if cands[0] in cols then Some(cands[0])
    else
      var r := PickCol(cands[1..], cols);
      assert forall k :: 1 <= k < |cands| ==> cands[k] == cands[1..][k - 1];
      r
  }

  /** A picked column is a column and one of the candidates. */
  lemma PickColMember(cands: seq<string>, cols: seq<string>)
    requires PickCol(cands, cols).Some?
    ensures PickCol(cands, cols).value in cands && PickCol(cands, cols).value in cols
  {
    var k :| 0 <= k < |cands| && cands[k] in cols;
    FirstIn(cands, cols, k);
  }

  /** When some candidate is a column, there is a first one. */
  lemma {:induction false} FirstIn(cands: seq<string>, cols: seq<string>, k: nat)
    requires k < |cands| && cands[k] in cols
    ensures exists j :: 0 <= j <= k && cands[j] in cols && forall m :: 0 <= m < j ==> cands[m] !in cols
  {
    if exists m :: 0 <= m < k && cands[m] in cols {
      var m :| 0 <= m < k && cands[m] in cols;
      FirstIn(cands, cols, m);
    }
  }

  /** `str(c).strip().lower()`: the key a PCA header is matched by. */
  function NormKey(c: string): string {
    Text.Lower(Text.Trim(c))
  }

  /** `{str(c).strip().lower(): c for c in cols}`: every normalised header,
      mapped to a column that normalises to it; `NormMapLast` shows it is
      the LAST such column (later entries of a dict comprehension overwrite
      earlier ones). */
  function NormMap(cols: seq<string>): (m: map<string, string>)
    ensures forall c :: c in cols ==> NormKey(c) in m
    ensures forall k :: k in m ==> m[k] in cols && NormKey(m[k]) == k
  {
    if |cols| == 0 then map[]
    else
      var init := cols[..|cols| - 1];
      var last := cols[|cols| - 1];
      assert cols == init + [last];
      NormMap(init)[NormKey(last) := last]
  }

  /** A column that no later column shadows is the one its key maps to. */
  lemma {:induction false} NormMapLast(cols: seq<string>, i: nat)
    requires i < |cols| && forall j :: i < j < |cols| ==> NormKey(cols[j]) != NormKey(cols[i])
    ensures NormMap(cols)[NormKey(cols[i])] == cols[i]
  {
    var init := cols[..|cols| - 1];
    if i < |cols| - 1 {
      assert forall j :: i < j < |init| ==> init[j] == cols[j];
      NormMapLast(init, i);
      assert init[i] == cols[i];
    }
  }

  /** `_pick_header(cands, cols)`. The candidates are a Python set, so the
      order in which they are tried is the set's iteration order, which the
      language leaves open: it is the parameter `order`, one listing of the
      set. The first candidate in that order that some header normalises to
      wins, with the last such header; when none matches the call raises
      `KeyError`. */
  function PickHeader(order: seq<string>, cols: seq<string>): (r: Result<string, string>)
    ensures r.Failure? <==> forall c :: c in cols ==> NormKey(c) !in order
    ensures r.Success? ==> r.value in cols && NormKey(r.value) in order
    ensures forall k :: 0 <= k < |order| && order[k] in NormMap(cols) && (forall m :: 0 <= m < k ==> order[m] !in NormMap(cols)) ==>
              r == Success(NormMap(cols)[order[k]])
  {
    var norm := NormMap(cols);
    var r := PickFrom(order, norm);
    assert r.Failure? <==> forall c :: c in cols ==> NormKey(c) !in order by {
      if r.Success? {
        var k :| 0 <= k < |order| && order[k] in norm && r.value == norm[order[k]];
        assert NormKey(norm[order[k]]) == order[k];
      } else {
        forall c | c in cols ensures NormKey(c) !in order {
          assert NormKey(c) in norm;
        }
      }
    }
    r
  }

  /** The loop of `_pick_header` over a fixed `norm` dict. */
  function PickFrom(order: seq<string>, norm: map<string, string>): (r: Result<string, string>)
    ensures r.Failure? <==> forall k :: 0 <= k < |order| ==> order[k] !in norm
    ensures r.Failure? ==> r.error == "KeyError"
    ensures r.Success? ==> exists k :: 0 <= k < |order| && order[k] in norm && r.value == norm[order[k]]
    ensures forall k :: 0 <= k < |order| && order[k] in norm && (forall m :: 0 <= m < k ==> order[m] !in norm) ==>
              r == Success(norm[order[k]])
  {
    if |order| == 0 then Failure("KeyError")
    else if order[0] in norm then Success(norm[order[0]])
    else
      var r := PickFrom(order[1..], norm);
      assert forall k :: 1 <= k < |order| ==> order[k] == order[1..][k - 1];
      r
  }

  /** When at most one candidate matches a header, the set's iteration order
      does not matter: any two listings of the candidates pick the same
      column. */
  lemma PickHeaderOrderFree(o1: seq<string>, o2: seq<string>, cols: seq<string>)
    requires forall w :: w in o1 <==> w in o2
    requires forall w, v :: w in o1 && v in o1 && w in NormMap(cols) && v in NormMap(cols) ==> w == v
    ensures PickHeader(o1, cols) == PickHeader(o2, cols)
  {
    PickFromOrderFree(o1, o2, NormMap(cols));
  }

  lemma PickFromOrderFree(o1: seq<string>, o2: seq<string>, norm: map<string, string>)
    requires forall w :: w in o1 <==> w in o2
    requires forall w, v :: w in o1 && v in o1 && w in norm && v in norm ==> w == v
    ensures PickFrom(o1, norm) == PickFrom(o2, norm)
  {
    if exists k :: 0 <= k < |o1| && o1[k] in norm {
      var k :| 0 <= k < |o1| && o1[k] in norm;
      var w := o1[k];
      PickFromOnly(o1, norm, w);
      PickFromOnly(o2, norm, w);
    } else {
      forall m | 0 <= m < |o2| ensures o2[m] !in norm {
        assert o2[m] in o1;
      }
    }
  }

  /** When `w` is the only listed key of `norm`, it is the one picked. */
  lemma {:induction false} PickFromOnly(order: seq<string>, norm: map<string, string>, w: string)
    requires w in order && w in norm
    requires forall m :: 0 <= m < |order| && order[m] in norm ==> order[m] == w
    ensures PickFrom(order, norm) == Success(norm[w])
  {
    if order[0] != w {
      assert order == [order[0]] + order[1..];
      assert forall m :: 0 <= m < |order| - 1 ==> order[1..][m] == order[m + 1];
      PickFromOnly(order[1..], norm, w);
    }
  }

  // ---------------------------------------------------------------------
  // Min-max normalisation
  // ---------------------------------------------------------------------

  /** The values of a column that are numbers; `None` is a cell
      `pd.to_numeric(..., errors="coerce")` turned into NaN. */
  function Present(s: seq<Option<real>>): (xs: seq<real>)
    ensures forall i :: 0 <= i < |s| && s[i].Some? ==> s[i].value in xs
    ensures forall x :: x in xs ==> exists i :: 0 <= i < |s| && s[i] == Some(x)
  {
    if |s| == 0 then []
    else
      var rest := Present(s[1..]);
      assert forall i :: 1 <= i < |s| ==> s[i] == s[1..][i - 1];
      if s[0].Some? then [s[0].value] + rest else rest
  }

  /** `_minmax` returns zeros: the column has no number, or all its numbers
      are equal. */
  predicate Flat(s: seq<Option<real>>) {
    |Present(s)| == 0 || MinOf(Present(s)) == MaxOf(Present(s))
  }

  /** `_minmax(s)`: a flat column becomes all zeros (its NaN cells included);
      otherwise every number x becomes `(x - min) / (max - min)` and NaN stays
      NaN. */
  function MinMax(s: seq<Option<real>>): (r: seq<Option<real>>)
    ensures |r| == |s|
    ensures Flat(s) ==> forall i :: 0 <= i < |s| ==> r[i] == Some(0.0)
    ensures !Flat(s) ==> forall i :: 0 <= i < |s| ==> (r[i].Some? <==> s[i].Some?)
    ensures forall i :: 0 <= i < |s| && r[i].Some? ==> 0.0 <= r[i].value <= 1.0
  {
    if Flat(s) then seq(|s|, i => Some(0.0))
    else
      var lo, hi := MinOf(Present(s)), MaxOf(Present(s));
      seq(|s|, i requires 0 <= i < |s| => if s[i].Some? then Some(Scale01(s[i].value, lo, hi)) else None)
  }

  /** `(x - mn) / (mx - mn)` for a value between the two. */
  function Scale01(x: real, lo: real, hi: real): (r: real)
    requires lo <= x <= hi && lo < hi
    ensures 0.0 <= r <= 1.0
    ensures lo + r * (hi - lo) == x
    ensures x == lo ==> r == 0.0
    ensures x == hi ==> r == 1.0
  {
    DivBounds(x - lo, hi - lo);
    (x - lo) / (hi - lo)
  }

  /** Normalising keeps the order of two values. */
  lemma Scale01Monotone(x: real, y: real, lo: real, hi: real)
    requires lo <= x <= hi && lo <= y <= hi && lo < hi
    ensures x <= y <==> Scale01(x, lo, hi) <= Scale01(y, lo, hi)
  {
    DivMonotone(x - lo, y - lo, hi - lo);
  }

  /** The normalised value of a number in a column that is not flat. */
  lemma MinMaxAt(s: seq<Option<real>>, i: nat)
    requires !Flat(s) && i < |s| && s[i].Some?
    ensures MinOf(Present(s)) <= s[i].value <= MaxOf(Present(s)) && MinOf(Present(s)) < MaxOf(Present(s))
    ensures MinMax(s)[i] == Some(Scale01(s[i].value, MinOf(Present(s)), MaxOf(Present(s))))
  {
  }

  /** Normalisation loses nothing on a column that is not flat: every number
      is recovered from its normalised value, the smallest becomes 0 and the
      largest 1. */
  lemma MinMaxInverse(s: seq<Option<real>>, i: nat)
    requires !Flat(s) && i < |s| && s[i].Some?
    ensures Unscale(MinMax(s)[i].value, MinOf(Present(s)), MaxOf(Present(s))) == s[i].value
    ensures s[i].value == MinOf(Present(s)) ==> MinMax(s)[i].value == 0.0
    ensures s[i].value == MaxOf(Present(s)) ==> MinMax(s)[i].value == 1.0
  {
    MinMaxAt(s, i);
    var lo, hi := MinOf(Present(s)), MaxOf(Present(s));
    Recover(s[i].value, lo, hi, MinMax(s)[i].value);
  }

  /** The value a normalised value came from. */
  lemma Recover(x: real, lo: real, hi: real, r: real)
    requires lo <= x <= hi && lo < hi && r == Scale01(x, lo, hi)
    ensures Unscale(r, lo, hi) == x
    ensures x == lo ==> r == 0.0
    ensures x == hi ==> r == 1.0
  {
  }

  /** The value at fraction `r` of the way from `lo` to `hi`. */
  function Unscale(r: real, lo: real, hi: real): real {
    lo + r * (hi - lo)
  }

  /** Normalisation keeps the order of the numbers of a column that is not
      flat, in both directions. */
  lemma MinMaxOrder(s: seq<Option<real>>, i: nat, j: nat)
    requires !Flat(s) && i < |s| && j < |s| && s[i].Some? && s[j].Some?
    ensures s[i].value <= s[j].value <==> MinMax(s)[i].value <= MinMax(s)[j].value
  {
    var lo, hi := MinOf(Present(s)), MaxOf(Present(s));
    MinMaxAt(s, i);
    MinMaxAt(s, j);
    Scale01Monotone(s[i].value, s[j].value, lo, hi);
  }

  // ---------------------------------------------------------------------
  // Per-feature contributions
  // ---------------------------------------------------------------------

  /** `max(0.0, min(user_val, 5.0)) / 5.0`: the slider value 0..5 as a
      fraction, clamped. */
  function Importance(u: real): (r: real)
    ensures 0.0 <= r <= 1.0
    ensures u <= 0.0 ==> r == 0.0
    ensures u >= 5.0 ==> r == 1.0
    ensures 0.0 <= u <= 5.0 ==> 5.0 * r == u
  {
    var c := if u < 0.0 then 0.0 else if u > 5.0 then 5.0 else u;
    c / 5.0
  }

  /** A higher preference never means a lower importance. */
  lemma ImportanceMonotone(u: real, v: real)
    requires u <= v
    ensures Importance(u) <= Importance(v)
  {
  }

  /** `max(0.0, 1.0 - abs(val - ideal) / range)` for a goldilocks feature:
      1 at the ideal, falling linearly with the distance from it, 0 at a
      distance of the feature's whole range or more. */
  function Closeness(v: real, ideal: real, range: real): (r: real)
    requires range > 0.0
    ensures 0.0 <= r <= 1.0
    ensures r == 1.0 <==> v == ideal
    ensures r == 0.0 <==> Abs(v - ideal) >= range
    ensures r > 0.0 ==> r * range == range - Abs(v - ideal)
  {
    var q := Abs(v - ideal) / range;
    DivBounds(Abs(v - ideal), range);
    if 1.0 - q < 0.0 then 0.0 else 1.0 - q
  }

  /** A city closer to the ideal is never less close. */
  lemma CloserIsCloser(v: real, w: real, ideal: real, range: real)
    requires range > 0.0 && Abs(v - ideal) <= Abs(w - ideal)
    ensures Closeness(w, ideal, range) <= Closeness(v, ideal, range)
  {
    DivMonotone(Abs(v - ideal), Abs(w - ideal), range);
  }

  /** What `_row_score` reads for one city: the min-max normalised (and
      possibly inverted) value of each resolvable feature column, and the raw
      value of each column of the master table, `None` where
      `pd.to_numeric` gives NaN. */
  datatype Row = Row(norm: map<string, real>, raw: map<string, Option<real>>)

  /** The goldilocks branch is taken: the feature has a positive range and
      is a column of the raw table. */
  predicate UsesGold(name: string, row: Row, goldRanges: map<string, real>) {
    name in goldRanges && name in row.raw && goldRanges[name] > 0.0
  }

  /** The loop body of `_row_score` for one `(var, pca_w)`: `None` when the
      feature is skipped. */
  function Contribution(name: string, pcaW: real, row: Row, prefs: map<string, PrefVal>,
                        goldRanges: map<string, real>): (c: Option<real>)
    ensures c.None? <==> name !in row.norm || (UsesGold(name, row, goldRanges) && row.raw[name].None?)
    ensures c.Some? && UsesGold(name, row, goldRanges) ==>
              c.value == Share(Closeness(row.raw[name].value, UserWeight(prefs, name), goldRanges[name]),
                               pcaW, Importance(UserWeight(prefs, name)))
    ensures c.Some? && !UsesGold(name, row, goldRanges) ==>
              c.value == Share(row.norm[name], pcaW, Importance(UserWeight(prefs, name)))
  {
    if name !in row.norm then None
    else
      var u := UserWeight(prefs, name);
      if UsesGold(name, row, goldRanges) then
        match row.raw[name]
        case None => None
        case Some(v) => Some(Share(Closeness(v, u, goldRanges[name]), pcaW, Importance(u)))
      else Some(Share(row.norm[name], pcaW, Importance(u)))
  }

  /** `value * pca_w * importance`: one feature's share of a city's score. */
  function Share(f: real, w: real, imp: real): real {
    f * w * imp
  }

  /** `_row_score(idx, prefs)`: the contributions over `PCA_SCORES` in order,
      skipped features adding nothing; a city for which every feature is
      skipped scores 0. */
  function RowScore(pca: seq<(string, real)>, row: Row, prefs: map<string, PrefVal>,
                    goldRanges: map<string, real>): (r: real)
    ensures (forall i :: 0 <= i < |pca| ==> Contribution(pca[i].0, pca[i].1, row, prefs, goldRanges).None?) ==> r == 0.0
  {
    if |pca| == 0 then 0.0
    else
      var rest := RowScore(pca[1..], row, prefs, goldRanges);
      match Contribution(pca[0].0, pca[0].1, row, prefs, goldRanges)
      case None => rest
      case Some(c) => c + rest
  }

  /** One feature's score is its contribution, or 0 when it is skipped. */
  lemma RowScoreSingle(name: string, pcaW: real, row: Row, prefs: map<string, PrefVal>,
                       goldRanges: map<string, real>)
    ensures RowScore([(name, pcaW)], row, prefs, goldRanges)
            == match Contribution(name, pcaW, row, prefs, goldRanges)
               case None => 0.0
               case Some(c) => c
  {
    assert [(name, pcaW)][1..] == [];
  }

  /** The score is a sum over the features: scoring two lists of features
      one after the other adds their scores. */
  lemma {:induction false} RowScoreConcat(a: seq<(string, real)>, b: seq<(string, real)>, row: Row,
                                          prefs: map<string, PrefVal>, goldRanges: map<string, real>)
    ensures RowScore(a + b, row, prefs, goldRanges) == RowScore(a, row, prefs, goldRanges) + RowScore(b, row, prefs, goldRanges)
  {
    if |a| == 0 {
      assert a + b == b;
    } else {
      assert (a + b)[0] == a[0] && (a + b)[1..] == a[1..] + b;
      RowScoreConcat(a[1..], b, row, prefs, goldRanges);
    }
  }

  /** The total weight a city can collect: the sum of `|pca_w|`. */
  function WeightSum(pca: seq<(string, real)>): (r: real)
    ensures r >= 0.0
  {
    if |pca| == 0 then 0.0 else Abs(pca[0].1) + WeightSum(pca[1..])
  }

  /** One contribution is at most the feature's `|pca_w|` in size when the
      normalised value lies in 0..1, and it has the sign of `pca_w`. */
  lemma ContributionBounds(name: string, pcaW: real, row: Row, prefs: map<string, PrefVal>,
                           goldRanges: map<string, real>)
    requires name in row.norm ==> 0.0 <= row.norm[name] <= 1.0
    ensures Contribution(name, pcaW, row, prefs, goldRanges).Some? ==>
              Abs(Contribution(name, pcaW, row, prefs, goldRanges).value) <= Abs(pcaW)
    ensures Contribution(name, pcaW, row, prefs, goldRanges).Some? && pcaW >= 0.0 ==>
              Contribution(name, pcaW, row, prefs, goldRanges).value >= 0.0
  {
    var c := Contribution(name, pcaW, row, prefs, goldRanges);
    if c.Some? {
      var u := UserWeight(prefs, name);
      var f := if UsesGold(name, row, goldRanges) then Closeness(row.raw[name].value, u, goldRanges[name])
               else row.norm[name];
      assert c.value == Share(f, pcaW, Importance(u));
      ShareBounds(f, pcaW, Importance(u));
    }
  }

  /** A fraction of the weight, scaled by a fraction, stays within the
      weight and keeps its sign. */
  lemma ShareBounds(f: real, w: real, imp: real)
    requires 0.0 <= f <= 1.0 && 0.0 <= imp <= 1.0
    ensures Abs(Share(f, w, imp)) <= Abs(w)
    ensures w >= 0.0 ==> Share(f, w, imp) >= 0.0
  {
    assert f * w * imp == (f * imp) * w;
    FractionProduct(f, imp);
    FractionOf(f * imp, w);
  }

  /** A city's score lies within the total PCA weight when every normalised
      value lies in 0..1; with non-negative weights it is non-negative. */
  lemma {:induction false} RowScoreBounds(pca: seq<(string, real)>, row: Row, prefs: map<string, PrefVal>,
                                          goldRanges: map<string, real>)
    requires forall k :: k in row.norm ==> 0.0 <= row.norm[k] <= 1.0
    ensures Abs(RowScore(pca, row, prefs, goldRanges)) <= WeightSum(pca)
    ensures (forall i :: 0 <= i < |pca| ==> pca[i].1 >= 0.0) ==> RowScore(pca, row, prefs, goldRanges) >= 0.0
  {
    if |pca| > 0 {
      RowScoreBounds(pca[1..], row, prefs, goldRanges);
      ContributionBounds(pca[0].0, pca[0].1, row, prefs, goldRanges);
      assert forall i :: 1 <= i < |pca| ==> pca[i] == pca[1..][i - 1];
    }
  }

  /** With no preference at all every contribution is 0, so every city
      scores 0. */
  lemma {:induction false} RowScoreNoPrefs(pca: seq<(string, real)>, row: Row, goldRanges: map<string, real>)
    ensures RowScore(pca, row, map[], goldRanges) == 0.0
  {
    if |pca| > 0 {
      RowScoreNoPrefs(pca[1..], row, goldRanges);
    }
  }

  // ---------------------------------------------------------------------
  // Selecting the best cities
  // ---------------------------------------------------------------------

  /** The master table as the output step reads it: its columns and each
      row's cells rendered with `str()`. Rows are labelled 0, 1, ... (the
      default index of `read_csv`). */
  datatype Frame = Frame(columns: seq<string>, cells: seq<map<string, string>>)

  predicate WellFormed(f: Frame) {
    forall i :: 0 <= i < |f.cells| ==> forall c :: c in f.columns ==> c in f.cells[i]
  }

  /** `str(frame.loc[i, CITY_COL]) if CITY_COL else str(i)`. */
  function CityLabel(f: Frame, i: nat): (r: string)
    requires WellFormed(f) && i < |f.cells|
    ensures PickCol(CityCands, f.columns).None? ==> r == Text.NatToString(i)
    ensures PickCol(CityCands, f.columns).Some? ==> r == f.cells[i][PickCol(CityCands, f.columns).value]
  {
    match PickCol(CityCands, f.columns)
    case None => Text.NatToString(i)
    case Some(c) => f.cells[i][c]
  }

  /** `str(frame.loc[i, STATE_COL]) if STATE_COL else ""`. */
  function StateLabel(f: Frame, i: nat): (r: string)
    requires WellFormed(f) && i < |f.cells|
    ensures PickCol(StateCands, f.columns).None? ==> r == ""
    ensures PickCol(StateCands, f.columns).Some? ==> r == f.cells[i][PickCol(StateCands, f.columns).value]
  {
    match PickCol(StateCands, f.columns)
    case None => ""
    case Some(c) => f.cells[i][c]
  }

  /** One entry of the returned list. */
  datatype CityOut = CityOut(cityName: string, stateName: string, score: real)

  /** `picked` holds distinct row numbers below `n`. */
  predicate Indices(picked: seq<nat>, n: nat) {
    (forall i :: 0 <= i < |picked| ==> picked[i] < n)
    && forall i, j :: 0 <= i < j < |picked| ==> picked[i] != picked[j]
  }

  /** The rows in `picked` are in non-increasing score order. */
  predicate NonIncreasing(scores: seq<real>, picked: seq<nat>)
    requires Indices(picked, |scores|)
  {
    forall i, j :: 0 <= i < j < |picked| ==> scores[picked[i]] >= scores[picked[j]]
  }

  /** Every row in `picked` scores at least as high as every row in `rest`. */
  predicate Dominates(scores: seq<real>, picked: seq<nat>, rest: seq<nat>)
    requires Indices(picked, |scores|) && Indices(rest, |scores|)
  {
    forall i, j :: 0 <= i < |picked| && 0 <= j < |rest| ==> scores[picked[i]] >= scores[rest[j]]
  }

  /** `picked` and `rest` share no row and together hold every row. */
  predicate Split(picked: seq<nat>, rest: seq<nat>, n: nat) {
    (forall i, j :: 0 <= i < |picked| && 0 <= j < |rest| ==> picked[i] != rest[j])
    && forall b :: 0 <= b < n ==> b in picked || b in rest
  }

  /** `picked` is in non-increasing score order and nothing left out scores
      higher than anything picked. */
  predicate BestFirst(scores: seq<real>, picked: seq<nat>)
    requires Indices(picked, |scores|)
  {
    NonIncreasing(scores, picked)
    && forall i, b :: 0 <= i < |picked| && 0 <= b < |scores| && b !in picked ==> scores[picked[i]] >= scores[b]
  }

  /** The position in `rest` of its first highest-scoring row. */
  function ArgMaxFirst(rest: seq<nat>, scores: seq<real>): (p: nat)
    requires |rest| > 0 && forall i :: 0 <= i < |rest| ==> rest[i] < |scores|
    ensures p < |rest|
    ensures forall m :: 0 <= m < |rest| ==> scores[rest[m]] <= scores[rest[p]]
  {
    if |rest| == 1 then 0
    else
      var p := ArgMaxFirst(rest[1..], scores);
      if scores[rest[0]] >= scores[rest[1..][p]] then 0 else 1 + p
  }

  /** Moving the best remaining row from `rest` to the end of `picked`
      keeps the two lists a split of the rows with the picked rows best
      first. */
  lemma PickStep(scores: seq<real>, picked: seq<nat>, rest: seq<nat>, p: nat)
    requires Indices(picked, |scores|) && Indices(rest, |scores|) && Split(picked, rest, |scores|)
    requires NonIncreasing(scores, picked) && Dominates(scores, picked, rest)
    requires p < |rest| && forall m :: 0 <= m < |rest| ==> scores[rest[m]] <= scores[rest[p]]
    ensures Indices(picked + [rest[p]], |scores|) && Indices(rest[..p] + rest[p + 1..], |scores|)
    ensures Split(picked + [rest[p]], rest[..p] + rest[p + 1..], |scores|)
    ensures NonIncreasing(scores, picked + [rest[p]])
    ensures Dominates(scores, picked + [rest[p]], rest[..p] + rest[p + 1..])
  {
    var rest' := rest[..p] + rest[p + 1..];
    RemoveAt(rest, p, rest');
    PickStepSplit(scores, picked, rest, p, rest');
  }

  /** Removing position `p` shifts the later elements down by one. */
  lemma RemoveAt(rest: seq<nat>, p: nat, rest': seq<nat>)
    requires p < |rest| && rest' == rest[..p] + rest[p + 1..]
    ensures |rest'| == |rest| - 1
    ensures forall j :: 0 <= j < |rest'| ==> rest'[j] == rest[if j < p then j else j + 1]
  {
  }

  /** The move keeps the rows distinct and every row in one of the lists. */
  lemma PickStepSplit(scores: seq<real>, picked: seq<nat>, rest: seq<nat>, p: nat, rest': seq<nat>)
    requires Indices(picked, |scores|) && Indices(rest, |scores|) && Split(picked, rest, |scores|)
    requires p < |rest| && |rest'| == |rest| - 1
    requires forall j :: 0 <= j < |rest'| ==> rest'[j] == rest[if j < p then j else j + 1]
    ensures Split(picked + [rest[p]], rest', |scores|)
  {
    var x := rest[p];
    var picked' := picked + [x];
    forall b | 0 <= b < |scores| ensures b in picked' || b in rest' {
      if b !in picked && b != x {
        var j :| 0 <= j < |rest| && rest[j] == b;
        if j < p { assert rest'[j] == b; } else { assert rest'[j - 1] == b; }
      }
    }
  }

  /** The first `k` rows of `np.argsort(-scores)`: distinct rows, best
      first, and no row left out scores higher than a picked one. (NumPy's
      default sort is not stable, so the order among equal scores is not
      fixed; this picks the lowest row number first.) */
  method SelectTop(scores: seq<real>, k: nat) returns (picked: seq<nat>)
    requires k <= |scores|
    ensures |picked| == k
    ensures Indices(picked, |scores|) && BestFirst(scores, picked)
  {
    picked := [];
    var rest: seq<nat> := seq(|scores|, i requires 0 <= i < |scores| => i);
    forall b | 0 <= b < |scores| ensures b in rest {
      assert rest[b] == b;
    }
    while |picked| < k
      invariant |picked| + |rest| == |scores| && |picked| <= k
      invariant Indices(picked, |scores|) && Indices(rest, |scores|) && Split(picked, rest, |scores|)
      invariant NonIncreasing(scores, picked) && Dominates(scores, picked, rest)
      decreases k - |picked|
    {
      var p := ArgMaxFirst(rest, scores);
      PickStep(scores, picked, rest, p);
      picked, rest := picked + [rest[p]], rest[..p] + rest[p + 1..];
    }
    forall i, b | 0 <= i < |picked| && 0 <= b < |scores| && b !in picked ensures scores[picked[i]] >= scores[b] {
      var j :| 0 <= j < |rest| && rest[j] == b;
    }
  }

  /** Every row's score, `_row_score(i, prefs)` for `i` in order. */
  function Scores(rows: seq<Row>, pca: seq<(string, real)>, prefs: map<string, PrefVal>,
                  goldRanges: map<string, real>): (r: seq<real>)
    ensures |r| == |rows| && forall i :: 0 <= i < |rows| ==> r[i] == RowScore(pca, rows[i], prefs, goldRanges)
  {
    seq(|rows|, i requires 0 <= i < |rows| => RowScore(pca, rows[i], prefs, goldRanges))
  }

  /** `suggest_top_cities(prefs, top_n)`: no rows give `[]`; otherwise the
      `min(rows, max(1, top_n))` best-scoring rows, best first, each with its
      city label, state label and score. `top` are the row numbers chosen. */
  method SuggestTop(f: Frame, rows: seq<Row>, pca: seq<(string, real)>, prefs: map<string, PrefVal>,
                    goldRanges: map<string, real>, topN: int) returns (out: seq<CityOut>, top: seq<nat>)
    requires WellFormed(f) && |rows| == |f.cells|
    ensures |rows| == 0 ==> out == []
    ensures |rows| > 0 ==> |out| == (if topN < 1 then 1 else if topN < |rows| then topN else |rows|)
    ensures |top| == |out| && Indices(top, |rows|)
    ensures forall k :: 0 <= k < |out| ==>
              out[k] == CityOut(CityLabel(f, top[k]), StateLabel(f, top[k]), RowScore(pca, rows[top[k]], prefs, goldRanges))
    ensures forall k, m :: 0 <= k < m < |out| ==> out[k].score >= out[m].score
    ensures forall k, b :: 0 <= k < |out| && 0 <= b < |rows| && b !in top ==>
              out[k].score >= RowScore(pca, rows[b], prefs, goldRanges)
  {
    var scores := Scores(rows, pca, prefs, goldRanges);
    if |scores| == 0 {
      return [], [];
    }
    var n := if topN < 1 then 1 else if topN < |rows| then topN else |rows|;
    top := SelectTop(scores, n);
    out := seq(|top|, k requires 0 <= k < |top| =>
                 CityOut(CityLabel(f, top[k]), StateLabel(f, top[k]), scores[top[k]]));
  }
}

=== FILE: Text.dfy ===
/** String helpers shared by the Python and JavaScript parts of the model:
    whitespace trimming, splitting at a one-character separator, left padding,
    ASCII lower-casing, and the decimal spelling of natural numbers. */
module Text {
  import opened Wrappers

  /** The six ASCII whitespace characters. Python's `str.strip()` also
      strips `\x1c`-`\x1f` and `\x85`, which JavaScript's
      `String.prototype.trim()` keeps, and both strip Unicode spaces such as
      U+00A0; neither extension is modelled. */
  predicate IsSpace(c: char) {
    c == ' ' || c == '\t' || c == '\n' || c == '\r' || c == '\U{000B}' || c == '\U{000C}'
  }

  predicate AllSpace(s: string) {
    forall k :: 0 <= k < |s| ==> IsSpace(s[k])
  }

  /** Neither end of `s` is whitespace. */
  predicate IsTrimmed(s: string) {
    |s| == 0 || (!IsSpace(s[0]) && !IsSpace(s[|s| - 1]))
  }

  /** Number of whitespace characters at the front of `s`. */
  function LeadingSpaces(s: string): (n: nat)
    ensures n <= |s|
    ensures AllSpace(s[..n])
    ensures n == |s| || !IsSpace(s[n])
  {
    if |s| > 0 && IsSpace(s[0]) then
      var n := 1 + LeadingSpaces(s[1..]);
      assert forall k :: 1 <= k < n ==> s[k] == s[1..][k - 1];
      n
    else 0
  }

  /** Number of whitespace characters at the back of `s`. */
  function TrailingSpaces(s: string): (n: nat)
    ensures n <= |s|
    ensures AllSpace(s[|s| - n..])
    ensures n == |s| || !IsSpace(s[|s| - n - 1])
  {
    if |s| > 0 && IsSpace(s[|s| - 1]) then
      var n := 1 + TrailingSpaces(s[..|s| - 1]);
      assert forall k :: |s| - n <= k < |s| - 1 ==> s[k] == s[..|s| - 1][k];
      n
    else 0
  }

  /** `str.strip()` / `String.prototype.trim()`: `s` is whitespace, then the
      result, then whitespace, and the result has no whitespace at either end. */
  function Trim(s: string): (r: string)
    ensures IsTrimmed(r)
    ensures LeadingSpaces(s) + |r| <= |s|
    ensures s == s[..LeadingSpaces(s)] + r + s[LeadingSpaces(s) + |r|..]
    ensures AllSpace(s[..LeadingSpaces(s)]) && AllSpace(s[LeadingSpaces(s) + |r|..])
    ensures r == s[LeadingSpaces(s)..LeadingSpaces(s) + |r|]
  {
    var lead := LeadingSpaces(s);
    var rest := s[lead..];
    var trail := TrailingSpaces(rest);
    assert s[|s| - trail..] == rest[|rest| - trail..];
    assert lead + trail < |s| ==> s[|s| - trail - 1] == rest[|rest| - trail - 1];
    TrimParts(s, lead, trail);
    s[lead..|s| - trail]
  }

  /** Cutting `s` into a front, a middle and a back whose ends are not
      whitespace. */
  lemma TrimParts(s: string, lead: nat, trail: nat)
    requires lead + trail <= |s|
    requires lead + trail == |s| || (!IsSpace(s[lead]) && !IsSpace(s[|s| - trail - 1]))
    ensures IsTrimmed(s[lead..|s| - trail])
    ensures s == s[..lead] + s[lead..|s| - trail] + s[|s| - trail..]
  {
    var m := |s| - trail;
    assert s[..lead] + s[lead..m] == s[..m];
    assert s[..m] + s[m..] == s;
  }

  /** Trimming leaves a trimmed string alone. */
  lemma TrimTrimmed(s: string)
    requires IsTrimmed(s)
    ensures Trim(s) == s
  {
    if |s| > 0 {
      assert LeadingSpaces(s) == 0;
      assert TrailingSpaces(s) == 0;
    }
  }

  /** Trimming is idempotent. */
  lemma TrimIdempotent(s: string)
    ensures Trim(Trim(s)) == Trim(s)
  {
    TrimTrimmed(Trim(s));
  }

  /** Index of the first `c` in `s`. */
  function IndexOf(s: string, c: char): (i: nat)
    requires c in s
    ensures i < |s| && s[i] == c
    ensures c !in s[..i]
  {
    if s[0] == c then 0
    else
      var i := 1 + IndexOf(s[1..], c);
      assert s[..i] == [s[0]] + s[1..][..i - 1];
      i
  }

  /** Trimming only removes characters: a character absent from `s` is
      absent from its trimmed form. */
  lemma TrimKeepsAbsent(s: string, c: char)
    requires c !in s
    ensures c !in Trim(s)
  {
  }

  /** The pieces joined with `sep` between neighbours (JavaScript's
      `Array.prototype.join`). */
  function Join(parts: seq<string>, sep: string): string
  {
    if |parts| == 0 then ""
    else if |parts| == 1 then parts[0]
    else parts[0] + sep + Join(parts[1..], sep)
  }

  /** JavaScript's `s.split(c)` for a one-character separator: the pieces
      between separators, at least one piece, and joining them back with the
      separator gives `s`. */
  function Split(s: string, sep: char): (parts: seq<string>)
    ensures |parts| >= 1
    ensures forall k :: 0 <= k < |parts| ==> sep !in parts[k]
    ensures Join(parts, [sep]) == s
    decreases |s|
  {
    if sep !in s then [s]
    else
      var i := IndexOf(s, sep);
      var rest := Split(s[i + 1..], sep);
      assert s == s[..i] + [sep] + s[i + 1..];
      [s[..i]] + rest
  }

  /** Splitting undoes joining when no piece holds the separator. */
  lemma {:induction false} SplitJoin(parts: seq<string>, sep: char)
    requires |parts| >= 1
    requires forall k :: 0 <= k < |parts| ==> sep !in parts[k]
    ensures Split(Join(parts, [sep]), sep) == parts
  {
    if |parts| == 1 {
    } else {
      var s := Join(parts, [sep]);
      var tail := Join(parts[1..], [sep]);
      assert s == parts[0] + [sep] + tail;
      assert sep in s by { assert s[|parts[0]|] == sep; }
      var i := IndexOf(s, sep);
      assert forall k :: 0 <= k < |parts[0]| ==> s[k] == parts[0][k];
      assert i >= |parts[0]|;
      assert i <= |parts[0]| by {
        assert s[|parts[0]|] == sep;
        assert forall k :: 0 <= k < i ==> s[..i][k] == s[k];
      }
      assert s[..i] == parts[0];
      assert s[i + 1..] == tail;
      SplitJoin(parts[1..], sep);
      assert Split(s, sep) == [parts[0]] + parts[1..];
    }
  }

  /** Joining two non-empty lists of pieces is joining each and putting one
      separator between. */
  lemma {:induction false} JoinConcat(p: seq<string>, q: seq<string>, sep: string)
    requires |p| >= 1 && |q| >= 1
    ensures Join(p + q, sep) == Join(p, sep) + sep + Join(q, sep)
  {
    if |p| == 1 {
      assert (p + q)[0] == p[0] && (p + q)[1..] == q;
    } else {
      assert (p + q)[0] == p[0] && (p + q)[1..] == p[1..] + q;
      JoinConcat(p[1..], q, sep);
    }
  }

  /** Splitting at a separator placed between two strings splits each of
      them. */
  lemma SplitConcat(a: string, b: string, sep: char)
    ensures Split(a + [sep] + b, sep) == Split(a, sep) + Split(b, sep)
  {
    var pa, pb := Split(a, sep), Split(b, sep);
    JoinConcat(pa, pb, [sep]);
    SplitJoin(pa + pb, sep);
  }

  /** Python's `s.split(sep, 1)` on a string that holds `sep`: the text before
      and after the first separator. */
  function SplitOnce(s: string, sep: char): (halves: (string, string))
    requires sep in s
    ensures sep !in halves.0
    ensures s == halves.0 + [sep] + halves.1
  {
    var i := IndexOf(s, sep);
    assert s == s[..i] + [sep] + s[i + 1..];
    (s[..i], s[i + 1..])
  }

  /** `n` copies of `c`. */
  function Repeat(c: char, n: nat): (r: string)
    ensures |r| == n
    ensures forall k :: 0 <= k < n ==> r[k] == c
  {
    if n == 0 then "" else [c] + Repeat(c, n - 1)
  }

  /** JavaScript's `s.padStart(width, c)` for a one-character pad: strings at
      least `width` long are kept, shorter ones get copies of `c` in front up
      to exactly `width` characters. */
  function PadStart(s: string, width: nat, c: char): (r: string)
    ensures |s| >= width ==> r == s
    ensures |s| < width ==> |r| == width && r[width - |s|..] == s && forall k :: 0 <= k < width - |s| ==> r[k] == c
  {
    if |s| >= width then s else Repeat(c, width - |s|) + s
  }

  /** ASCII lower-casing of one character. */
  function LowerChar(c: char): char {
    if 'A' <= c <= 'Z' then (c as int + 32) as char else c
  }

  /** ASCII lower-casing (`str.lower()` restricted to ASCII letters). */
  function Lower(s: string): (r: string)
    ensures |r| == |s|
    ensures forall k :: 0 <= k < |s| ==> r[k] == LowerChar(s[k])
  {
    seq(|s|, k requires 0 <= k < |s| => LowerChar(s[k]))
  }

  predicate IsDigit(c: char) {
    '0' <= c <= '9'
  }

  function DigitChar(d: nat): (c: char)
    requires d < 10
    ensures IsDigit(c)
  {
    (48 + d) as char
  }

  function DigitValue(c: char): (d: nat)
    requires IsDigit(c)
    ensures d < 10 && DigitChar(d) == c
  {
    c as int - 48
  }

  /** The decimal spelling of `n`, as Python's `str(n)` and JavaScript's
      `String(n)` write it: digits only, and no leading zero unless `n` is 0. */
  function NatToString(n: nat): (s: string)
    ensures |s| >= 1
    ensures forall k :: 0 <= k < |s| ==> IsDigit(s[k])
    ensures s[0] == '0' ==> n == 0
    ensures n < 10 <==> |s| == 1
  {
    if n < 10 then [DigitChar(n)] else NatToString(n / 10) + [DigitChar(n % 10)]
  }

  /** The value of a run of decimal digits. */
  function DigitsValue(s: string): nat
    requires forall k :: 0 <= k < |s| ==> IsDigit(s[k])
  {
    if |s| == 0 then 0 else 10 * DigitsValue(s[..|s| - 1]) + DigitValue(s[|s| - 1])
  }

  /** Reading the digits of `NatToString(n)` gives `n` back. */
  lemma {:induction false} DigitsOfNatToString(n: nat)
    ensures DigitsValue(NatToString(n)) == n
  {
    if n >= 10 {
      var s := NatToString(n);
      assert s[..|s| - 1] == NatToString(n / 10);
      DigitsOfNatToString(n / 10);
    }
  }

  /** Different numbers have different decimal spellings. */
  lemma NatToStringInjective(a: nat, b: nat)
    requires NatToString(a) == NatToString(b)
    ensures a == b
  {
    DigitsOfNatToString(a);
    DigitsOfNatToString(b);
  }

  /** Length of the longest all-digit prefix of `s`. */
  function DigitPrefix(s: string): (n: nat)
    ensures n <= |s|
    ensures forall k :: 0 <= k < n ==> IsDigit(s[k])
    ensures n == |s| || !IsDigit(s[n])
  {
    if |s| > 0 && IsDigit(s[0]) then
      var n := 1 + DigitPrefix(s[1..]);
      assert forall k :: 1 <= k < n ==> s[k] == s[1..][k - 1];
      n
    else 0
  }

  /** JavaScript's `parseInt(s, 10)`: skip leading whitespace, take an optional
      sign, then the longest run of digits; `None` stands for `NaN`, the result
      when no digit follows. */
  function ParseInt(s: string): (r: Option<int>)
    ensures r.None? <==> DigitPrefix(SignFree(s[LeadingSpaces(s)..])) == 0
  {
    var t := s[LeadingSpaces(s)..];
    var body := SignFree(t);
    var n := DigitPrefix(body);
    if n == 0 then None
    else
      var v := DigitsValue(body[..n]);
      Some(if |t| > 0 && t[0] == '-' then 0 - v else v)
  }

  /** `s` without one leading `+` or `-`. */
  function SignFree(s: string): string {
    if |s| > 0 && (s[0] == '+' || s[0] == '-') then s[1..] else s
  }

  /** `parseInt` reads back what `NatToString` writes. */
  lemma ParseIntOfNatToString(n: nat)
    ensures ParseInt(NatToString(n)) == Some(n)
  {
    var s := NatToString(n);
    assert LeadingSpaces(s) == 0 by { assert !IsSpace(s[0]); }
    assert s[0..] == s;
    assert SignFree(s) == s;
    assert DigitPrefix(s) == |s| by {
      assert forall k :: 0 <= k < |s| ==> IsDigit(s[k]);
    }
    assert s[..|s|] == s;
    DigitsOfNatToString(n);
  }
}

=== FILE: Tours.dfy ===
/** Route ordering shared by `trip_mapper.py` and its earlier copy
    `CityFinder/trip_mapper.py`: nearest-neighbour tour construction followed
    by 2-opt improvement of the open path, over a distance function on city
    names. Distances are natural numbers (metres, rounded), which makes every
    accepted 2-opt move shorten the path by at least one and so bounds the
    number of moves. */
module Tours {
  import opened Wrappers

  type City = string

  /** The distance table, read as a function on ordered pairs. */
  type Dist = (City, City) -> nat

  ghost predicate Symmetric(d: Dist) {
    forall a, b :: d(a, b) == d(b, a)
  }

  predicate Distinct(s: seq<City>) {
    forall a, b :: 0 <= a < b < |s| ==> s[a] != s[b]
  }

  /** A sequence without repeats holds every element exactly once. */
  lemma DistinctCounts(s: seq<City>)
    requires Distinct(s)
    ensures forall c :: c in s ==> multiset(s)[c] == 1
  {
    if |s| > 0 {
      DistinctCounts(s[1..]);
      assert s == [s[0]] + s[1..];
      assert s[0] !in s[1..];
    }
  }

  /** A value at two positions is counted at least twice. */
  lemma CountTwice(t: seq<City>, a: nat, b: nat)
    requires a < b < |t| && t[a] == t[b]
    ensures multiset(t)[t[a]] >= 2
  {
    assert t == t[..a] + [t[a]] + t[a + 1..b] + [t[b]] + t[b + 1..];
  }

  /** A permutation of a sequence without repeats has no repeats. */
  lemma PermutationKeepsDistinct(s: seq<City>, t: seq<City>)
    requires Distinct(s) && multiset(t) == multiset(s)
    ensures Distinct(t)
  {
    DistinctCounts(s);
    forall a, b | 0 <= a < b < |t| ensures t[a] != t[b] {
      assert t[a] in multiset(t);
      if t[a] == t[b] {
        CountTwice(t, a, b);
      }
    }
  }

  /** Position of the first occurrence of `x` in `xs`. */
  function FirstIndex(xs: seq<City>, x: City): (k: nat)
    requires x in xs
    ensures k < |xs| && xs[k] == x && forall m :: 0 <= m < k ==> xs[m] != x
  {
    if xs[0] == x then 0 else 1 + FirstIndex(xs[1..], x)
  }

  /** The keys of a Python dict filled from `xs` in order: each value once, in
      the order of its first occurrence. */
  function Dedup(xs: seq<City>): (r: seq<City>)
    ensures Distinct(r)
    ensures forall x :: x in r <==> x in xs
    ensures forall a, b :: 0 <= a < b < |r| ==> FirstIndex(xs, r[a]) < FirstIndex(xs, r[b])
    ensures |r| <= |xs|
  {
    if |xs| == 0 then []
    else
      var init := xs[..|xs| - 1];
      var last := xs[|xs| - 1];
      var r := Dedup(init);
      assert xs == init + [last];
      FirstIndexPrefix(init, last, r);
      if last in r then r else r + [last]
  }

  /** Appending to a sequence moves no first occurrence of what it already held. */
  lemma FirstIndexPrefix(init: seq<City>, last: City, r: seq<City>)
    requires forall x :: x in r ==> x in init
    ensures forall x :: x in r ==> FirstIndex(init + [last], x) == FirstIndex(init, x)
    ensures last !in init ==> FirstIndex(init + [last], last) == |init|
  {
    forall x | x in r ensures FirstIndex(init + [last], x) == FirstIndex(init, x) {
      var k := FirstIndex(init, x);
      var k2 := FirstIndex(init + [last], x);
      assert (init + [last])[k] == x;
      assert init[k2] == x || k2 == |init|;
    }
  }

  /** A sequence without repeats is its own dict-key order. */
  lemma {:induction false} DedupDistinct(xs: seq<City>)
    requires Distinct(xs)
    ensures Dedup(xs) == xs
  {
    if |xs| > 0 {
      var init, last := xs[..|xs| - 1], xs[|xs| - 1];
      DistinctInit(xs);
      DedupDistinct(init);
      DedupAppend(init, last);
      assert xs == init + [last];
    }
  }

  /** Dropping the last element of a sequence without repeats leaves one
      without repeats that does not hold that element. */
  lemma DistinctInit(xs: seq<City>)
    requires |xs| > 0 && Distinct(xs)
    ensures Distinct(xs[..|xs| - 1]) && xs[|xs| - 1] !in xs[..|xs| - 1]
  {
    var init := xs[..|xs| - 1];
    forall a | 0 <= a < |init| ensures init[a] == xs[a] {
    }
  }

  /** One more value either is already a key or becomes the last key. */
  lemma DedupAppend(init: seq<City>, last: City)
    ensures Dedup(init + [last]) == if last in Dedup(init) then Dedup(init) else Dedup(init) + [last]
  {
    var xs := init + [last];
    assert xs[..|xs| - 1] == init;
  }

  /** The first key comes first. */
  lemma DedupFirst(xs: seq<City>)
    requires |xs| > 0
    ensures |Dedup(xs)| > 0 && Dedup(xs)[0] == xs[0]
  {
    var r := Dedup(xs);
    assert xs[0] in r;
    var k :| 0 <= k < |r| && r[k] == xs[0];
    assert FirstIndex(xs, xs[0]) == 0;
  }

  /** Length of the open path `p`: the sum of its consecutive legs. */
  function PathLength(p: seq<City>, d: Dist): nat {
    if |p| <= 1 then 0 else d(p[0], p[1]) + PathLength(p[1..], d)
  }

  /** Joining two paths adds the leg between them. */
  lemma {:induction false} LengthConcat(a: seq<City>, b: seq<City>, d: Dist)
    requires |a| >= 1 && |b| >= 1
    ensures PathLength(a + b, d) == PathLength(a, d) + d(a[|a| - 1], b[0]) + PathLength(b, d)
  {
    if |a| > 1 {
      assert (a + b)[1..] == a[1..] + b;
      LengthConcat(a[1..], b, d);
    }
  }

  function Rev(s: seq<City>): (r: seq<City>)
    ensures |r| == |s|
    ensures forall k :: 0 <= k < |s| ==> r[k] == s[|s| - 1 - k]
  {
    if |s| == 0 then [] else Rev(s[1..]) + [s[0]]
  }

  lemma {:induction false} RevMultiset(s: seq<City>)
    ensures multiset(Rev(s)) == multiset(s)
  {
    if |s| > 0 {
      RevMultiset(s[1..]);
      assert s == [s[0]] + s[1..];
    }
  }

  /** With symmetric distances a path and its reverse have the same length. */
  lemma {:induction false} RevLength(s: seq<City>, d: Dist)
    requires Symmetric(d)
    ensures PathLength(Rev(s), d) == PathLength(s, d)
  {
    if |s| >= 2 {
      RevLength(s[1..], d);
      LengthConcat(Rev(s[1..]), [s[0]], d);
    }
  }

  /** `path[i : j + 1] = reversed(path[i : j + 1])`. */
  function Reverse2Opt(p: seq<City>, i: nat, j: nat): (r: seq<City>)
    requires 1 <= i < j < |p| - 1
    ensures |r| == |p| && multiset(r) == multiset(p)
    ensures r[0] == p[0] && r[|r| - 1] == p[|p| - 1]
  {
    RevMultiset(p[i..j + 1]);
    assert p == p[..i] + p[i..j + 1] + p[j + 1..];
    p[..i] + Rev(p[i..j + 1]) + p[j + 1..]
  }

  /** Exchanging legs `(p[i-1], p[i])` and `(p[j], p[j+1])` for
      `(p[i-1], p[j])` and `(p[i], p[j+1])` is shorter. */
  predicate Improves(p: seq<City>, d: Dist, i: nat, j: nat)
    requires 1 <= i <= j && j + 1 < |p|
  {
    d(p[i - 1], p[j]) + d(p[i], p[j + 1]) < d(p[i - 1], p[i]) + d(p[j], p[j + 1])
  }

  /** `(i, j)` is a pair the 2-opt loop examines (it skips adjacent indices)
      and reversing `p[i..j]` there is shorter. */
  predicate ImprovingPair(p: seq<City>, d: Dist, i: nat, j: nat) {
    1 <= i && i + 2 <= j && j + 2 <= |p| && Improves(p, d, i, j)
  }

  /** With symmetric distances, reversing `p[i..j]` changes the path length by
      exactly the difference of the two exchanged leg pairs. */
  lemma ReverseGain(p: seq<City>, d: Dist, i: nat, j: nat)
    requires 1 <= i < j < |p| - 1
    requires PathLength(Rev(p[i..j + 1]), d) == PathLength(p[i..j + 1], d)
    ensures PathLength(Reverse2Opt(p, i, j), d) + d(p[i - 1], p[i]) + d(p[j], p[j + 1])
         == PathLength(p, d) + d(p[i - 1], p[j]) + d(p[i], p[j + 1])
  {
    var a, seg, b := p[..i], p[i..j + 1], p[j + 1..];
    CutThree(p, i, j);
    var rs := Rev(seg);
    ReverseMiddle(a, seg, rs, b, d);
  }

  /** The three pieces a 2-opt move at `(i, j)` works on. */
  lemma CutThree(p: seq<City>, i: nat, j: nat)
    requires 1 <= i < j < |p| - 1
    ensures p == p[..i] + p[i..j + 1] + p[j + 1..]
    ensures Reverse2Opt(p, i, j) == p[..i] + Rev(p[i..j + 1]) + p[j + 1..]
    ensures p[..i][i - 1] == p[i - 1] && p[i..j + 1][0] == p[i] && p[i..j + 1][j - i] == p[j] && p[j + 1..][0] == p[j + 1]
  {
  }

  /** Replacing the middle piece of a path by one of the same length with
      swapped end points only swaps the two legs around it. */
  lemma ReverseMiddle(a: seq<City>, m: seq<City>, rm: seq<City>, b: seq<City>, d: Dist)
    requires |a| >= 1 && |m| >= 1 && |b| >= 1 && |rm| == |m|
    requires rm[0] == m[|m| - 1] && rm[|rm| - 1] == m[0]
    requires PathLength(rm, d) == PathLength(m, d)
    ensures PathLength(a + rm + b, d) + d(a[|a| - 1], m[0]) + d(m[|m| - 1], b[0])
         == PathLength(a + m + b, d) + d(a[|a| - 1], m[|m| - 1]) + d(m[0], b[0])
  {
    LengthThree(a, m, b, d);
    LengthThree(a, rm, b, d);
  }

  /** The length of a path cut into three non-empty pieces. */
  lemma LengthThree(a: seq<City>, m: seq<City>, b: seq<City>, d: Dist)
    requires |a| >= 1 && |m| >= 1 && |b| >= 1
    ensures PathLength(a + m + b, d)
         == PathLength(a, d) + d(a[|a| - 1], m[0]) + PathLength(m, d) + d(m[|m| - 1], b[0]) + PathLength(b, d)
  {
    var am := a + m;
    LengthConcat(a, m, d);
    assert am[|am| - 1] == m[|m| - 1];
    LengthConcat(am, b, d);
    assert a + m + b == am + b;
  }

  /** Every accepted 2-opt move strictly shortens the path. */
  lemma ImprovingMoveShortens(p: seq<City>, d: Dist, i: nat, j: nat)
    requires Symmetric(d) && ImprovingPair(p, d, i, j)
    ensures PathLength(Reverse2Opt(p, i, j), d) < PathLength(p, d)
  {
    RevLength(p[i..j + 1], d);
    ReverseGain(p, d, i, j);
  }

  /** The inner loop `for j in range(i + 1, len(path) - 1)`, from `j` on:
      the first `j` whose reversal improves, skipping `j = i + 1`. */
  function ScanJ(p: seq<City>, d: Dist, i: nat, j: nat): (r: Option<nat>)
    requires 1 <= i && i + 1 <= j
    ensures r.Some? ==> j <= r.value && ImprovingPair(p, d, i, r.value)
    ensures r.Some? ==> forall k: nat :: j <= k < r.value ==> !ImprovingPair(p, d, i, k)
    ensures r.None? ==> forall k: nat :: j <= k ==> !ImprovingPair(p, d, i, k)
    decreases |p| - j
  {
    if j + 1 >= |p| then None
    else if j - i == 1 then ScanJ(p, d, i, j + 1)
    else if Improves(p, d, i, j) then Some(j)
    else ScanJ(p, d, i, j + 1)
  }

  /** The outer loop `for i in range(1, len(path) - 2)`, from `i` on: the
      first improving pair in the loops' order. */
  function ScanI(p: seq<City>, d: Dist, i: nat): (r: Option<(nat, nat)>)
    requires 1 <= i
    ensures r.Some? ==> i <= r.value.0 && ImprovingPair(p, d, r.value.0, r.value.1)
    ensures r.Some? ==> forall a: nat, b: nat :: i <= a < r.value.0 ==> !ImprovingPair(p, d, a, b)
    ensures r.Some? ==> forall b: nat :: b < r.value.1 ==> !ImprovingPair(p, d, r.value.0, b)
    ensures r.None? ==> forall a: nat, b: nat :: i <= a ==> !ImprovingPair(p, d, a, b)
    decreases |p| - i
  {
    if i + 2 >= |p| then None
    else
      match ScanJ(p, d, i, i + 1)
      case Some(j) => Some((i, j))
      case None => ScanI(p, d, i + 1)
  }

  /** No 2-opt move the loops examine would shorten `p`. */
  ghost predicate TwoOptStable(p: seq<City>, d: Dist) {
    forall a: nat, b: nat :: !ImprovingPair(p, d, a, b)
  }

  /** `_two_opt` / `two_opt`: take the first improving move in loop order,
      apply it and start over, until none is left. The result is a
      permutation of the input with the same first and last city, no longer
      than the input, strictly shorter whenever it differs, and 2-opt stable;
      paths of at most four cities come back unchanged. */
  function TwoOpt(p: seq<City>, d: Dist): (r: seq<City>)
    requires Symmetric(d)
    ensures |r| == |p| && multiset(r) == multiset(p)
    ensures |p| > 0 ==> r[0] == p[0] && r[|r| - 1] == p[|p| - 1]
    ensures PathLength(r, d) <= PathLength(p, d)
    ensures r != p ==> PathLength(r, d) < PathLength(p, d)
    ensures TwoOptStable(r, d)
    ensures |p| <= 4 ==> r == p
    decreases PathLength(p, d)
  {
    match ScanI(p, d, 1)
    case None => p
    case Some((i, j)) =>
      ImprovingMoveShortens(p, d, i, j);
      TwoOpt(Reverse2Opt(p, i, j), d)
  }

  /** Index of the first city at minimal distance from `from`, as Python's
      `min(xs, key=...)` picks it: later ties never replace an earlier one. */
  function ArgMinFirst(xs: seq<City>, from: City, d: Dist): (k: nat)
    requires |xs| > 0
    ensures k < |xs|
    ensures forall m :: 0 <= m < |xs| ==> d(from, xs[k]) <= d(from, xs[m])
    ensures forall m :: 0 <= m < k ==> d(from, xs[m]) > d(from, xs[k])
  {
    if |xs| == 1 then 0
    else
      var k := ArgMinFirst(xs[1..], from, d);
      if d(from, xs[0]) <= d(from, xs[1..][k]) then 0 else 1 + k
  }

  function RemoveAt(xs: seq<City>, k: nat): (r: seq<City>)
    requires k < |xs|
    ensures |r| == |xs| - 1
    ensures multiset(r) + multiset{xs[k]} == multiset(xs)
  {
    assert xs == xs[..k] + [xs[k]] + xs[k + 1..];
    xs[..k] + xs[k + 1..]
  }

  /** Every city from position `start` on is the nearest, from its
      predecessor, of the cities not yet placed. */
  ghost predicate GreedyFrom(r: seq<City>, start: nat, d: Dist) {
    forall k, m :: 1 <= start <= k <= m < |r| ==> d(r[k - 1], r[k]) <= d(r[k - 1], r[m])
  }

  /** The loop of `_nearest_neighbor` from a given state: append the nearest
      unvisited city and remove it, until none is left. */
  function Greedy(path: seq<City>, unvisited: seq<City>, d: Dist): (r: seq<City>)
    requires |path| > 0
    ensures |r| == |path| + |unvisited| && r[..|path|] == path
    ensures multiset(r) == multiset(path) + multiset(unvisited)
    ensures GreedyFrom(r, |path|, d)
    decreases |unvisited|
  {
    if |unvisited| == 0 then path
    else
      var k := ArgMinFirst(unvisited, path[|path| - 1], d);
      var next := path + [unvisited[k]];
      var rest := RemoveAt(unvisited, k);
      var r := Greedy(next, rest, d);
      GreedyStep(path, unvisited, k, r, d);
      r
  }

  /** One step of `Greedy`: placing the nearest unvisited city first keeps the
      greedy property one position earlier. */
  lemma GreedyStep(path: seq<City>, unvisited: seq<City>, k: nat, r: seq<City>, d: Dist)
    requires |path| > 0 && k < |unvisited|
    requires forall m :: 0 <= m < |unvisited| ==> d(path[|path| - 1], unvisited[k]) <= d(path[|path| - 1], unvisited[m])
    requires |r| == |path| + |unvisited| && r[..|path| + 1] == path + [unvisited[k]]
    requires multiset(r) == multiset(path + [unvisited[k]]) + multiset(RemoveAt(unvisited, k))
    requires GreedyFrom(r, |path| + 1, d)
    ensures r[..|path|] == path
    ensures multiset(r) == multiset(path) + multiset(unvisited)
    ensures GreedyFrom(r, |path|, d)
  {
    var n := |path|;
    assert r[..n] == r[..n + 1][..n];
    assert r[n] == unvisited[k] && r[n - 1] == path[n - 1];
    assert multiset(path + [unvisited[k]]) == multiset(path) + multiset{unvisited[k]};
    assert multiset(r) == multiset(path) + multiset(unvisited);
    PrefixCancel(path, r, unvisited);
    forall m | n <= m < |r| ensures d(r[n - 1], r[n]) <= d(r[n - 1], r[m]) {
      assert r[m] == r[n..][m - n];
      assert r[m] in multiset(unvisited);
      var q :| 0 <= q < |unvisited| && unvisited[q] == r[m];
    }
  }

  /** Removing a common prefix from both sides of a multiset equation. */
  lemma PrefixCancel(path: seq<City>, r: seq<City>, u: seq<City>)
    requires |path| <= |r| && r[..|path|] == path
    requires multiset(r) == multiset(path) + multiset(u)
    ensures multiset(r[|path|..]) == multiset(u)
  {
    assert r == path + r[|path|..];
    forall x ensures multiset(r[|path|..])[x] == multiset(u)[x] {
      assert multiset(r)[x] == multiset(path)[x] + multiset(r[|path|..])[x];
    }
  }

  /** `_nearest_neighbor` / `tsp_nearest_neighbor`: start at the first key and
      keep moving to the nearest unvisited city, without returning to the
      start. `None` when there are no keys (the `pop(0)` raises). */
  function NearestNeighbor(keys: seq<City>, d: Dist): (r: Option<seq<City>>)
    ensures r.None? <==> |keys| == 0
    ensures r.Some? ==> |r.value| == |keys| && multiset(r.value) == multiset(keys)
    ensures r.Some? ==> r.value[0] == keys[0] && GreedyFrom(r.value, 1, d)
  {
    if |keys| == 0 then None
    else
      assert keys == [keys[0]] + keys[1..];
      Some(Greedy([keys[0]], keys[1..], d))
  }

  /** With distinct keys the tour visits every key exactly once. */
  lemma NearestNeighborVisitsOnce(keys: seq<City>, d: Dist)
    requires |keys| > 0 && Distinct(keys)
    ensures Distinct(NearestNeighbor(keys, d).value)
    ensures forall c :: c in keys ==> multiset(NearestNeighbor(keys, d).value)[c] == 1
  {
    PermutationKeepsDistinct(keys, NearestNeighbor(keys, d).value);
    DistinctCounts(keys);
  }

  /** `x` occurs in `keys` before `y`. */
  ghost predicate Before(keys: seq<City>, x: City, y: City) {
    exists a, b :: 0 <= a < b < |keys| && keys[a] == x && keys[b] == y
  }

  /** `u` lists its cities in the order they have in `keys`. */
  ghost predicate OrderedIn(u: seq<City>, keys: seq<City>) {
    forall a, b :: 0 <= a < b < |u| ==> Before(keys, u[a], u[b])
  }

  lemma RemoveAtKeepsOrder(u: seq<City>, k: nat, keys: seq<City>)
    requires k < |u| && OrderedIn(u, keys)
    ensures OrderedIn(RemoveAt(u, k), keys)
  {
    var v := RemoveAt(u, k);
    forall a, b | 0 <= a < b < |v| ensures Before(keys, v[a], v[b]) {
      var a', b' := if a < k then a else a + 1, if b < k then b else b + 1;
      assert v[a] == u[a'] && v[b] == u[b'];
    }
  }

  /** From position `start` on, a city placed after `r[k]` that precedes it in
      `keys` is strictly farther from `r[k - 1]`. */
  ghost predicate TiesFrom(r: seq<City>, start: nat, keys: seq<City>, d: Dist) {
    forall k, m :: 1 <= start <= k < m < |r| && Before(keys, r[m], r[k]) ==> d(r[k - 1], r[m]) > d(r[k - 1], r[k])
  }

  /** Ties go to the earliest key: when the unvisited cities keep the order of
      the keys, so does every tie the greedy loop breaks. */
  lemma {:induction false} GreedyTies(path: seq<City>, unvisited: seq<City>, keys: seq<City>, d: Dist)
    requires |path| > 0 && Distinct(keys) && OrderedIn(unvisited, keys)
    ensures TiesFrom(Greedy(path, unvisited, d), |path|, keys, d)
    decreases |unvisited|
  {
    if |unvisited| > 0 {
      var k' := ArgMinFirst(unvisited, path[|path| - 1], d);
      var next := path + [unvisited[k']];
      var rest := RemoveAt(unvisited, k');
      RemoveAtKeepsOrder(unvisited, k', keys);
      GreedyTies(next, rest, keys, d);
      TiesStep(path, unvisited, k', keys, Greedy(next, rest, d), d);
    }
  }

  /** One step of `GreedyTies`. */
  lemma TiesStep(path: seq<City>, unvisited: seq<City>, k': nat, keys: seq<City>, r: seq<City>, d: Dist)
    requires |path| > 0 && k' < |unvisited| && Distinct(keys) && OrderedIn(unvisited, keys)
    requires forall m :: 0 <= m < k' ==> d(path[|path| - 1], unvisited[m]) > d(path[|path| - 1], unvisited[k'])
    requires |r| == |path| + |unvisited| && r[..|path| + 1] == path + [unvisited[k']]
    requires multiset(r) == multiset(path + [unvisited[k']]) + multiset(RemoveAt(unvisited, k'))
    requires TiesFrom(r, |path| + 1, keys, d)
    ensures TiesFrom(r, |path|, keys, d)
  {
    TiesAtStep(path, unvisited, k', keys, r, d);
    TiesExtend(r, |path|, keys, d);
  }

  /** The tie the step itself breaks: every city placed after the chosen one
      that precedes it in `keys` is strictly farther from the previous stop. */
  lemma TiesAtStep(path: seq<City>, unvisited: seq<City>, k': nat, keys: seq<City>, r: seq<City>, d: Dist)
    requires |path| > 0 && k' < |unvisited| && Distinct(keys) && OrderedIn(unvisited, keys)
    requires forall m :: 0 <= m < k' ==> d(path[|path| - 1], unvisited[m]) > d(path[|path| - 1], unvisited[k'])
    requires |r| == |path| + |unvisited| && r[..|path| + 1] == path + [unvisited[k']]
    requires multiset(r) == multiset(path + [unvisited[k']]) + multiset(RemoveAt(unvisited, k'))
    ensures forall m :: |path| < m < |r| && Before(keys, r[m], r[|path|]) ==>
              d(r[|path| - 1], r[m]) > d(r[|path| - 1], r[|path|])
  {
    var n := |path|;
    StepPlacement(path, unvisited, k', r);
    forall m | n < m < |r| && Before(keys, r[m], r[n]) ensures d(r[n - 1], r[m]) > d(r[n - 1], r[n]) {
      TieAt(unvisited, k', keys, r[m], path[n - 1], d);
    }
  }

  /** Where one greedy step puts things: the chosen city right after the
      path, and every later city one of the remaining ones. */
  lemma StepPlacement(path: seq<City>, unvisited: seq<City>, k': nat, r: seq<City>)
    requires |path| > 0 && k' < |unvisited|
    requires |r| == |path| + |unvisited| && r[..|path| + 1] == path + [unvisited[k']]
    requires multiset(r) == multiset(path + [unvisited[k']]) + multiset(RemoveAt(unvisited, k'))
    ensures r[|path|] == unvisited[k'] && r[|path| - 1] == path[|path| - 1]
    ensures forall m :: |path| < m < |r| ==> r[m] in multiset(RemoveAt(unvisited, k'))
  {
    var n := |path|;
    var rest := RemoveAt(unvisited, k');
    assert r[..n + 1][n] == r[n] && r[..n + 1][n - 1] == r[n - 1];
    assert multiset(r[n + 1..]) == multiset(rest) by {
      PrefixCancel(path + [unvisited[k']], r, rest);
    }
    forall m | n < m < |r| ensures r[m] in multiset(rest) {
      assert r[m] == r[n + 1..][m - n - 1];
    }
  }

  /** `TiesFrom` one position earlier needs only the ties at that position. */
  lemma TiesExtend(r: seq<City>, n: nat, keys: seq<City>, d: Dist)
    requires 1 <= n < |r| && TiesFrom(r, n + 1, keys, d)
    requires forall m :: n < m < |r| && Before(keys, r[m], r[n]) ==> d(r[n - 1], r[m]) > d(r[n - 1], r[n])
    ensures TiesFrom(r, n, keys, d)
  {
  }

  /** A remaining city that precedes the chosen one in `keys` sits before it in
      `unvisited`, so the first-minimum rule found it strictly farther. */
  lemma TieAt(unvisited: seq<City>, k': nat, keys: seq<City>, x: City, from: City, d: Dist)
    requires k' < |unvisited| && Distinct(keys) && OrderedIn(unvisited, keys)
    requires forall m :: 0 <= m < k' ==> d(from, unvisited[m]) > d(from, unvisited[k'])
    requires x in multiset(RemoveAt(unvisited, k')) && Before(keys, x, unvisited[k'])
    ensures d(from, x) > d(from, unvisited[k'])
  {
    var rest := RemoveAt(unvisited, k');
    var q' :| 0 <= q' < |rest| && rest[q'] == x;
    var q := if q' < k' then q' else q' + 1;
    assert unvisited[q] == x;
  }

  /** The keys after the first keep the keys' order. */
  lemma TailOrdered(keys: seq<City>)
    requires |keys| > 0
    ensures OrderedIn(keys[1..], keys)
  {
    var u := keys[1..];
    forall a, b | 0 <= a < b < |u| ensures Before(keys, u[a], u[b]) {
      assert keys[a + 1] == u[a] && keys[b + 1] == u[b];
    }
  }

  /** The ties rule for the whole tour of distinct keys. */
  lemma NearestNeighborTies(keys: seq<City>, d: Dist)
    requires |keys| > 0 && Distinct(keys)
    ensures TiesFrom(NearestNeighbor(keys, d).value, 1, keys, d)
  {
    TailOrdered(keys);
    GreedyTies([keys[0]], keys[1..], keys, d);
  }

  /** Nearest neighbour from the first key, then 2-opt: a tour that visits
      each key exactly once, starts at the first key and admits no improving
      2-opt move. */
  function Tour(keys: seq<City>, d: Dist): (r: seq<City>)
    requires Symmetric(d) && |keys| > 0 && Distinct(keys)
    ensures |r| == |keys| && Distinct(r) && multiset(r) == multiset(keys)
    ensures forall c :: c in r <==> c in keys
    ensures r[0] == keys[0]
    ensures TwoOptStable(r, d)
  {
    NearestNeighborVisitsOnce(keys, d);
    var r := TwoOpt(NearestNeighbor(keys, d).value, d);
    PermutationKeepsDistinct(keys, r);
    assert forall c :: c in r <==> c in multiset(keys);
    r
  }
}

=== FILE: TripMapper.dfy ===
/** `trip_mapper.py`: the web version of the trip solver. The cities are
    geocoded, every ordered pair of distinct cities gets its distance, and the
    tour is the 2-opt improvement of the nearest-neighbour tour from home.
    Geocoding and the haversine formula are parameters: `geocode` gives a
    city's (latitude, longitude), `metres` the distance between two points,
    rounded to whole metres. */
module TripMapper {
  import opened Wrappers
  import opened Tours

  /** (latitude, longitude). */
  type Coord = (real, real)

  /** `{"order": tour, "coordinates": coords}`; the coordinates dict is
      represented by its items in key order. */
  datatype Trip = Trip(order: seq<City>, coordinates: seq<(City, Coord)>)

  /** The items of a dict that maps each of `keys` to its geocoded point. */
  function Keyed(keys: seq<City>, geocode: City -> Coord): (r: seq<(City, Coord)>)
    ensures |r| == |keys|
    ensures forall k :: 0 <= k < |keys| ==> r[k].0 == keys[k] && r[k].1 == geocode(keys[k])
  {
    seq(|keys|, k requires 0 <= k < |keys| => (keys[k], geocode(keys[k])))
  }

  /** The distance the tour code reads for `(a, b)`: the table entry, which
      exists for every pair of distinct cities of the trip. */
  function PairDist(cities: seq<City>, geocode: City -> Coord, metres: (Coord, Coord) -> nat): Dist {
    (a: City, b: City) => if a in cities && b in cities && a != b then metres(geocode(a), geocode(b)) else 0
  }

  /** The table `dist` read as a distance function; pairs not in it read 0. */
  function LookupDist(dist: map<(City, City), nat>): Dist {
    (a: City, b: City) => if (a, b) in dist then dist[(a, b)] else 0
  }

  /** `_coords_and_distances(cities)`: the coordinates dict in first-occurrence
      order, and a distance table whose keys are exactly the ordered pairs of
      distinct cities, each holding the distance between the two geocoded
      points. Read as a function, the table is `PairDist`. */
  method CoordsAndDistances(cities: seq<City>, geocode: City -> Coord, metres: (Coord, Coord) -> nat)
    returns (coords: seq<(City, Coord)>, dist: map<(City, City), nat>)
    ensures coords == Keyed(Dedup(cities), geocode)
    ensures forall a, b :: (a, b) in dist <==> a in cities && b in cities && a != b
    ensures forall a, b :: (a, b) in dist ==> dist[(a, b)] == metres(geocode(a), geocode(b))
    ensures forall a, b :: LookupDist(dist)(a, b) == PairDist(cities, geocode, metres)(a, b)
  {
    coords := Keyed(Dedup(cities), geocode);
    dist := map[];
    var i := 0;
    while i < |cities|
      invariant 0 <= i <= |cities|
      invariant forall a, b :: (a, b) in dist <==> a in cities[..i] && b in cities && a != b
      invariant forall a, b :: (a, b) in dist ==> dist[(a, b)] == metres(geocode(a), geocode(b))
    {
      dist := AddRow(cities, cities[i], dist, geocode, metres);
      assert cities[..i + 1] == cities[..i] + [cities[i]];
      i := i + 1;
    }
    assert cities[..i] == cities;
    TableReads(cities, dist, geocode, metres);
  }

  /** The inner loop of `_coords_and_distances` for the city `a`: the
      distance from `a` to every other city is added. */
  method AddRow(cities: seq<City>, a: City, dist: map<(City, City), nat>,
                geocode: City -> Coord, metres: (Coord, Coord) -> nat)
    returns (r: map<(City, City), nat>)
    requires forall x, y :: (x, y) in dist ==> dist[(x, y)] == metres(geocode(x), geocode(y))
    ensures forall x, y :: (x, y) in r <==> (x, y) in dist || (x == a && y in cities && x != y)
    ensures forall x, y :: (x, y) in r ==> r[(x, y)] == metres(geocode(x), geocode(y))
  {
    r := dist;
    var j := 0;
    while j < |cities|
      invariant 0 <= j <= |cities|
      invariant forall x, y :: (x, y) in r <==> (x, y) in dist || (x == a && y in cities[..j] && x != y)
      invariant forall x, y :: (x, y) in r ==> r[(x, y)] == metres(geocode(x), geocode(y))
    {
      if a != cities[j] {
        r := r[(a, cities[j]) := metres(geocode(a), geocode(cities[j]))];
      }
      assert cities[..j + 1] == cities[..j] + [cities[j]];
      j := j + 1;
    }
    assert cities[..j] == cities;
  }

  /** A table holding exactly the pairs of distinct cities, each with its
      distance, reads as `PairDist`. */
  lemma TableReads(cities: seq<City>, dist: map<(City, City), nat>,
                   geocode: City -> Coord, metres: (Coord, Coord) -> nat)
    requires forall a, b :: (a, b) in dist <==> a in cities && b in cities && a != b
    requires forall a, b :: (a, b) in dist ==> dist[(a, b)] == metres(geocode(a), geocode(b))
    ensures forall a, b :: LookupDist(dist)(a, b) == PairDist(cities, geocode, metres)(a, b)
  {
  }

  /** With a symmetric point distance the pair distance is symmetric. */
  lemma PairDistSymmetric(cities: seq<City>, geocode: City -> Coord, metres: (Coord, Coord) -> nat)
    requires forall p, q :: metres(p, q) == metres(q, p)
    ensures Symmetric(PairDist(cities, geocode, metres))
  {
  }

  /** `solve_trip(home, stops)`: the coordinates of `[home] + stops` in
      first-occurrence order, and a tour that visits each of those cities
      exactly once, starts at home and admits no improving 2-opt move. */
  function SolveTrip(home: City, stops: seq<City>, geocode: City -> Coord, metres: (Coord, Coord) -> nat): (r: Trip)
    requires forall p, q :: metres(p, q) == metres(q, p)
    ensures r.coordinates == Keyed(Dedup([home] + stops), geocode)
    ensures |r.order| == |Dedup([home] + stops)| && Distinct(r.order)
    ensures forall c :: c in r.order <==> c == home || c in stops
    ensures r.order[0] == home
    ensures TwoOptStable(r.order, PairDist([home] + stops, geocode, metres))
  {
    var cities := [home] + stops;
    var keys := Dedup(cities);
    var d := PairDist(cities, geocode, metres);
    PairDistSymmetric(cities, geocode, metres);
    DedupFirst(cities);
    Trip(Tour(keys, d), Keyed(keys, geocode))
  }
}

=== FILE: TripPlanner.dfy ===
/** The trip planner of `components/trip-planner/trip-planner.js`: reading
    the home city and the comma-separated stops, the Plan button's request
    cycle, and the points and segments `drawRoute` builds from the server's
    answer. The map projection is a parameter; drawing is left out. */
module TripPlanner {
  import opened Wrappers
  import Text

  // ---------------------------------------------------------------------
  // Input parsing
  // ---------------------------------------------------------------------

  /** The non-empty strings of `xs`, in order (`filter(Boolean)`). */
  function NonEmpty(xs: seq<string>): (r: seq<string>)
    ensures forall k :: 0 <= k < |r| ==> r[k] != ""
    ensures forall x :: x in r <==> x in xs && x != ""
    ensures (forall k :: 0 <= k < |xs| ==> xs[k] != "") ==> r == xs
    ensures |xs| == 1 ==> r == (if xs[0] == "" then [] else xs)
  {
    if |xs| == 0 then []
    else
      var rest := NonEmpty(xs[1..]);
      assert xs == [xs[0]] + xs[1..];
      if xs[0] == "" then rest else [xs[0]] + rest
  }

  /** The filter keeps order: filtering a concatenation filters each part. */
  lemma {:induction false} NonEmptyConcat(a: seq<string>, b: seq<string>)
    ensures NonEmpty(a + b) == NonEmpty(a) + NonEmpty(b)
  {
    if |a| == 0 {
      assert a + b == b;
    } else {
      assert (a + b)[0] == a[0] && (a + b)[1..] == a[1..] + b;
      NonEmptyConcat(a[1..], b);
    }
  }

  /** Each string trimmed (`map(s => s.trim())`). */
  function TrimAll(xs: seq<string>): (r: seq<string>)
    ensures |r| == |xs| && forall k :: 0 <= k < |xs| ==> r[k] == Text.Trim(xs[k])
  {
    if |xs| == 0 then []
    else
      assert forall k :: 1 <= k < |xs| ==> xs[k] == xs[1..][k - 1];
      [Text.Trim(xs[0])] + TrimAll(xs[1..])
  }

  /** A stop as the planner sends it: non-empty, trimmed, without a comma. */
  predicate CleanStop(x: string) {
    x != "" && Text.IsTrimmed(x) && ',' !in x
  }

  /** `stops.value.split(",").map(s => s.trim()).filter(Boolean)`: every
      stop is clean. */
  function ParseStops(s: string): (r: seq<string>)
    ensures forall k :: 0 <= k < |r| ==> CleanStop(r[k])
  {
    var pieces := Text.Split(s, ',');
    var trimmed := TrimAll(pieces);
    forall k | 0 <= k < |trimmed| ensures Text.IsTrimmed(trimmed[k]) && ',' !in trimmed[k] {
      Text.TrimKeepsAbsent(pieces[k], ',');
    }
    var r := NonEmpty(trimmed);
    forall k | 0 <= k < |r| ensures CleanStop(r[k]) {
      assert r[k] in trimmed;
    }
    r
  }

  /** A list of clean stops is read back exactly from its comma-joined
      text. */
  lemma ParseStopsJoin(stops: seq<string>)
    requires forall k :: 0 <= k < |stops| ==> CleanStop(stops[k])
    ensures ParseStops(Text.Join(stops, ",")) == stops
  {
    var s := Text.Join(stops, ",");
    if |stops| == 0 {
      ParseStopsEmpty(s);
    } else {
      assert Text.Split(s, ',') == stops by {
        Text.SplitJoin(stops, ',');
      }
      assert NonEmpty(TrimAll(stops)) == stops by {
        CleanStopsFixed(stops);
      }
      ParseStopsSteps(s);
    }
  }

  /** A field without a comma holds one stop, its trimmed text, unless that
      is empty. */
  lemma ParseStopsOne(s: string)
    requires ',' !in s
    ensures ParseStops(s) == (if Text.Trim(s) == "" then [] else [Text.Trim(s)])
  {
    ParseStopsSteps(s);
    assert Text.Split(s, ',') == [s];
  }

  /** The stops of a field are the stops before its first comma followed by
      the stops after it: together with `ParseStopsOne` this fixes which
      stops are read and in what order. */
  lemma ParseStopsConcat(a: string, b: string)
    ensures ParseStops(a + "," + b) == ParseStops(a) + ParseStops(b)
  {
    var pa, pb := Text.Split(a, ','), Text.Split(b, ',');
    Text.SplitConcat(a, b, ',');
    CleanPiecesConcat(pa, pb);
    ParseStopsSteps(a + "," + b);
    ParseStopsSteps(a);
    ParseStopsSteps(b);
  }

  /** Trimming and filtering pieces works piece by piece. */
  lemma CleanPiecesConcat(pa: seq<string>, pb: seq<string>)
    ensures NonEmpty(TrimAll(pa + pb)) == NonEmpty(TrimAll(pa)) + NonEmpty(TrimAll(pb))
  {
    TrimAllConcat(pa, pb);
    NonEmptyConcat(TrimAll(pa), TrimAll(pb));
  }

  lemma {:induction false} TrimAllConcat(pa: seq<string>, pb: seq<string>)
    ensures TrimAll(pa + pb) == TrimAll(pa) + TrimAll(pb)
  {
    if |pa| == 0 {
      assert pa + pb == pb;
    } else {
      assert (pa + pb)[0] == pa[0] && (pa + pb)[1..] == pa[1..] + pb;
      TrimAllConcat(pa[1..], pb);
    }
  }

  /** Trimming and dropping empty strings leave clean stops as they are. */
  lemma CleanStopsFixed(stops: seq<string>)
    requires forall k :: 0 <= k < |stops| ==> CleanStop(stops[k])
    ensures NonEmpty(TrimAll(stops)) == stops
  {
    forall k | 0 <= k < |stops| ensures Text.Trim(stops[k]) == stops[k] {
      Text.TrimTrimmed(stops[k]);
    }
    assert TrimAll(stops) == stops;
  }

  /** An empty field gives no stops. */
  lemma ParseStopsEmpty(s: string)
    requires |s| == 0
    ensures ParseStops(s) == []
  {
    ParseStopsSteps(s);
    assert Text.Split(s, ',') == [s];
    var t := TrimAll([s]);
    assert |Text.Trim(s)| == 0;
    assert t[0] == s;
    assert NonEmpty([s]) == [];
  }

  /** The three steps of `ParseStops`, one after the other. */
  lemma ParseStopsSteps(s: string)
    ensures ParseStops(s) == NonEmpty(TrimAll(Text.Split(s, ',')))
  {
  }

  // ---------------------------------------------------------------------
  // The Plan button
  // ---------------------------------------------------------------------

  /** The JSON body of the POST to `/api/route`. */
  datatype RouteRequest = RouteRequest(home: string, stops: seq<string>)

  /** What the planner panel shows. */
  datatype Panel = Panel(
    planDisabled: bool,
    caption: string,
    alerted: bool,
    request: Option<RouteRequest>)

  /** The synchronous part of the click handler: a blank home city raises an
      alert and sends nothing; otherwise the button is disabled, relabelled,
      and home and stops are posted. */
  function PlanClick(p: Panel, home: string, stops: string): (r: Panel)
    ensures Text.Trim(home) == "" ==> r == p.(alerted := true)
    ensures Text.Trim(home) != "" ==>
              r.planDisabled && r.caption == "Planning…"
              && r.request == Some(RouteRequest(Text.Trim(home), ParseStops(stops)))
    ensures Text.Trim(home) != "" ==>
              r == p.(planDisabled := true, caption := "Planning…", request := r.request)
  {
    var homeCity := Text.Trim(home);
    if homeCity == "" then p.(alerted := true)
    else p.(planDisabled := true, caption := "Planning…", request := Some(RouteRequest(homeCity, ParseStops(stops))))
  }

  /** The rest of the handler once the request settles: success draws the
      route, failure alerts; either way the caption goes back to "Plan" and the
      `finally` block re-enables the button. */
  function PlanSettled(p: Panel, ok: bool): (r: Panel)
    ensures !r.planDisabled && r.caption == "Plan" && r.request == p.request
    ensures r.alerted == (p.alerted || !ok)
  {
    if ok then p.(planDisabled := false, caption := "Plan")
    else p.(planDisabled := false, caption := "Plan", alerted := true)
  }

  /** A click that sends a request always ends with the button enabled, and a
      blank home never disables it. */
  lemma PlanReenables(p: Panel, home: string, stops: string, ok: bool)
    requires !p.planDisabled
    ensures !PlanSettled(PlanClick(p, home, stops), ok).planDisabled
    ensures Text.Trim(home) == "" ==> !PlanClick(p, home, stops).planDisabled
  {
  }

  // ---------------------------------------------------------------------
  // Points and segments
  // ---------------------------------------------------------------------

  /** A coordinate pair as the server sends it: latitude first. */
  datatype LatLon = LatLon(lat: real, lon: real)

  /** One drawn city: its name, coordinates and projected screen point. */
  datatype Point = Point(name: string, lat: real, lon: real, x: real, y: real)

  /** A GeoJSON position: longitude, then latitude (section 3.1.1 of
      RFC 7946). */
  function Position(p: Point): (r: seq<real>)
    ensures |r| == 2 && r[0] == p.lon && r[1] == p.lat
  {
    [p.lon, p.lat]
  }

  /** A two-point GeoJSON LineString. */
  datatype Segment = Segment(start: seq<real>, end: seq<real>)

  /** `data.coordinates[name]` for the entries of `Object.entries(coords)`. */
  function LookupCoord(coords: seq<(string, LatLon)>, name: string): (r: Option<LatLon>)
    ensures r.Some? <==> exists i :: 0 <= i < |coords| && coords[i].0 == name
    ensures r.Some? ==> exists i :: 0 <= i < |coords| && coords[i] == (name, r.value)
  {
    if |coords| == 0 then None
    else if coords[0].0 == name then Some(coords[0].1)
    else
      var r := LookupCoord(coords[1..], name);
      assert forall i :: 1 <= i < |coords| ==> coords[i] == coords[1..][i - 1];
      r
  }

  /** `Object.keys(coords)`. */
  function Keys(coords: seq<(string, LatLon)>): (r: seq<string>)
    ensures |r| == |coords| && forall i :: 0 <= i < |coords| ==> r[i] == coords[i].0
  {
    seq(|coords|, i requires 0 <= i < |coords| => coords[i].0)
  }

  /** The point for one name, or `null` when the name has no coordinates or
      the projection rejects them. */
  function PointFor(name: string, coords: seq<(string, LatLon)>, project: (real, real) -> Option<(real, real)>): (r: Option<Point>)
    ensures r.Some? <==> LookupCoord(coords, name).Some?
                         && project(LookupCoord(coords, name).value.lon, LookupCoord(coords, name).value.lat).Some?
    ensures r.Some? ==> r.value.name == name && LatLon(r.value.lat, r.value.lon) == LookupCoord(coords, name).value
  {
    match LookupCoord(coords, name)
    case None => None
    case Some(c) =>
      match project(c.lon, c.lat)
      case None => None
      case Some(xy) => Some(Point(name, c.lat, c.lon, xy.0, xy.1))
  }

  /** `order.map(...).filter(Boolean)`: the drawable names, in order. */
  function Points(order: seq<string>, coords: seq<(string, LatLon)>, project: (real, real) -> Option<(real, real)>): (r: seq<Point>)
    ensures |r| <= |order|
    ensures forall k :: 0 <= k < |r| ==> PointFor(r[k].name, coords, project) == Some(r[k])
    ensures (forall i :: 0 <= i < |order| ==> PointFor(order[i], coords, project).Some?) ==>
              |r| == |order| && forall i :: 0 <= i < |order| ==> r[i].name == order[i]
    ensures |order| == 1 ==>
              r == (if PointFor(order[0], coords, project).Some? then [PointFor(order[0], coords, project).value] else [])
  {
    if |order| == 0 then []
    else
      var rest := Points(order[1..], coords, project);
      assert forall i :: 1 <= i < |order| ==> order[i] == order[1..][i - 1];
      match PointFor(order[0], coords, project)
      case None => rest
      case Some(p) => [p] + rest
  }

  /** The points follow the order: the points of a concatenation are the
      points of each part, undrawable cities dropped where they stand. */
  lemma {:induction false} PointsConcat(a: seq<string>, b: seq<string>, coords: seq<(string, LatLon)>,
                                        project: (real, real) -> Option<(real, real)>)
    ensures Points(a + b, coords, project) == Points(a, coords, project) + Points(b, coords, project)
  {
    if |a| == 0 {
      assert a + b == b;
    } else {
      assert (a + b)[0] == a[0] && (a + b)[1..] == a[1..] + b;
      PointsConcat(a[1..], b, coords, project);
    }
  }

  /** The segment loop: one LineString per pair of consecutive points. */
  function Segments(pts: seq<Point>): (r: seq<Segment>)
    ensures |r| == if |pts| == 0 then 0 else |pts| - 1
    ensures forall i :: 0 <= i < |r| ==> r[i] == Segment(Position(pts[i]), Position(pts[i + 1]))
  {
    if |pts| <= 1 then []
    else seq(|pts| - 1, i requires 0 <= i < |pts| - 1 => Segment(Position(pts[i]), Position(pts[i + 1])))
  }

  /** What `drawRoute` draws: the points and the segments between them. */
  datatype Drawing = Drawing(points: seq<Point>, segments: seq<Segment>)

  /** `drawRoute(..., data)`: the order is `data.order` when the answer has
      one (an empty list included) and the coordinate keys otherwise. */
  function DrawRoute(order: Option<seq<string>>, coords: Option<seq<(string, LatLon)>>,
                     project: (real, real) -> Option<(real, real)>): (r: Drawing)
    ensures var cs := if coords.Some? then coords.value else [];
            r.points == Points(if order.Some? then order.value else Keys(cs), cs, project)
    ensures r.segments == Segments(r.points)
  {
    var cs := if coords.Some? then coords.value else [];
    var names := if order.Some? then order.value else Keys(cs);
    var pts := Points(names, cs, project);
    Drawing(pts, Segments(pts))
  }

  /** The segments form one chain through the points: each starts where the
      previous one ended, the first starts at the first point and the last
      ends at the last point. */
  lemma SegmentsChain(pts: seq<Point>)
    requires |pts| >= 2
    ensures forall i :: 0 < i < |Segments(pts)| ==> Segments(pts)[i].start == Segments(pts)[i - 1].end
    ensures Segments(pts)[0].start == Position(pts[0])
    ensures Segments(pts)[|Segments(pts)| - 1].end == Position(pts[|pts| - 1])
  {
  }

  /** When every city of the order has coordinates and projects, every city
      is drawn, in the order given, joined by one segment fewer than there
      are cities. */
  lemma AllCitiesDrawn(order: seq<string>, coords: seq<(string, LatLon)>, project: (real, real) -> Option<(real, real)>)
    requires |order| > 0
    requires forall i :: 0 <= i < |order| ==> exists j :: 0 <= j < |coords| && coords[j].0 == order[i]
    requires forall x: real, y: real :: project(x, y).Some?
    ensures |DrawRoute(Some(order), Some(coords), project).points| == |order|
    ensures |DrawRoute(Some(order), Some(coords), project).segments| == |order| - 1
    ensures forall i :: 0 <= i < |order| ==> DrawRoute(Some(order), Some(coords), project).points[i].name == order[i]
  {
    assert forall i :: 0 <= i < |order| ==> PointFor(order[i], coords, project).Some?;
  }
}

=== FILE: Values.dfy ===
/** The JSON-compatible values that travel from the Python server to the
    browser, with the truthiness rules of both languages. */
module Values {
  import opened Wrappers

  /** A value as Python holds it and as JSON carries it to JavaScript.
      `Composite` stands for a list or dict (array or object); only whether it
      is empty matters to the code modelled here. Python `int` and `float`
      values are both `Num`, over the reals. */
  datatype Value =
    | Null
    | Bool(b: bool)
    | Num(x: real)
    | Str(s: string)
    | Composite(isEmpty: bool)

  /** Python's `bool(v)`. */
  predicate Truthy(v: Value) {
    match v
    case Null => false
    case Bool(b) => b
    case Num(x) => x != 0.0
    case Str(s) => s != ""
    case Composite(e) => !e
  }

  /** JavaScript's `ToBoolean(v)` after JSON transport: arrays and objects are
      truthy even when empty. */
  predicate JsTruthy(v: Value) {
    match v
    case Composite(_) => true
    case _ => Truthy(v)
  }

  /** Python's `a or b`: `a` when it is truthy, else `b`. */
  function PyOr(a: Value, b: Value): (r: Value)
    ensures Truthy(a) ==> r == a
    ensures !Truthy(a) ==> r == b
  {
    if Truthy(a) then a else b
  }

  /** JavaScript's `a || b`. */
  function JsOr(a: Value, b: Value): (r: Value)
    ensures JsTruthy(a) ==> r == a
    ensures !JsTruthy(a) ==> r == b
  {
    if JsTruthy(a) then a else b
  }

  /** Python's `isinstance(v, (int, float))`, with the numeric value when it
      holds. `bool` is a subclass of `int`, so `True` and `False` are numbers
      1 and 0. */
  function AsNumber(v: Value): (r: Option<real>)
    ensures r.Some? <==> (v.Num? || v.Bool?)
    ensures v.Num? ==> r == Some(v.x)
  {
    match v
    case Num(x) => Some(x)
    case Bool(b) => Some(if b then 1.0 else 0.0)
    case _ => None
  }

  /** A preference as `float()` sees it: the number it parses to, or a value
      on which `float()` raises. */
  datatype PrefVal = Parsed(x: real) | Unparseable

  /** `float(prefs.get(name, 0))`, with 0 when `float` raises. */
  function UserWeight(prefs: map<string, PrefVal>, name: string): (r: real)
    ensures name !in prefs ==> r == 0.0
    ensures name in prefs && prefs[name].Unparseable? ==> r == 0.0
    ensures name in prefs && prefs[name].Parsed? ==> r == prefs[name].x
  {
    if name in prefs then (match prefs[name] case Parsed(x) => x case Unparseable => 0.0) else 0.0
  }
}

=== FILE: Wrappers.dfy ===
/** Failure-carrying datatypes shared by every module of the model. */
module Wrappers {

  /** An optional value: `None` stands for Python's `None`, JavaScript's
      `undefined`/`null`, a missing key or a lookup that found nothing. */
  datatype Option<+T> = None | Some(value: T) {

    /** The carried value, or `default` when there is none. */
    function GetOr(default: T): T {
      match this
      case Some(v) => v
      case None => default
    }
  }

  /** The outcome of an operation that the source lets raise. */
  datatype Result<+R, +E> = Success(value: R) | Failure(error: E)
}
